=== FILE: README.md ===
# logicfl-npe-finder: a Dafny model of the fact extractor, the propagation graph and the test analyzer

logicfl-npe-finder is a VS Code extension that explains Java null-pointer
exceptions. Its core has three parts, and this project models all three.

1. `PrologFactsHandler` (src/ast-to-facts.ts) walks a Java AST. It emits a
   flat list of Prolog facts (`line`, `range`, `class`, `code`, `name`,
   `name_ref`, `expr`, `ref`, `method`, `param`, `stmt`, `assign`,
   `return`, `throw`, `method_invoc`, `argument`, `cond_expr`, `literal`).
   The facts refer to entities by ids such as `expr_17` or `method_4`. Ids
   come from one module-level counter shared by every call.
2. `buildPropagationGraph` (src/buildPropagationGraph.ts) reads the
   `assign` facts and the code facts back. It starts at the variable and
   line where the NPE surfaced. From there it repeatedly follows the latest
   assignment of the current variable strictly above the current line. The
   result is a chain of `id@line` nodes, its edges and a summary.
3. The test analyzer (src/logicflTestAnalyzer.ts) does three things:
   - it derives the Gradle `--tests` filter from a VS Code test id;
   - it sorts the JUnit XML test cases into passed classes and failed tests,
     and writes them to `tests.<tag>.json`;
   - it reads that file back to decide whether the test failed.

Modules follow the source files:

- `Common`: `Option` and `Result`.
- `JsStrings`: the JavaScript string operations the source relies on
  (`split`, `includes`, `trim`, ASCII `toLowerCase`, decimal printing).
- `Ids`: `generateId` and the shape of generated ids.
- `JavaAst`: the AST the extractor consumes.
- `Facts`: the fact variants and the views of a fact list.
- `FactHelpers`: the private helpers of `PrologFactsHandler`.
- `Extractor` and `ExtractorProperties`: the `process*` walk and its
  properties.
- `Handler`: the `processAST` and `processSourceFile` entry points.
- `PropagationGraph` and `GraphBuilder`: `buildPropagationGraph`.
- `TestAnalyzer`: src/logicflTestAnalyzer.ts.

**Facts and ids.** Each fact is a datatype value, not a printed line. A
generated id is `Gen(category, n)`, and its text is `<prefix>_<n>` (for
example `expr_17`). The sentinels `ExprNone`, `unknown_range` and
`unknown_line` are separate constructors.

**Modelling the walk.** Each `process*` function returns three things: the
id it produced, the counter after its last `generateId`, and the facts it
pushed, in push order. The output of a whole call is the concatenation of
these pieces in call order, which is exactly the order of the source's
`push` calls.

**Where the code crashes.** Several source paths read `range.start` without
checking that the range exists:

- name expressions;
- invocations;
- conditional expressions, and conditional and assignment statements;
- variable fragments with an initializer;
- return and throw statements under a method.

On those paths a missing range throws a TypeError, which rejects
`processAST`. The model returns `Failure(MissingRange(n))` there, where `n`
is the counter at the failing read. The counter is global and the line map
is a field of the handler, so both keep what the rejected call did to them:
`ProcessAST` returns the advanced handler state along with the failure.

**Missing `root_cause.txt`.** `buildPropagationGraph` checks that
`logic-fl.pl` and `code.facts.pl` exist, but reads `root_cause.txt` without
such a check, so a missing file throws. The model returns
`Failure(RootCauseUnreadable)` there, and the empty result only when one of
the two checked files is missing or no NPE line is found.

**Behaviours the model makes explicit:**

- `escapeString` does not escape backslashes, so two different strings can
  print the same (`EscapeStringCollision`).
- `findMethodId` only recognises a parent whose id starts with `method_`.
  Yet every statement the walk reaches has a block or statement parent.
  So no `return` or `throw` fact is ever emitted from a method body
  (`BlockNeverExits`).
- `analyzeTestInfoFromTestItem` reads back a file named after the test id's
  class. `parseJUnitResultsAndWriteTestInfo` writes a file named after the
  class of the last test case. When these differ, the analysis misses the
  failures (`AnalyzeMissesOtherTag`).

## Model

| member | source | states |
|---|---|---|
| Ids.GenerateId | src/ast-to-facts.ts:37-39 | each call advances the counter by exactly one, and the id it returns was issued inside that one-step window |
| Ids.GenerateIdText | src/ast-to-facts.ts:37-39 | the printed id is the category prefix, `_`, then the decimal counter, and the counter can be read back from that text |
| Ids.SuccessiveIdsDistinct | src/ast-to-facts.ts:37-39 | two successive calls never print the same id, whatever their categories |
| Ids.IdCounterOfMakeId | src/ast-to-facts.ts:37-39 | parsing the digits after the last `_` of `<prefix>_<n>` gives back `n` |
| Ids.MakeIdInjective | src/ast-to-facts.ts:37-39 | equal printed ids have equal prefixes and equal counters |
| Ids.PrefixInjective | src/ast-to-facts.ts:37-39 | distinct id categories have distinct prefixes |
| Ids.TextInjective | src/ast-to-facts.ts:37-39 | distinct ids (generated or sentinel) never print the same text |
| Ids.TextNonEmpty | src/ast-to-facts.ts:37-39 | no id prints as the empty string |
| Ids.StartsWithMethodPrefix | src/ast-to-facts.ts:817-824 | an id's text starts with `method_` exactly when it was generated for a method |
| Ids.IssuedInDisjoint | src/ast-to-facts.ts:37-39 | ids issued in disjoint counter windows are distinct |
| Facts.AssignsAppend | src/ast-to-facts.ts:552-570 | the `assign` facts of two concatenated fact lists are those of the first followed by those of the second |
| Facts.ExitsAppend | src/ast-to-facts.ts:404-436 | the `return`/`throw` facts of a concatenation are those of each part, in order |
| Facts.CallArgumentsAppend | src/ast-to-facts.ts:633-642 | the `(argument id, position)` pairs recorded for a call in a concatenation are those of each part, in order |
| Facts.MethodParamsAppend | src/ast-to-facts.ts:309-361 | the `(param id, position)` pairs recorded for a method in a concatenation are those of each part, in order |
| FactHelpers.LineNumber | src/ast-to-facts.ts:777-780 | the line of a position is one more than the number of newlines before it, with the position clamped to the source |
| FactHelpers.LineNumberMonotone | src/ast-to-facts.ts:777-780 | a later position never lies on an earlier line |
| FactHelpers.LineId | src/ast-to-facts.ts:782-784 | a numbered line maps to its id, and any other line to `unknown_line` |
| FactHelpers.CodeFromRange | src/ast-to-facts.ts:762-775 | a missing range or a zero bound gives `""`; a well-formed range gives exactly that slice of the source; the code is never longer than the source |
| FactHelpers.EscapeStringShape | src/ast-to-facts.ts:826-831 | the escaped text holds no newline, and is longer than the input by one character per quote and per newline |
| FactHelpers.UnescapeEscapeString | src/ast-to-facts.ts:826-831 | for input without backslashes, unescaping the escaped text gives the input back |
| FactHelpers.EscapeStringCollision | src/ast-to-facts.ts:826-831 | a backslash followed by `n` and a real newline escape to the same text, so without the backslash restriction the round trip fails |
| FactHelpers.NameType | src/ast-to-facts.ts:740-760 | the role is that of the first marker (METHOD:, FIELD:, VARIABLE:, TYPE:, PACKAGE:) the binding contains, and `unknown` exactly when the binding is empty or contains none |
| FactHelpers.FindMethodId | src/ast-to-facts.ts:817-824 | a found method id is the parent id itself |
| FactHelpers.FindMethodIdByText | src/ast-to-facts.ts:817-824 | a method id is found exactly when the parent's text starts with `method_` |
| Extractor.RangeId | src/ast-to-facts.ts:786-802 | a missing range gives `unknown_range` and no fact; a present range takes one id and pushes one `range` fact with the start, the length and both line numbers |
| Extractor.StartLine | src/ast-to-facts.ts:663 | reading the start line crashes exactly when the range is missing, the crash carrying the counter at that moment, and otherwise gives the line of the range's start |
| Extractor.EmitName | src/ast-to-facts.ts:273-288 | a `name` fact with the given kind, parent, position and text, preceded only by its range fact |
| Extractor.DeclareName | src/ast-to-facts.ts:273-288 | a declared name starts with its `name_ref` fact (role, identifier, binding or `unknown`) and ends with its `name` fact under the declaring entity |
| Extractor.ProcessTypeRef | src/ast-to-facts.ts:290-307 | a type reference is one `code` fact of kind TYPE under its owner at position 0, after its range fact and before its optional name facts |
| Extractor.ProcessExpression | src/ast-to-facts.ts:583-590 | an absent expression gives `ExprNone` with no facts and no id used; otherwise every fact is an expression-level fact and the returned id was issued during the call |
| Extractor.ProcessExpr | src/ast-to-facts.ts:592-737 | a processed expression uses at least one id; its facts are expression-level facts and its id was issued during the call |
| Extractor.ProcessKind | src/ast-to-facts.ts:603-737 | the kind dispatch only issues ids after the expression's own id and returns one of them |
| Extractor.ProcessInvocation | src/ast-to-facts.ts:605-643 | an invocation returns the expression id, emits only call-level facts, and crashes when its range is missing; its `method_invoc` fact is in ExtractorProperties.InvocationFact |
| Extractor.ProcessArguments | src/ast-to-facts.ts:633-642 | the argument loop never moves the counter back, and every `argument` fact it emits names the call; numbering and ids are in ExtractorProperties.ArgumentsIndexed |
| Extractor.ProcessName | src/ast-to-facts.ts:645-668 | a name expression crashes exactly when its range is missing; otherwise it emits `name_ref`, `name` and `ref` facts and returns the new name id |
| Extractor.ProcessLiteral | src/ast-to-facts.ts:670-682 | a literal returns a new literal id and emits one `literal` fact for it, after its range fact |
| Extractor.ProcessConditional | src/ast-to-facts.ts:684-713 | with a part missing nothing is emitted; otherwise a `cond_expr` fact joins three pairwise distinct sub-expression ids, and a missing range crashes |
| ExtractorProperties.ConditionalFact | src/ast-to-facts.ts:689-711 | a complete conditional expression ends with `cond_expr(cond, then, else, line)`: the ids returned for children 0, 1, 2 in that order and the expression's start line id |
| Extractor.ProcessFieldAccess | src/ast-to-facts.ts:715-733 | with receiver or name missing nothing is emitted; otherwise the field name is a `name` fact at position 1 under the access |
| Extractor.ProcessBlock | src/ast-to-facts.ts:369-385 | a block gets a new block id, and its facts never contain a `return` or `throw` fact |
| Extractor.ProcessStatements | src/ast-to-facts.ts:380-384 | the statement loop of a block never moves the counter back and emits no exit fact |
| Extractor.ProcessStatement | src/ast-to-facts.ts:387-581 | a statement gets a new statement id and a `stmt` fact, and under a non-method parent it emits no exit fact |
| Extractor.ProcessStatementKind | src/ast-to-facts.ts:402-578 | only a return or throw directly under a method can emit exit facts |
| Extractor.ProcessExit | src/ast-to-facts.ts:404-436 | an exit under a non-method parent emits no exit fact; under a method, a value with a missing range crashes |
| Extractor.ProcessVarDecl | src/ast-to-facts.ts:444-499 | a variable declaration never emits an exit fact |
| Extractor.ProcessFragments | src/ast-to-facts.ts:446-478 | the fragment loop never moves the counter back and emits no exit fact; its `assign` facts are counted in ExtractorProperties.FragmentsAssigns |
| Extractor.ProcessFragment | src/ast-to-facts.ts:446-479 | a fragment uses at least one id, emits no exit fact, and crashes when it has a name and an initializer but no range |
| Extractor.ProcessIf | src/ast-to-facts.ts:501-519 | an `if` without a condition emits nothing, and no `if` emits exit facts of its own |
| Extractor.ProcessCondStmt | src/ast-to-facts.ts:521-550 | with a part missing nothing is emitted; otherwise the `cond_expr` fact joins three distinct ids, and a missing range crashes |
| ExtractorProperties.CondStmtFact | src/ast-to-facts.ts:526-548 | a complete conditional statement ends with `cond_expr(cond, then, else, line)`: the ids returned for children 0, 1, 2 in that order and the statement's start line id |
| Extractor.ProcessAssignment | src/ast-to-facts.ts:552-570 | an assignment emits no exit fact and crashes when both sides are present but the range is missing |
| Extractor.ProcessDecl | src/ast-to-facts.ts:105-149 | a package or import declaration without a range emits nothing; with one, its `code` fact uses the range id drawn right after its own id |
| Extractor.ProcessType | src/ast-to-facts.ts:151-198 | a type gets a new type id, and nothing in it emits an exit fact |
| Extractor.ProcessNestedTypes | src/ast-to-facts.ts:192-197 | the nested-type loop never moves the counter back and emits no exit fact |
| Extractor.ProcessFields | src/ast-to-facts.ts:178-183 | the fields loop never moves the counter back and emits no data-flow fact |
| Extractor.ProcessField | src/ast-to-facts.ts:200-254 | a field gets a new field id, and its facts hold no data-flow fact |
| Extractor.MethodFacts | src/ast-to-facts.ts:256-271 | the `method` fact and the METHOD `code` fact each use their own range id, drawn in that order after the method id |
| Extractor.ProcessMethods | src/ast-to-facts.ts:185-190 | the methods loop never moves the counter back and emits no exit fact |
| Extractor.ProcessMethod | src/ast-to-facts.ts:256-367 | a method gets a new method id, and its facts never contain an exit fact |
| Extractor.ProcessParams | src/ast-to-facts.ts:309-361 | the parameters from position `i` emit exactly one `param` fact each for the method, numbered `i, i+1, …` in order, each with a fresh `param_` id issued during the loop |
| Extractor.ProcessParam | src/ast-to-facts.ts:309-361 | each parameter starts with a `param` fact binding its new id to its position and method |
| Extractor.ProcessImports | src/ast-to-facts.ts:128-149 | every import uses at least one id and emits only declaration facts |
| Extractor.ProcessTypes | src/ast-to-facts.ts:97-102 | the types loop never moves the counter back and emits no exit fact |
| Extractor.ProcessCompilationUnit | src/ast-to-facts.ts:75-103 | a compilation unit never emits an exit fact and never moves the counter backwards |
| ExtractorProperties.KindResult | src/ast-to-facts.ts:603-737 | the kind dispatch returns the expression id, except for names (a name id) and literals (a literal id) |
| ExtractorProperties.ExprShape | src/ast-to-facts.ts:592-601 | right after its `range` fact (none for a missing range), a processed expression emits its `expr` fact: its own id, its kind, its parent and position, its range id and its escaped code |
| ExtractorProperties.ExprOutcome | src/ast-to-facts.ts:583-737 | a name crashes exactly when its range is missing, an invocation without a range crashes, and literals and other kinds never crash |
| ExtractorProperties.ArgOuts | src/ast-to-facts.ts:633-640 | the `k`-th result is what processing argument `i + k` as child `i + k + 1` of the call returns, from the counter the previous argument left |
| ExtractorProperties.ArgumentsIndexed | src/ast-to-facts.ts:633-642 | the argument loop from position `i` records `argument(arg, i + k, call)` for every argument, once each and in order, `arg` being the id that processing argument `i + k` as child `i + k + 1` returned |
| ExtractorProperties.InvocationArgumentsIndexed | src/ast-to-facts.ts:605-643 | an invocation records `argument(arg_k, k, call)` for `k = 0..n-1` and no other `argument` fact for its id, `arg_k` being the id that processing argument `k` as child `k + 1` returned; the receiver is processed as child 0 from the counter after the call's `name_ref`, `name_` and name-range ids, and the first argument starts where it stopped |
| ExtractorProperties.InvocationFact | src/ast-to-facts.ts:606-625 | right after the declaration facts of its method name, an invocation emits `method_invoc(call, ref, line)`: the call's expr id, the `name_ref` id drawn first, and the line id of the call's start line |
| ExtractorProperties.FragmentAssigns | src/ast-to-facts.ts:446-479 | a fragment with a name and an initializer emits exactly one `assign` fact, whose destination is the fragment's `name_` id (drawn right after its `name_ref` id), whose source is the id returned for the initializer as child `i + 1`, and whose line id is that of the fragment's start line; any other fragment emits none |
| ExtractorProperties.FragmentsAssigns | src/ast-to-facts.ts:446-479 | the fragments from position `i` emit one `assign` fact per initialized, named fragment |
| ExtractorProperties.VarDeclAssigns | src/ast-to-facts.ts:444-499 | a declaration emits exactly as many `assign` facts as it has initialized, named fragments |
| ExtractorProperties.AssignmentAssigns | src/ast-to-facts.ts:552-570 | an assignment statement with both sides emits exactly one `assign` fact: destination the id returned for the left side (child 0), source the id returned for the right side (child 1), line id of the statement's start line, the two ids distinct; one missing a side emits none |
| ExtractorProperties.ExitEmitted | src/ast-to-facts.ts:404-436 | directly under a method, a return or throw with a value emits exactly one exit fact: `return(expr, method, line)` or `throw(method, expr, line)` with the id returned for the value, that method id and the statement's start line id; otherwise none |
| ExtractorProperties.BlockNeverExits | src/ast-to-facts.ts:369-385 | no block ever yields a `return` or `throw` fact, because its statements' parent is never a method id |
| ExtractorProperties.MethodHeaderStart | src/ast-to-facts.ts:256-271 | a method's output opens with a `range` fact, its `method` fact, a second `range` fact and its METHOD `code` fact under its parent (without a range, just the two facts), each of the two carrying its own range id |
| Handler.LineCount | src/ast-to-facts.ts:61 | the number of lines is one more than the number of newlines |
| Handler.LineNumberWithinFile | src/ast-to-facts.ts:777-780 | every position lies on a line between 1 and the line count |
| Handler.NumberedLinesSpec | src/ast-to-facts.ts:62-66 | the numbered lines are exactly `1..n`, line `k` mapped to the `k`-th line id |
| Handler.LineTableEntries | src/ast-to-facts.ts:62-66 | after numbering, lines `1..n` have the fresh ids, other earlier entries survive unchanged, and nothing else is added |
| Handler.LineTableStep | src/ast-to-facts.ts:62-66 | numbering one more line sets exactly that line's entry |
| Handler.LineIdAfterNumbering | src/ast-to-facts.ts:777-784 | after numbering, the line id of any position is the fresh id of its own line, never `unknown_line` |
| Handler.ProcessSourceFile | src/ast-to-facts.ts:59-73 | one `line` fact per line in order, then the file's `range` fact twice; one id per line plus one for the range; the line map renumbered |
| Handler.Walk | src/ast-to-facts.ts:46-57 | the walk starts after the class, line and range ids, and its facts hold no exit fact |
| Handler.Assemble | src/ast-to-facts.ts:36-57 | the output is the line facts, the two range facts, then the walk's facts, or the walk's crash; either way the handler keeps the counter where the walk stopped and the renumbered line map |
| Handler.ProcessAST | src/ast-to-facts.ts:36-66 | fails exactly when the walk crashes; in both cases the counter where the walk stopped and the renumbered line map carry over to the next call; on success it returns the source-file facts then the walk's facts |
| PropagationGraph.GroupByDstSpec | src/buildPropagationGraph.ts:104-111 | grouping by destination gives each variable its assignments' sources in input order, and has a key exactly for the variables assigned at least once |
| PropagationGraph.Below | src/buildPropagationGraph.ts:200 | the filter keeps every assignment strictly above the line and nothing else, and is empty exactly when none lies above it |
| PropagationGraph.ReduceLatest | src/buildPropagationGraph.ts:203-205 | the reduce returns one of the candidates |
| PropagationGraph.ReduceLatestSpec | src/buildPropagationGraph.ts:203-205 | the reduce returns the last candidate of greatest line |
| PropagationGraph.LatestIsLastMaximum | src/buildPropagationGraph.ts:203-205 | over any non-empty candidate list, the chosen source has the greatest line, and is the last such |
| PropagationGraph.Predecessor | src/buildPropagationGraph.ts:199-205 | a predecessor is an assignment into the current variable strictly above the current line, and there is none exactly when no such assignment exists |
| PropagationGraph.BelowLastMaximum | src/buildPropagationGraph.ts:199-205 | the last maximum of the filtered list sits at a position of the unfiltered list whose line is the greatest above the line and after which every assignment above the line is strictly earlier |
| PropagationGraph.PredecessorIsLatestBelow | src/buildPropagationGraph.ts:199-205 | the predecessor is the last assignment of greatest line among those above the current line, both in the filtered list and in the variable's own list of assignments |
| PropagationGraph.Chain | src/buildPropagationGraph.ts:191-218 | the traced chain starts at the root cause |
| PropagationGraph.ChainDecreasing | src/buildPropagationGraph.ts:191-218 | lines strictly decrease along the chain, so the trace terminates and no node repeats |
| PropagationGraph.ChainSteps | src/buildPropagationGraph.ts:191-218 | each chain element after the first is the predecessor of the one before it, and the last has no predecessor |
| PropagationGraph.KeyInjective | src/buildPropagationGraph.ts:157 | distinct targets have distinct `id@line` keys |
| PropagationGraph.NodesOf | src/buildPropagationGraph.ts:156-189 | one node per target, in trace order |
| PropagationGraph.ChainEdges | src/buildPropagationGraph.ts:207-211 | one edge per step, from the predecessor's key to the current key |
| PropagationGraph.AddNode | src/buildPropagationGraph.ts:156-189 | adding a node returns its key, leaves a list that already has the key unchanged, and appends the node otherwise |
| PropagationGraph.FreshKey | src/buildPropagationGraph.ts:194-196 | a target below every visited line has a key not yet visited and not yet among the nodes |
| PropagationGraph.DescendingGraphShape | src/buildPropagationGraph.ts:191-218 | any line-descending trace from the start gives a single chain: `n` nodes, `n-1` edges linking consecutive nodes, distinct keys, and only the first node styled as the start |
| PropagationGraph.ChainGraphShape | src/buildPropagationGraph.ts:191-218 | the graph of the traced chain is such a single chain |
| PropagationGraph.FirstText | src/buildPropagationGraph.ts:40-58 | the text found is that of the first entry of the right kind for the id with non-empty text, and nothing is found exactly when every such entry has empty text |
| PropagationGraph.MapIdToName | src/buildPropagationGraph.ts:36-61 | an id containing `literal` names `null`; otherwise the first `name` text of the id wins, then the first `expr` text, then the first `name_ref` text; a found name is never empty, and none is found exactly when no non-literal entry for the id has text |
| PropagationGraph.InfoPassSpec | src/buildPropagationGraph.ts:113-134 | after one pass, an id's info comes from the last entry of that kind for the id, and is otherwise left as it was |
| PropagationGraph.InfoMapLookup | src/buildPropagationGraph.ts:113-134 | an id's info comes from its last `literal` entry, else its last `expr` entry, else its last `name` entry, and the map has the id exactly when one exists |
| PropagationGraph.StripTestSuffix | src/buildPropagationGraph.ts:69 | a trailing `Test` in any letter case is removed, and nothing else changes |
| PropagationGraph.ClassTagOfTestId | src/buildPropagationGraph.ts:68-69 | the class tag of `prefix@pkg.Cls#m` is the simple class name without its `Test` suffix |
| GraphBuilder.TraceStepKeeps | src/buildPropagationGraph.ts:191-218 | one iteration of the loop moves the trace exactly one element further along the chain, keeping nodes, edges and the visited set in agreement with it |
| GraphBuilder.TraceStart | src/buildPropagationGraph.ts:191-193 | the queue holding only the root cause is the start of the chain |
| GraphBuilder.TraceDone | src/buildPropagationGraph.ts:191-218 | when the queue empties, the nodes and edges are exactly those of the whole chain |
| GraphBuilder.TraceBack | src/buildPropagationGraph.ts:191-218 | the loop produces exactly the chain's nodes and edges |
| GraphBuilder.NpeVariable | src/buildPropagationGraph.ts:224 | the summary variable is `null` for a literal id, the raw id when no entry of the id has text, and otherwise the first `name` text of the id, else its first `expr` text, else its first `name_ref` text |
| GraphBuilder.BuildPropagationGraph | src/buildPropagationGraph.ts:63-226 | the empty result when a result file is missing or no NPE line is found; a crash when `root_cause.txt` is missing; otherwise the chain's nodes and edges and a summary with the class file, the NPE line and the variable |
| TestAnalyzer.GradleTestTarget | src/logicflTestAnalyzer.ts:50-57 | the target starts with the class part, and adds `.` and the method part exactly when the id has a `#` and a non-empty method part |
| TestAnalyzer.TargetOfMethodId | src/logicflTestAnalyzer.ts:50-57 | a method id `prefix@Cls#m()` gives `Cls.m` |
| TestAnalyzer.TargetOfClassId | src/logicflTestAnalyzer.ts:50-57 | a class id without `#` gives the class part |
| TestAnalyzer.TargetOfEmptyMethod | src/logicflTestAnalyzer.ts:50-57 | an id ending `#()` gives the class part alone |
| TestAnalyzer.TestClassOfId | src/logicflTestAnalyzer.ts:14 | the class part of `prefix@Cls#rest` is `Cls` |
| TestAnalyzer.FileCases | src/logicflTestAnalyzer.ts:100-111 | a file whose name does not end in `.xml`, or whose parse has no suite or no test case, contributes no test case; a lone test case becomes a list of one; several keep their order; every case carries the suite's `system-out` |
| TestAnalyzer.FailureMessage | src/logicflTestAnalyzer.ts:124-128 | the message is the failure tag's message when non-empty, else the error tag's message when non-empty, else `Unknown Failure/Error`; it is never empty |
| TestAnalyzer.Classify | src/logicflTestAnalyzer.ts:112-147 | a case is ignored exactly when its name (without `()`) or its class is empty; otherwise a failure or error tag fails it with the tag message; without a tag it fails exactly when `system-out` mentions `error` in any letter case, with the trimmed output as message; else it passes |
| TestAnalyzer.FailedMessageNonEmpty | src/logicflTestAnalyzer.ts:118-142 | a failed case always has a non-empty message: the failure message when there is one, else the error message, else the fallback when a tag is present, and the trimmed output when the failure comes from `system-out` |
| TestAnalyzer.TagIsSimpleClassName | src/logicflTestAnalyzer.ts:113-114 | the tag is absent only when no test case was seen; otherwise it is the part of the last case's class name after its last `.`, recorded or not |
| TestAnalyzer.ParseJUnitResults | src/logicflTestAnalyzer.ts:88-164 | the parse fails exactly when some test case lacks its name or class; otherwise it gives the classified lists and the tag, with as many failed classes as failed tests |
| TestAnalyzer.ClassesPartition | src/logicflTestAnalyzer.ts:118-147 | the passed and the failed classes together are exactly the classes of the recorded test cases, as a multiset |
| TestAnalyzer.FailedListsInStep | src/logicflTestAnalyzer.ts:120-137 | the k-th failed class is the class of the k-th failed test |
| TestAnalyzer.NoFailedTestsIff | src/logicflTestAnalyzer.ts:120-142 | the failed-test list is empty exactly when no test case is classified as failed |
| TestAnalyzer.AnalyzeTestItem | src/logicflTestAnalyzer.ts:8-48 | failures are reported only when Gradle succeeded and the parse did not raise |
| TestAnalyzer.AnalyzeReportsFailures | src/logicflTestAnalyzer.ts:8-48 | when the tag matches the test id's class, failures are reported exactly when some test case failed |
| TestAnalyzer.AnalyzeMissesOtherTag | src/logicflTestAnalyzer.ts:8-48 | when the tag differs and no older file of the expected name exists, no failure is reported, whatever the test cases say |
| TestAnalyzer.ResultFileNameInjective | src/logicflTestAnalyzer.ts:153-163 | distinct tags give distinct result file names |

## Left out

- File system, `vscode`, `child_process` and console output are left out.
  The contents of the result files and of the output directory are
  parameters, and so is whether Gradle exited with status 0
  (`runGradleTestOnly`).
- Parsing is left out. The Java parser, the XML parser
  (`fast-xml-parser`) and the regular expressions over `assign`, code
  facts and `root_cause.txt` are all outside the model. Their results
  arrive as records: the AST, the parsed test suites, and the `assign`
  records, code entries and root-cause target.
- Fact printing is left out: each fact is a datatype value, not the text
  line `processAST` joins with newlines.
- Node labels and colours are left out. The model keeps each node's key
  and whether it is the start node, a `null` node or an ordinary node, but
  not the label string or the style object.
- `async`/`await` is left out: the walk is sequential and awaits nothing
  external, so it is modelled as plain functions.
- Directory paths, `mkdirSync` and the JSON layout of `tests.<tag>.json`
  are left out; the file is a map entry from its name to the three lists.
- Unicode case mapping is left out: `toLowerCase` and the `/Test$/i` match
  are modelled on ASCII letters only.
- A test case is modelled with at most one `failure` element and at most
  one `error` element.
- Each `?? "UnknownTest"` and `?? fqcn` fallback is left out, because
  `split` always returns a non-empty array and `pop` never yields
  `undefined` there.
- `extension.ts`, `runAnalyzer.ts`, `runTest.ts`,
  `generateConfiguration.ts`, `generateTestInfo.ts`,
  `highlightResult.ts`, `showPropagationGraph.ts`, `showWebview.ts`, the
  tree view and `logicFLItem.ts` are not part of this model.
- Extractor.ProcessFields, Extractor.ProcessMethods, Extractor.ProcessTypes, Extractor.ProcessNestedTypes, Extractor.ProcessStatements, Extractor.ProcessFragments:
  these loops state only the counter and the kinds of fact they emit. The
  ordinal and content each element gets is stated on ProcessField,
  ProcessMethod, ProcessType, ProcessStatement and ProcessFragment, not
  lifted to the loops (the fragment loop's `assign` count is, in
  ExtractorProperties.FragmentsAssigns).
- Handler.ProcessSourceFile, FactHelpers.LineNumber, FactHelpers.CodeFromRange:
  source text is a sequence of Unicode characters. JavaScript's `length`,
  `substring` and the parser's range offsets count UTF-16 code units, so a
  source with a character outside the Basic Multilingual Plane (an emoji in
  a string literal) gets a different file length, line numbers and code
  excerpts in the model.
- PropagationGraph.Chain: only the first element is stated on the function
  itself; descent and the predecessor steps are stated by ChainDecreasing
  and ChainSteps.

=== FILE: common.dfy ===
/** Failure-compatible wrappers shared by every module of the model. */
module Common {

  /** An optional value: `None` stands for JavaScript's `undefined`/`null`. */
  datatype Option<+T> = None | Some(value: T)

  /** Either a value or the reason the computation stopped. */
  datatype Result<+T, +E> = Success(value: T) | Failure(error: E) {

    predicate IsFailure() {
      Failure?
    }

    function PropagateFailure<U>(): Result<U, E>
      requires Failure?
    {
      Failure(error)
    }

    function Extract(): T
      requires Success?
    {
      value
    }
  }
}

=== FILE: extractor.dfy ===
/**
 * `PrologFactsHandler` (src/ast-to-facts.ts): a depth-first walk of the Java
 * syntax tree that appends fact records while drawing identifiers from the
 * global counter. Every step takes the counter, and returns the counter after
 * it together with the facts it appended, in order; the caller appends them
 * to its own, so the concatenation in call order is exactly the sequence of
 * `facts.push` calls. The source text, the class id and the line map, fixed
 * once `processSourceFile` has run, travel in an `Env`.
 *
 * The source reads `range.start` without a check in several places (name,
 * invocation and conditional expressions; fragments with an initializer;
 * conditional and assignment statements). A missing range there is a
 * TypeError that rejects `processAST`; the model returns `Failure(MissingRange(n))`,
 * where `n` is the counter at the failing read: the ids drawn before it stay
 * drawn, since the source's counter is global.
 */
module Extractor {
  import opened Common
  import opened JsStrings
  import opened Ids
  import opened JavaAst
  import opened Facts
  import opened FactHelpers

  datatype Env = Env(source: string, classId: Ident, lineMap: map<int, Ident>)

  /** The TypeError raised by reading `start` of a missing range, with the counter at that moment. */
  datatype Crash = MissingRange(next: nat)

  /** A step that returns an identifier: the id, the counter after the step, the facts it appended. */
  datatype Out = Out(id: Ident, next: nat, facts: seq<Fact>)

  /** A step that returns nothing: the counter after it and the facts it appended. */
  datatype Step = Step(next: nat, facts: seq<Fact>)

  predicate IsExit(f: Fact) {
    f.ReturnFact? || f.ThrowFact?
  }

  /** A data-flow fact: one of the relations only statements emit. */
  predicate IsFlow(f: Fact) {
    f.AssignFact? || IsExit(f)
  }

  /** The structural facts that declarations, names and types emit. */
  predicate IsDeclFact(f: Fact) {
    f.RangeFact? || f.CodeFact? || f.NameFact? || f.NameRefFact?
  }

  /**
   * What an expression may emit: no data-flow fact, and `argument` facts
   * only for invocations whose ids were issued while the counter ran through
   * `[lo, hi)`.
   */
  predicate ExprFacts(facts: seq<Fact>, lo: nat, hi: nat) {
    forall f | f in facts :: !IsFlow(f) && (f.ArgumentFact? ==> IssuedIn(f.invocation, lo, hi))
  }

  predicate NoExits(facts: seq<Fact>) {
    forall f | f in facts :: !IsExit(f)
  }

  lemma NoExitsConcat(a: seq<Fact>, b: seq<Fact>)
    requires NoExits(a) && NoExits(b)
    ensures NoExits(a + b)
  {
  }

  /** The number of `range` facts `getRangeId` emits for an optional range. */
  function RangeCount(r: Option<Range>): nat {
    if r.Some? then 1 else 0
  }

  /** The id `getRangeId` returns for an optional range when called at `counter`. */
  function RangeIdAt(r: Option<Range>, counter: nat): Ident {
    if r.Some? then Gen(RangeCat, counter) else UnknownRange
  }

  /**
   * `getRangeId(range)`: no range gives `"unknown_range"` and no fact;
   * otherwise a fresh `range_` id and one `range` fact owned by the class id
   * (not by the returned range id), spanning `end - start` characters over
   * non-decreasing lines.
   */
  function RangeId(env: Env, r: Option<Range>, counter: nat): (o: Out)
    ensures r.None? ==> o == Out(UnknownRange, counter, [])
    ensures r.Some? ==>
              && o.next == counter + 1
              && o.id == Gen(RangeCat, counter)
              && |o.facts| == 1
              && var f := o.facts[0];
                 && f.RangeFact?
                 && f.owner == env.classId
                 && f.start == r.value.start
                 && f.length == r.value.end - r.value.start
                 && f.startLine == LineNumber(env.source, r.value.start)
                 && f.endLine == LineNumber(env.source, r.value.end)
                 && (r.value.start <= r.value.end ==> f.startLine <= f.endLine)
  {
    if r.None? then Out(UnknownRange, counter, [])
    else
      var a := GenerateId(RangeCat, counter);
      var startLine := LineNumber(env.source, r.value.start);
      var endLine := LineNumber(env.source, r.value.end);
      assert r.value.start <= r.value.end ==> startLine <= endLine by {
        if r.value.start <= r.value.end {
          LineNumberMonotone(env.source, r.value.start, r.value.end);
        }
      }
      Out(a.id, a.next, [RangeFact(env.classId, r.value.start, r.value.end - r.value.start, startLine, endLine)])
  }

  /** `this.getLineNumber(range.start)` where the source does not check that the range exists. */
  function StartLine(env: Env, r: Option<Range>, counter: nat): (res: Result<nat, Crash>)
    ensures res.Failure? <==> r.None?
    ensures res.Failure? ==> res.error.next == counter
    ensures res.Success? ==> res.value >= 1 && res.value == LineNumber(env.source, r.value.start)
  {
    if r.None? then Failure(MissingRange(counter)) else Success(LineNumber(env.source, r.value.start))
  }

  /** A `name` fact with a fresh `name_` id, preceded by the `range` fact of its range. */
  function EmitName(env: Env, kind: string, parent: Ident, index: nat, r: Option<Range>, text: string,
                    counter: nat): (o: Out)
    ensures o.next > counter && o.id == Gen(NameCat, counter)
    ensures |o.facts| == RangeCount(r) + 1
    ensures forall f | f in o.facts :: IsDeclFact(f)
    ensures var f := o.facts[|o.facts| - 1];
              f.NameFact? && f.id == o.id && f.kind == kind && f.parent == parent && f.index == index && f.text == text
  {
    var n := GenerateId(NameCat, counter);
    var rg := RangeId(env, r, n.next);
    Out(n.id, rg.next, rg.facts + [NameFact(n.id, kind, parent, index, rg.id, text)])
  }

  /**
   * A declared name whose `name_ref` id `refId` the caller drew: the
   * `name_ref` fact (role, identifier, binding or `"unknown"`), then a
   * `SIMPLE_NAME` fact under `parent` at ordinal `index`.
   */
  function DeclareName(env: Env, refId: Ident, role: string, binding: string, n: Name,
                       parent: Ident, index: nat, counter: nat): (o: Out)
    ensures o.next > counter
    ensures forall f | f in o.facts :: IsDeclFact(f)
    ensures |o.facts| >= 2 && o.facts[0] == NameRefFact(refId, role, n.identifier, OrUnknown(binding))
    ensures var f := o.facts[|o.facts| - 1];
              f.NameFact? && f.id == o.id && f.kind == "SIMPLE_NAME" && f.parent == parent && f.index == index
              && f.text == n.identifier
  {
    var nm := EmitName(env, "SIMPLE_NAME", parent, index, n.range, n.identifier, counter);
    Out(nm.id, nm.next, [NameRefFact(refId, role, n.identifier, OrUnknown(binding))] + nm.facts)
  }

  /**
   * A type reference (field, return, parameter or variable type): a fresh
   * `type_` id, a `TYPE` code fact at ordinal 0 under `owner`, then the type
   * name if there is one. No `name_ref` is drawn for it.
   */
  function ProcessTypeRef(env: Env, t: TypeRef, owner: Ident, counter: nat): (o: Out)
    ensures o.next > counter && o.id == Gen(TypeCat, counter)
    ensures forall f | f in o.facts :: IsDeclFact(f)
    ensures |o.facts| == RangeCount(t.range) + 1 + (if t.name.Some? then RangeCount(t.name.value.range) + 1 else 0)
    ensures var f := o.facts[RangeCount(t.range)];
              f.CodeFact? && f.id == o.id && f.kind == "TYPE" && f.parent == owner && f.index == 0
  {
    var ty := GenerateId(TypeCat, counter);
    var rg := RangeId(env, t.range, ty.next);
    var head := rg.facts + [CodeFact(ty.id, "TYPE", owner, 0, rg.id)];
    if t.name.None? then Out(ty.id, rg.next, head)
    else
      var nm := EmitName(env, "SIMPLE_NAME", ty.id, 0, t.name.value.range, t.name.value.identifier, rg.next);
      Out(ty.id, nm.next, head + nm.facts)
  }

  // ---------------------------------------------------------------------------
  // Expressions

  /** The number of facts before an expression's `expr` fact, plus that fact. */
  function HeaderSize(e: Expr): nat {
    RangeCount(e.range) + 1
  }

  /** `processExpression`: an absent expression yields `"ExprNone"` and changes nothing. */
  function ProcessExpression(env: Env, e: Option<Expr>, parent: Ident, index: nat, counter: nat)
    : (r: Result<Out, Crash>)
    decreases e, 0, 0
    ensures e.None? ==> r == Success(Out(ExprNone, counter, []))
    ensures r.Success? ==> counter <= r.value.next && ExprFacts(r.value.facts, counter, r.value.next)
    ensures r.Success? && e.Some? ==> IssuedIn(r.value.id, counter, r.value.next)
  {
    if e.None? then Success(Out(ExprNone, counter, []))
    else ProcessExpr(env, e.value, parent, index, counter)
  }

  /**
   * A present expression: a fresh `expr_` id, the `range` fact and the
   * `expr` fact with the escaped source excerpt, then the kind-specific facts.
   */
  function ProcessExpr(env: Env, e: Expr, parent: Ident, index: nat, counter: nat): (r: Result<Out, Crash>)
    decreases e, 4, 0
    ensures r.Success? ==> counter < r.value.next && ExprFacts(r.value.facts, counter, r.value.next)
    ensures r.Success? ==> IssuedIn(r.value.id, counter, r.value.next)
  {
    var ex := GenerateId(ExprCat, counter);
    var rg := RangeId(env, e.range, ex.next);
    var head := rg.facts + [ExprFact(ex.id, ExprKind(e), parent, index, rg.id, EscapeString(CodeFromRange(env.source, e.range)))];
    var sub :- ProcessKind(env, e, ex.id, parent, index, rg.next);
    ExprHeadFacts(head, sub.facts, counter, sub.next);
    Success(Out(sub.id, sub.next, head + sub.facts))
  }

  lemma ExprHeadFacts(head: seq<Fact>, sub: seq<Fact>, lo: nat, hi: nat)
    requires forall f | f in head :: f.RangeFact? || f.ExprFact?
    requires ExprFacts(sub, lo, hi)
    ensures ExprFacts(head + sub, lo, hi)
  {
  }

  /**
   * The `switch (expression.nodeType)` of `processExpression`, after the
   * `expr` fact: names return the fresh name id (and record `ref(name, expr,
   * line)`), literals the fresh literal id, every other kind the expr id.
   */
  function ProcessKind(env: Env, e: Expr, exprId: Ident, parent: Ident, index: nat, counter: nat)
    : (r: Result<Out, Crash>)
    requires exprId.Gen? && exprId.n < counter
    decreases e, 3, 0
    ensures r.Success? ==> counter <= r.value.next && ExprFacts(r.value.facts, exprId.n, r.value.next)
    ensures r.Success? ==> IssuedIn(r.value.id, exprId.n, r.value.next)
  {
    match e
    case Invocation(_, _, _, _, _) =>
      var r := ProcessInvocation(env, e, exprId, counter);
      if r.Failure? then r
      else
        CallFactsAreExprFacts(r.value.facts, counter, r.value.next, exprId);
        r
    case NameExpr(_, _, _, _) => NameKind(env, e, exprId, parent, index, counter)
    case Literal(_, _, _, _) => LiteralKind(env, e, exprId, parent, index, counter)
    case Conditional(_, _, _, _) =>
      var r := ProcessConditional(env, e, exprId, counter);
      if r.Failure? then r
      else
        WidenExprFacts(r.value.facts, counter, exprId.n, r.value.next);
        r
    case FieldAccess(_, _, _, _) =>
      var r := ProcessFieldAccess(env, e, exprId, counter);
      if r.Failure? then r
      else
        WidenExprFacts(r.value.facts, counter, exprId.n, r.value.next);
        r
    case OtherExpr(_, _) => Success(Out(exprId, counter, []))
  }

  /** The name case of `ProcessKind`. */
  function NameKind(env: Env, e: Expr, exprId: Ident, parent: Ident, index: nat, counter: nat)
    : (r: Result<Out, Crash>)
    requires e.NameExpr? && exprId.Gen? && exprId.n < counter
    ensures r.Success? ==> counter <= r.value.next && ExprFacts(r.value.facts, exprId.n, r.value.next)
    ensures r.Success? ==> IssuedIn(r.value.id, exprId.n, r.value.next)
  {
    var r := ProcessName(env, e, exprId, parent, index, counter);
    if r.Failure? then r
    else
      NameFactsAreExprFacts(r.value.facts, exprId.n, r.value.next);
      r
  }

  lemma NameFactsAreExprFacts(facts: seq<Fact>, lo: nat, hi: nat)
    requires forall f | f in facts :: IsDeclFact(f) || f.RefFact?
    ensures ExprFacts(facts, lo, hi)
  {
  }

  /** The literal case of `ProcessKind`. */
  function LiteralKind(env: Env, e: Expr, exprId: Ident, parent: Ident, index: nat, counter: nat)
    : (r: Result<Out, Crash>)
    requires e.Literal? && exprId.Gen? && exprId.n < counter
    ensures r.Success? ==> counter <= r.value.next && ExprFacts(r.value.facts, exprId.n, r.value.next)
    ensures r.Success? ==> IssuedIn(r.value.id, exprId.n, r.value.next)
  {
    Success(ProcessLiteral(env, e, CodeFromRange(env.source, e.range), parent, index, counter))
  }

  lemma WidenExprFacts(facts: seq<Fact>, lo: nat, lo': nat, hi: nat)
    requires lo' <= lo && ExprFacts(facts, lo, hi)
    ensures ExprFacts(facts, lo', hi)
  {
  }

  lemma CallFactsAreExprFacts(facts: seq<Fact>, lo: nat, hi: nat, call: Ident)
    requires call.Gen? && call.n < lo <= hi && CallFacts(facts, lo, hi, call)
    ensures ExprFacts(facts, call.n, hi)
  {
  }

  /** `argument` facts are the only ones an invocation emits that need not name a fresh invocation. */
  predicate CallFacts(facts: seq<Fact>, lo: nat, hi: nat, call: Ident) {
    forall f | f in facts :: !IsFlow(f) && (f.ArgumentFact? ==> IssuedIn(f.invocation, lo, hi) || f.invocation == call)
  }

  /**
   * `METHOD_INVOCATION`: a `name_ref` id is drawn whether or not the call has
   * a name; then `method_invoc(call, ref, line)`, the receiver as child 0, and
   * each argument `i` as child `i + 1` followed by `argument(arg, i, call)`.
   */
  function ProcessInvocation(env: Env, e: Expr, exprId: Ident, counter: nat): (r: Result<Out, Crash>)
    requires e.Invocation?
    requires exprId.Gen? && exprId.n < counter
    decreases e, 2, 0
    ensures r.Success? ==> counter < r.value.next && r.value.id == exprId
    ensures r.Success? ==> CallFacts(r.value.facts, counter, r.value.next, exprId)
    ensures e.range.None? ==> r.Failure?
  {
    var ref := GenerateId(NameRefCat, counter);
    var decl :=
      if e.name.None? then Out(ref.id, ref.next, [])
      else DeclareName(env, ref.id, "method", e.binding, e.name.value, exprId, 0, ref.next);
    var line :- StartLine(env, e.range, decl.next);
    var head := decl.facts + [MethodInvocFact(exprId, ref.id, LineId(env.lineMap, line))];
    var recv :- ProcessExpression(env, e.receiver, exprId, 0, decl.next);
    var args :- ProcessArguments(env, e, exprId, 0, recv.next);
    InvocationFacts(head, recv.facts, args.facts, counter, decl.next, recv.next, args.next, exprId);
    Success(Out(exprId, args.next, head + recv.facts + args.facts))
  }

  lemma InvocationFacts(head: seq<Fact>, recv: seq<Fact>, args: seq<Fact>, lo: nat, a: nat, b: nat, hi: nat, call: Ident)
    requires lo <= a <= b <= hi
    requires forall f | f in head :: IsDeclFact(f) || f.MethodInvocFact?
    requires ExprFacts(recv, a, b)
    requires CallFacts(args, b, hi, call)
    ensures CallFacts(head + recv + args, lo, hi, call)
  {
  }

  /** The arguments of `call` from position `i` on. */
  function ProcessArguments(env: Env, call: Expr, callId: Ident, i: nat, counter: nat): (r: Result<Step, Crash>)
    requires call.Invocation? && i <= |call.arguments|
    requires callId.Gen? && callId.n < counter
    decreases call, 1, |call.arguments| - i
    ensures r.Success? ==> counter <= r.value.next && CallFacts(r.value.facts, counter, r.value.next, callId)
  {
    if i == |call.arguments| then Success(Step(counter, []))
    else
      var a :- ProcessExpression(env, call.arguments[i], callId, i + 1, counter);
      var arg := ArgumentFact(a.id, i, callId);
      var rest :- ProcessArguments(env, call, callId, i + 1, a.next);
      Success(Step(rest.next, a.facts + [arg] + rest.facts))
  }

  /**
   * `SIMPLE_NAME`/`QUALIFIED_NAME`: a `name_ref` with the role read from the
   * binding, a `name` fact under the expression's own parent and ordinal, and
   * `ref(name, expr, line)`. The name id is returned.
   */
  function ProcessName(env: Env, e: Expr, exprId: Ident, parent: Ident, index: nat, counter: nat)
    : (r: Result<Out, Crash>)
    requires e.NameExpr?
    ensures r.Failure? <==> e.range.None?
    ensures r.Success? ==> counter < r.value.next && IssuedIn(r.value.id, counter, r.value.next)
    ensures r.Success? ==> r.value.id.Gen? && r.value.id.cat == NameCat
    ensures r.Success? ==>
              var facts := r.value.facts;
              && |facts| >= 3
              && facts[0].NameRefFact? && facts[0].role == NameType(e.binding)
              && facts[|facts| - 1] == RefFact(r.value.id, exprId, LineId(env.lineMap, LineNumber(env.source, e.range.value.start)))
              && facts[|facts| - 2].NameFact?
              && facts[|facts| - 2].id == r.value.id
              && facts[|facts| - 2].kind == ExprKind(e)
              && facts[|facts| - 2].parent == parent
              && facts[|facts| - 2].index == index
              && facts[|facts| - 2].text == e.identifier
    ensures r.Success? ==> forall f | f in r.value.facts :: IsDeclFact(f) || f.RefFact?
  {
    var ref := GenerateId(NameRefCat, counter);
    var nm := EmitName(env, ExprKind(e), parent, index, e.range, e.identifier, ref.next);
    var line :- StartLine(env, e.range, nm.next);
    var refFact := NameRefFact(ref.id, NameType(e.binding), e.identifier, OrUnknown(e.binding));
    Success(Out(nm.id, nm.next, [refFact] + nm.facts + [RefFact(nm.id, exprId, LineId(env.lineMap, line))]))
  }

  /** A literal's recorded value: `token || literalValue || code`. */
  function LiteralValue(e: Expr, code: string): string
    requires e.Literal?
  {
    if e.token != "" then e.token else if e.literalValue != "" then e.literalValue else code
  }

  /** Literal kinds: a `literal` fact with the escaped value; the literal id is returned. */
  function ProcessLiteral(env: Env, e: Expr, code: string, parent: Ident, index: nat, counter: nat): (o: Out)
    requires e.Literal?
    ensures counter < o.next && IssuedIn(o.id, counter, o.next)
    ensures o.id.Gen? && o.id.cat == LiteralCat
    ensures |o.facts| == RangeCount(e.range) + 1
    ensures forall f | f in o.facts :: f.RangeFact? || f.LiteralFact?
    ensures var f := o.facts[|o.facts| - 1];
              && f.LiteralFact? && f.id == o.id && f.kind == ExprKind(e)
              && f.parent == parent && f.index == index
              && f.value == EscapeString(LiteralValue(e, code))
  {
    var lit := GenerateId(LiteralCat, counter);
    var rg := RangeId(env, e.range, lit.next);
    Out(lit.id, rg.next, rg.facts + [LiteralFact(lit.id, ExprKind(e), parent, index, rg.id, EscapeString(LiteralValue(e, code)))])
  }

  /**
   * `CONDITIONAL_EXPRESSION`: only when condition, then and else are all
   * present, as children 0, 1, 2 followed by `cond_expr`, whose three ids are
   * pairwise distinct.
   */
  function ProcessConditional(env: Env, e: Expr, exprId: Ident, counter: nat): (r: Result<Out, Crash>)
    requires e.Conditional?
    decreases e, 2, 0
    ensures r.Success? ==> counter <= r.value.next && r.value.id == exprId
    ensures r.Success? ==> ExprFacts(r.value.facts, counter, r.value.next)
    ensures e.condition.None? || e.thenExpr.None? || e.elseExpr.None? ==> r == Success(Out(exprId, counter, []))
    ensures r.Success? && e.condition.Some? && e.thenExpr.Some? && e.elseExpr.Some? ==>
              && |r.value.facts| >= 1
              && var f := r.value.facts[|r.value.facts| - 1];
                 f.CondExprFact? && f.condId != f.thenId && f.thenId != f.elseId && f.condId != f.elseId
    ensures e.condition.Some? && e.thenExpr.Some? && e.elseExpr.Some? && e.range.None? ==> r.Failure?
  {
    if e.condition.None? || e.thenExpr.None? || e.elseExpr.None? then Success(Out(exprId, counter, []))
    else
      var c :- ProcessExpression(env, e.condition, exprId, 0, counter);
      var t :- ProcessExpression(env, e.thenExpr, exprId, 1, c.next);
      var f :- ProcessExpression(env, e.elseExpr, exprId, 2, t.next);
      var line :- StartLine(env, e.range, f.next);
      assert c.id != t.id && t.id != f.id && c.id != f.id by {
        IssuedInDisjoint(c.id, t.id, counter, c.next, c.next, t.next);
        IssuedInDisjoint(t.id, f.id, c.next, t.next, t.next, f.next);
        IssuedInDisjoint(c.id, f.id, counter, c.next, t.next, f.next);
      }
      Success(Out(exprId, f.next, c.facts + t.facts + f.facts + [CondExprFact(c.id, t.id, f.id, LineId(env.lineMap, line))]))
  }

  /** `FIELD_ACCESS`: the receiver as child 0 and the field name as child 1, when both exist. */
  function ProcessFieldAccess(env: Env, e: Expr, exprId: Ident, counter: nat): (r: Result<Out, Crash>)
    requires e.FieldAccess?
    decreases e, 2, 0
    ensures r.Success? ==> counter <= r.value.next && r.value.id == exprId
    ensures r.Success? ==> ExprFacts(r.value.facts, counter, r.value.next)
    ensures e.receiver.None? || e.name.None? ==> r == Success(Out(exprId, counter, []))
    ensures r.Success? && e.receiver.Some? && e.name.Some? ==>
              && |r.value.facts| >= 2
              && var f := r.value.facts[|r.value.facts| - 1];
                 f.NameFact? && f.parent == exprId && f.index == 1 && f.text == e.name.value.identifier
  {
    if e.receiver.None? || e.name.None? then Success(Out(exprId, counter, []))
    else
      var recv :- ProcessExpression(env, e.receiver, exprId, 0, counter);
      var ref := GenerateId(NameRefCat, recv.next);
      var decl := DeclareName(env, ref.id, "field", e.binding, e.name.value, exprId, 1, ref.next);
      Success(Out(exprId, decl.next, recv.facts + decl.facts))
  }

  // ---------------------------------------------------------------------------
  // Statements

  /** A parent id for which `findMethodId` answers: only a method id. */
  predicate IsMethodId(id: Ident) {
    FindMethodId(id).Some?
  }

  /**
   * `processBlock`: a fresh `block_` id with its `BLOCK` fact at ordinal 0
   * under `parent`, then statement `i` under the block at ordinal `i`.
   * Every statement's parent is therefore a block id, never a method id, so
   * a block emits no `return` or `throw` fact.
   */
  function ProcessBlock(env: Env, b: Block, parent: Ident, counter: nat): (r: Result<Out, Crash>)
    decreases b, 2, 0
    ensures r.Success? ==> counter < r.value.next && r.value.id == Gen(BlockCat, counter)
    ensures r.Success? ==> NoExits(r.value.facts)
  {
    var bl := GenerateId(BlockCat, counter);
    var rg := RangeId(env, b.range, bl.next);
    var body :- ProcessStatements(env, b, bl.id, 0, rg.next);
    Success(Out(bl.id, body.next, rg.facts + [BlockFact(bl.id, "BLOCK", parent, 0, rg.id)] + body.facts))
  }

  /** The statements of block `b` from position `i` on, under `blockId`. */
  function ProcessStatements(env: Env, b: Block, blockId: Ident, i: nat, counter: nat): (r: Result<Step, Crash>)
    requires i <= |b.statements| && !IsMethodId(blockId)
    decreases b, 1, |b.statements| - i
    ensures r.Success? ==> counter <= r.value.next && NoExits(r.value.facts)
  {
    if i == |b.statements| then Success(Step(counter, []))
    else
      var st :- ProcessStatement(env, b.statements[i], blockId, i, counter);
      var rest :- ProcessStatements(env, b, blockId, i + 1, st.next);
      Success(Step(rest.next, st.facts + rest.facts))
  }

  /**
   * `processStatement`: a fresh `stmt_` id, the `range` fact and the `stmt`
   * fact (kind `"STATEMENT"` for a missing tag), then the kind-specific
   * facts. The statement id is returned. Only a `return` or `throw`
   * directly under a method id can emit an exit fact.
   */
  function ProcessStatement(env: Env, s: Stmt, parent: Ident, index: nat, counter: nat): (r: Result<Out, Crash>)
    decreases s, 3, 0
    ensures r.Success? ==> counter < r.value.next && r.value.id == Gen(StmtCat, counter)
    ensures r.Success? && !IsMethodId(parent) ==> NoExits(r.value.facts)
    ensures r.Success? ==>
              && |r.value.facts| >= RangeCount(s.range) + 1
              && r.value.facts[RangeCount(s.range)].StmtFact?
              && r.value.facts[RangeCount(s.range)].id == r.value.id
              && r.value.facts[RangeCount(s.range)].kind == StmtKind(s)
              && r.value.facts[RangeCount(s.range)].parent == parent
              && r.value.facts[RangeCount(s.range)].index == index
  {
    var sid := GenerateId(StmtCat, counter);
    var rg := RangeId(env, s.range, sid.next);
    var body :- ProcessStatementKind(env, s, sid.id, parent, rg.next);
    Success(Out(sid.id, body.next, rg.facts + [StmtFact(sid.id, StmtKind(s), parent, index, rg.id)] + body.facts))
  }

  /** The `switch (statement.nodeType)` of `processStatement`. */
  function ProcessStatementKind(env: Env, s: Stmt, stmtId: Ident, parent: Ident, counter: nat)
    : (r: Result<Step, Crash>)
    requires stmtId.Gen? && stmtId.cat == StmtCat
    decreases s, 2, 0
    ensures r.Success? ==> counter <= r.value.next
    ensures r.Success? && !((s.ReturnStmt? || s.ThrowStmt?) && IsMethodId(parent)) ==> NoExits(r.value.facts)
  {
    match s
    case ReturnStmt(_, _) => ProcessExit(env, s, stmtId, parent, counter)
    case ThrowStmt(_, _) => ProcessExit(env, s, stmtId, parent, counter)
    case ExpressionStmt(_, e) =>
      var x :- ProcessExpression(env, e, stmtId, 0, counter);
      Success(Step(x.next, x.facts))
    case VarDeclStmt(_, _, _) => ProcessVarDecl(env, s, stmtId, counter)
    case IfStmt(_, _, _, _) => ProcessIf(env, s, stmtId, counter)
    case ConditionalStmt(_, _, _, _) => ProcessCondStmt(env, s, stmtId, counter)
    case AssignmentStmt(_, _, _) => ProcessAssignment(env, s, stmtId, counter)
    case OtherStmt(_, _, body) =>
      if body.None? then Success(Step(counter, []))
      else
        var blk :- ProcessBlock(env, body.value, stmtId, counter);
        Success(Step(blk.next, blk.facts))
  }

  /**
   * `RETURN_STATEMENT`/`THROW_STATEMENT`: the expression as child 0, then,
   * only when the parent is a method id, `return(expr, method, line)` or
   * `throw(method, expr, line)`.
   */
  function ProcessExit(env: Env, s: Stmt, stmtId: Ident, parent: Ident, counter: nat): (r: Result<Step, Crash>)
    requires s.ReturnStmt? || s.ThrowStmt?
    ensures r.Success? ==> counter <= r.value.next
    ensures r.Success? && !IsMethodId(parent) ==> NoExits(r.value.facts)
    ensures s.expression.Some? && IsMethodId(parent) && s.range.None? ==> r.Failure?
  {
    if s.expression.None? then Success(Step(counter, []))
    else
      var x :- ProcessExpression(env, s.expression, stmtId, 0, counter);
      var m := FindMethodId(parent);
      if m.None? then Success(Step(x.next, x.facts))
      else
        var line :- StartLine(env, s.range, x.next);
        var lineId := LineId(env.lineMap, line);
        var exit := if s.ReturnStmt? then ReturnFact(x.id, m.value, lineId) else ThrowFact(m.value, x.id, lineId);
        Success(Step(x.next, x.facts + [exit]))
  }

  /** Fragments that emit an `assign`: those with both a name and an initializer. */
  function InitializedCount(frags: seq<Fragment>): nat {
    if |frags| == 0 then 0
    else (if frags[0].name.Some? && frags[0].initializer.Some? then 1 else 0) + InitializedCount(frags[1..])
  }

  /**
   * `VARIABLE_DECLARATION_STATEMENT`: each fragment, then the declared type
   * as a `TYPE` code fact under the statement. One `assign` per fragment
   * that has both a name and an initializer.
   */
  function ProcessVarDecl(env: Env, s: Stmt, stmtId: Ident, counter: nat): (r: Result<Step, Crash>)
    requires s.VarDeclStmt?
    ensures r.Success? ==> counter <= r.value.next && NoExits(r.value.facts)
  {
    var frs :- ProcessFragments(env, s.fragments, stmtId, 0, counter);
    if s.varType.None? then Success(frs)
    else
      var ty := ProcessTypeRef(env, s.varType.value, stmtId, frs.next);
      Success(Step(ty.next, frs.facts + ty.facts))
  }

  /** The fragments from position `i` on. */
  function ProcessFragments(env: Env, frags: seq<Fragment>, stmtId: Ident, i: nat, counter: nat)
    : (r: Result<Step, Crash>)
    requires i <= |frags|
    decreases |frags| - i
    ensures r.Success? ==> counter <= r.value.next && NoExits(r.value.facts)
  {
    if i == |frags| then Success(Step(counter, []))
    else
      var fr :- ProcessFragment(env, frags[i], stmtId, i, counter);
      var rest :- ProcessFragments(env, frags, stmtId, i + 1, fr.next);
      Success(Step(rest.next, fr.facts + rest.facts))
  }

  /**
   * One fragment: a `name_ref` id is drawn whether or not it has a name.
   * With a name: the `variable` name under the statement at ordinal `i`,
   * and with an initializer too, the initializer as child `i + 1` followed by
   * `assign(name, init, line)` on the fragment's start line.
   */
  function ProcessFragment(env: Env, fr: Fragment, stmtId: Ident, i: nat, counter: nat): (r: Result<Step, Crash>)
    ensures r.Success? ==> counter < r.value.next && NoExits(r.value.facts)
    ensures fr.name.Some? && fr.initializer.Some? && fr.range.None? ==> r.Failure?
  {
    var ref := GenerateId(NameRefCat, counter);
    if fr.name.None? then Success(Step(ref.next, []))
    else
      var decl := DeclareName(env, ref.id, "variable", fr.binding, fr.name.value, stmtId, i, ref.next);
      if fr.initializer.None? then Success(Step(decl.next, decl.facts))
      else
        var init :- ProcessExpression(env, fr.initializer, stmtId, i + 1, decl.next);
        var line :- StartLine(env, fr.range, init.next);
        var assign := AssignFact(decl.id, init.id, LineId(env.lineMap, line));
        Success(Step(init.next, decl.facts + init.facts + [assign]))
  }

  /**
   * `IF_STATEMENT`: nothing at all without a condition; otherwise the
   * condition as child 0, the then-branch as statement 1 and the else-branch
   * as statement 2, both under the if-statement's own id.
   */
  function ProcessIf(env: Env, s: Stmt, stmtId: Ident, counter: nat): (r: Result<Step, Crash>)
    requires s.IfStmt? && stmtId.Gen? && stmtId.cat == StmtCat
    decreases s, 1, 0
    ensures r.Success? ==> counter <= r.value.next && NoExits(r.value.facts)
    ensures s.condition.None? ==> r == Success(Step(counter, []))
  {
    if s.condition.None? then Success(Step(counter, []))
    else
      var c :- ProcessExpression(env, s.condition, stmtId, 0, counter);
      var t :-
        if s.thenStmt.None? then Success(Out(c.id, c.next, []))
        else ProcessStatement(env, s.thenStmt.value, stmtId, 1, c.next);
      var f :-
        if s.elseStmt.None? then Success(Out(t.id, t.next, []))
        else ProcessStatement(env, s.elseStmt.value, stmtId, 2, t.next);
      Success(Step(f.next, c.facts + t.facts + f.facts))
  }

  /** `CONDITIONAL_EXPRESSION` as a statement: like the expression form, under the statement id. */
  function ProcessCondStmt(env: Env, s: Stmt, stmtId: Ident, counter: nat): (r: Result<Step, Crash>)
    requires s.ConditionalStmt?
    ensures r.Success? ==> counter <= r.value.next && NoExits(r.value.facts)
    ensures s.condition.None? || s.thenExpr.None? || s.elseExpr.None? ==> r == Success(Step(counter, []))
    ensures r.Success? && s.condition.Some? && s.thenExpr.Some? && s.elseExpr.Some? ==>
              && |r.value.facts| >= 1
              && var f := r.value.facts[|r.value.facts| - 1];
                 f.CondExprFact? && f.condId != f.thenId && f.thenId != f.elseId && f.condId != f.elseId
    ensures s.condition.Some? && s.thenExpr.Some? && s.elseExpr.Some? && s.range.None? ==> r.Failure?
  {
    if s.condition.None? || s.thenExpr.None? || s.elseExpr.None? then Success(Step(counter, []))
    else
      var c :- ProcessExpression(env, s.condition, stmtId, 0, counter);
      var t :- ProcessExpression(env, s.thenExpr, stmtId, 1, c.next);
      var f :- ProcessExpression(env, s.elseExpr, stmtId, 2, t.next);
      var line :- StartLine(env, s.range, f.next);
      assert c.id != t.id && t.id != f.id && c.id != f.id by {
        IssuedInDisjoint(c.id, t.id, counter, c.next, c.next, t.next);
        IssuedInDisjoint(t.id, f.id, c.next, t.next, t.next, f.next);
        IssuedInDisjoint(c.id, f.id, counter, c.next, t.next, f.next);
      }
      Success(Step(f.next, c.facts + t.facts + f.facts + [CondExprFact(c.id, t.id, f.id, LineId(env.lineMap, line))]))
  }

  /**
   * `ASSIGNMENT`: only when both sides are present, the left side as child
   * 0, the right side as child 1, then `assign(lhs, rhs, line)`.
   */
  function ProcessAssignment(env: Env, s: Stmt, stmtId: Ident, counter: nat): (r: Result<Step, Crash>)
    requires s.AssignmentStmt?
    ensures r.Success? ==> counter <= r.value.next && NoExits(r.value.facts)
    ensures s.lhs.Some? && s.rhs.Some? && s.range.None? ==> r.Failure?
  {
    if s.lhs.None? || s.rhs.None? then Success(Step(counter, []))
    else
      var l :- ProcessExpression(env, s.lhs, stmtId, 0, counter);
      var rh :- ProcessExpression(env, s.rhs, stmtId, 1, l.next);
      var line :- StartLine(env, s.range, rh.next);
      var assign := AssignFact(l.id, rh.id, LineId(env.lineMap, line));
      Success(Step(rh.next, l.facts + rh.facts + [assign]))
  }

  // ---------------------------------------------------------------------------
  // Declarations

  /**
   * `processPackage`/`processImport`: a fresh id is drawn in any case; only
   * a declaration with a range gets its code fact (at ordinal 0 under the
   * class) and, with a name, a `QUALIFIED_NAME` fact whose range falls back to
   * the declaration's.
   */
  function ProcessDecl(env: Env, d: Decl, cat: Category, kind: string, counter: nat): (o: Out)
    ensures o.next > counter && o.id == Gen(cat, counter)
    ensures forall f | f in o.facts :: IsDeclFact(f)
    ensures d.range.None? ==> o.facts == []
    ensures d.range.Some? ==>
              && |o.facts| >= 2
              && o.facts[1] == CodeFact(o.id, kind, env.classId, 0, Gen(RangeCat, counter + 1))
  {
    var a := GenerateId(cat, counter);
    if d.range.None? then Out(a.id, a.next, [])
    else
      var rg := RangeId(env, d.range, a.next);
      var code := rg.facts + [CodeFact(a.id, kind, env.classId, 0, rg.id)];
      if d.name.None? then Out(a.id, rg.next, code)
      else
        var nameRange := if d.name.value.range.Some? then d.name.value.range else d.range;
        var nm := EmitName(env, "QUALIFIED_NAME", a.id, 0, nameRange, d.name.value.identifier, rg.next);
        Out(a.id, nm.next, code + nm.facts)
  }

  /**
   * `processType`: a fresh `type_` id with its `TYPE` code fact under the
   * class (always at ordinal 0, nested types included), its name, then its
   * fields, methods and nested types in order.
   */
  function ProcessType(env: Env, t: TypeDecl, counter: nat): (r: Result<Out, Crash>)
    decreases t, 2, 0
    ensures r.Success? ==> counter < r.value.next && r.value.id == Gen(TypeCat, counter)
    ensures r.Success? ==> NoExits(r.value.facts)
  {
    var h := TypeHeader(env, t, counter);
    var fs :- ProcessFields(env, t.fields, h.id, 0, h.next);
    var ms :- ProcessMethods(env, t.methods, h.id, 0, fs.next);
    var ns :- ProcessNestedTypes(env, t, 0, ms.next);
    TypeFactsNoExits(h.facts, fs.facts, ms.facts, ns.facts);
    Success(Out(h.id, ns.next, h.facts + fs.facts + ms.facts + ns.facts))
  }

  /** The facts of a type before its members: a fresh `type_` id, its range, the `TYPE` code fact and the name. */
  function TypeHeader(env: Env, t: TypeDecl, counter: nat): (o: Out)
    ensures counter < o.next && o.id == Gen(TypeCat, counter)
    ensures forall f | f in o.facts :: IsDeclFact(f)
  {
    var ty := GenerateId(TypeCat, counter);
    var rg := RangeId(env, t.range, ty.next);
    var head := rg.facts + [CodeFact(ty.id, "TYPE", env.classId, 0, rg.id)];
    var nm := DeclaredName(env, "type", t.binding, t.name, ty.id, rg.next);
    Out(ty.id, nm.next, head + nm.facts)
  }

  lemma TypeFactsNoExits(head: seq<Fact>, fs: seq<Fact>, ms: seq<Fact>, ns: seq<Fact>)
    requires forall f | f in head :: IsDeclFact(f)
    requires forall f | f in fs :: !IsFlow(f)
    requires NoExits(ms) && NoExits(ns)
    ensures NoExits(head + fs + ms + ns)
  {
    NoExitsConcat(head, fs);
    NoExitsConcat(head + fs, ms);
    NoExitsConcat(head + fs + ms, ns);
  }

  /** The nested types of `t` from position `i` on. */
  function ProcessNestedTypes(env: Env, t: TypeDecl, i: nat, counter: nat): (r: Result<Step, Crash>)
    requires i <= |t.nested|
    decreases t, 1, |t.nested| - i
    ensures r.Success? ==> counter <= r.value.next && NoExits(r.value.facts)
  {
    if i == |t.nested| then Success(Step(counter, []))
    else
      var n :- ProcessType(env, t.nested[i], counter);
      var rest :- ProcessNestedTypes(env, t, i + 1, n.next);
      Success(Step(rest.next, n.facts + rest.facts))
  }

  /** The fields from position `i` on, field `i` at ordinal `i` under the type. */
  function ProcessFields(env: Env, fields: seq<FieldDecl>, typeId: Ident, i: nat, counter: nat): (r: Result<Step, Crash>)
    requires i <= |fields|
    decreases |fields| - i
    ensures r.Success? ==> counter <= r.value.next && forall f | f in r.value.facts :: !IsFlow(f)
  {
    if i == |fields| then Success(Step(counter, []))
    else
      var f :- ProcessField(env, fields[i], typeId, i, counter);
      var rest :- ProcessFields(env, fields, typeId, i + 1, f.next);
      Success(Step(rest.next, f.facts + rest.facts))
  }

  /**
   * The `name_ref` and `name` facts of a declaration's optional name: a fresh
   * `name_ref` id, the role and binding, then the `SIMPLE_NAME` fact as child 0
   * of `owner`. Nothing, and no id, when the declaration has no name.
   */
  function DeclaredName(env: Env, role: string, binding: string, name: Option<Name>, owner: Ident, counter: nat)
    : (o: Step)
    ensures counter <= o.next
    ensures forall f | f in o.facts :: IsDeclFact(f)
    ensures name.None? ==> o == Step(counter, [])
    ensures name.Some? ==>
              && |o.facts| >= 2
              && o.facts[0] == NameRefFact(Gen(NameRefCat, counter), role, name.value.identifier, OrUnknown(binding))
              && o.facts[|o.facts| - 1].NameFact? && o.facts[|o.facts| - 1].parent == owner
  {
    if name.None? then Step(counter, [])
    else
      var ref := GenerateId(NameRefCat, counter);
      var nm := DeclareName(env, ref.id, role, binding, name.value, owner, 0, ref.next);
      Step(nm.next, nm.facts)
  }

  /** The facts of a field before its initializer: the `FIELD` code fact, the name, the declared type. */
  function FieldHeader(env: Env, fd: FieldDecl, parent: Ident, index: nat, counter: nat): (o: Out)
    ensures counter < o.next && o.id == Gen(FieldCat, counter)
    ensures forall f | f in o.facts :: IsDeclFact(f)
    ensures |o.facts| > RangeCount(fd.range)
    ensures o.facts[RangeCount(fd.range)] == CodeFact(o.id, "FIELD", parent, index, RangeIdAt(fd.range, counter + 1))
  {
    var fid := GenerateId(FieldCat, counter);
    var rg := RangeId(env, fd.range, fid.next);
    var nm := DeclaredName(env, "field", fd.binding, fd.name, fid.id, rg.next);
    var ty :=
      if fd.fieldType.None? then Out(fid.id, nm.next, [])
      else ProcessTypeRef(env, fd.fieldType.value, fid.id, nm.next);
    Out(fid.id, ty.next, rg.facts + [CodeFact(fid.id, "FIELD", parent, index, rg.id)] + nm.facts + ty.facts)
  }

  /**
   * `processField`: the header, then the initializer as child 1 of the
   * field. A field initializer emits no `assign` fact.
   */
  function ProcessField(env: Env, fd: FieldDecl, parent: Ident, index: nat, counter: nat): (r: Result<Out, Crash>)
    ensures r.Success? ==> counter < r.value.next && r.value.id == Gen(FieldCat, counter)
    ensures r.Success? ==> forall f | f in r.value.facts :: !IsFlow(f)
  {
    var h := FieldHeader(env, fd, parent, index, counter);
    var init :- ProcessExpression(env, fd.initializer, h.id, 1, h.next);
    Success(Out(h.id, init.next, h.facts + init.facts))
  }

  /** The methods from position `i` on, method `i` at ordinal `i` under the type. */
  function ProcessMethods(env: Env, methods: seq<MethodDecl>, typeId: Ident, i: nat, counter: nat)
    : (r: Result<Step, Crash>)
    requires i <= |methods|
    decreases |methods| - i
    ensures r.Success? ==> counter <= r.value.next && NoExits(r.value.facts)
  {
    if i == |methods| then Success(Step(counter, []))
    else
      var m :- ProcessMethod(env, methods[i], typeId, i, counter);
      var rest :- ProcessMethods(env, methods, typeId, i + 1, m.next);
      Success(Step(rest.next, m.facts + rest.facts))
  }

  /**
   * `method(id, range)` and then a `METHOD` code fact for the method id
   * drawn at `counter`, each drawing its own range id from the same range.
   */
  function MethodFacts(env: Env, m: MethodDecl, parent: Ident, index: nat, counter: nat): (o: Out)
    ensures o.id == Gen(MethodCat, counter)
    ensures o.next == counter + 1 + 2 * RangeCount(m.range)
    ensures |o.facts| == 2 * RangeCount(m.range) + 2
    ensures forall f | f in o.facts :: IsDeclFact(f) || f.MethodFact?
    ensures o.facts[RangeCount(m.range)] == MethodFact(o.id, RangeIdAt(m.range, counter + 1))
    ensures o.facts[2 * RangeCount(m.range) + 1]
              == CodeFact(o.id, "METHOD", parent, index, RangeIdAt(m.range, counter + 1 + RangeCount(m.range)))
  {
    var mid := GenerateId(MethodCat, counter);
    var rg1 := RangeId(env, m.range, mid.next);
    var rg2 := RangeId(env, m.range, rg1.next);
    Out(mid.id, rg2.next,
        rg1.facts + [MethodFact(mid.id, rg1.id)] + rg2.facts + [CodeFact(mid.id, "METHOD", parent, index, rg2.id)])
  }

  /** The facts of a method before its body: the method facts, the name, the return type, the parameters. */
  function MethodHeader(env: Env, m: MethodDecl, parent: Ident, index: nat, counter: nat): (o: Out)
    ensures counter < o.next && o.id == Gen(MethodCat, counter)
    ensures forall f | f in o.facts :: IsDeclFact(f) || f.MethodFact? || f.ParamFact?
  {
    var head := MethodFacts(env, m, parent, index, counter);
    var nm := DeclaredName(env, "method", m.binding, m.name, head.id, head.next);
    var rt :=
      if m.returnType.None? then Out(head.id, nm.next, [])
      else ProcessTypeRef(env, m.returnType.value, head.id, nm.next);
    var ps := ProcessParams(env, m.parameters, head.id, 0, rt.next);
    Out(head.id, ps.next, head.facts + (nm.facts + rt.facts + ps.facts))
  }

  /** `processMethod`: the header, then the body block, whose parent is the method id. */
  function ProcessMethod(env: Env, m: MethodDecl, parent: Ident, index: nat, counter: nat): (r: Result<Out, Crash>)
    ensures r.Success? ==> counter < r.value.next && r.value.id == Gen(MethodCat, counter)
    ensures r.Success? ==> NoExits(r.value.facts)
  {
    var h := MethodHeader(env, m, parent, index, counter);
    var body :-
      if m.body.None? then Success(Out(h.id, h.next, []))
      else ProcessBlock(env, m.body.value, h.id, h.next);
    MethodFactsNoExits(h.facts, body.facts);
    Success(Out(h.id, body.next, h.facts + body.facts))
  }

  lemma MethodFactsNoExits(head: seq<Fact>, body: seq<Fact>)
    requires forall f | f in head :: IsDeclFact(f) || f.MethodFact? || f.ParamFact?
    requires NoExits(body)
    ensures NoExits(head + body)
  {
  }

  /**
   * The parameters from position `i` on: one `param(p, k, method)` fact per
   * parameter `k`, in order, each with a fresh `param_` id issued during the
   * call.
   */
  function ProcessParams(env: Env, params: seq<Param>, methodId: Ident, i: nat, counter: nat): (o: Step)
    requires i <= |params|
    decreases |params| - i
    ensures counter <= o.next
    ensures forall f | f in o.facts :: IsDeclFact(f) || f.ParamFact?
    ensures |MethodParams(o.facts, methodId)| == |params| - i
    ensures forall k :: 0 <= k < |MethodParams(o.facts, methodId)| ==>
              && MethodParams(o.facts, methodId)[k].1 == i + k
              && MethodParams(o.facts, methodId)[k].0.Gen?
              && MethodParams(o.facts, methodId)[k].0.cat == ParamCat
              && IssuedIn(MethodParams(o.facts, methodId)[k].0, counter, o.next)
  {
    if i == |params| then Step(counter, [])
    else
      var p := ProcessParam(env, params[i], methodId, i, counter);
      var rest := ProcessParams(env, params, methodId, i + 1, p.next);
      ParamsStep(p.facts, rest.facts, p.id, i, methodId);
      Step(rest.next, p.facts + rest.facts)
  }

  /** A parameter's own `param` fact comes first, then the later parameters' ones. */
  lemma ParamsStep(head: seq<Fact>, rest: seq<Fact>, pid: Ident, i: nat, m: Ident)
    requires |head| > 0 && head[0] == ParamFact(pid, i, m)
    requires forall f | f in head[1..] :: IsDeclFact(f)
    ensures MethodParams(head + rest, m) == [(pid, i)] + MethodParams(rest, m)
  {
    MethodParamsEmpty(head[1..], m);
    assert head == [head[0]] + head[1..];
    MethodParamsAppend([head[0]], head[1..], m);
    MethodParamsAppend(head, rest, m);
  }

  /**
   * One parameter: a fresh `param_` id, `param(id, i, method)`, a
   * `PARAMETER` code fact at ordinal `i` under the method, the `parameter`
   * name and the parameter type.
   */
  function ProcessParam(env: Env, p: Param, methodId: Ident, i: nat, counter: nat): (o: Out)
    ensures counter < o.next && o.id == Gen(ParamCat, counter)
    ensures forall f | f in o.facts :: IsDeclFact(f) || f.ParamFact?
    ensures |o.facts| > 0 && o.facts[0] == ParamFact(o.id, i, methodId)
    ensures forall f | f in o.facts[1..] :: IsDeclFact(f)
  {
    var pid := GenerateId(ParamCat, counter);
    var rg := RangeId(env, p.range, pid.next);
    var head := [ParamFact(pid.id, i, methodId)] + rg.facts + [CodeFact(pid.id, "PARAMETER", methodId, i, rg.id)];
    var nm := DeclaredName(env, "parameter", p.binding, p.name, pid.id, rg.next);
    var ty :=
      if p.paramType.None? then Out(pid.id, nm.next, [])
      else ProcessTypeRef(env, p.paramType.value, pid.id, nm.next);
    Out(pid.id, ty.next, head + nm.facts + ty.facts)
  }

  /** The types of a compilation unit from position `i` on. */
  function ProcessTypes(env: Env, types: seq<TypeDecl>, i: nat, counter: nat): (r: Result<Step, Crash>)
    requires i <= |types|
    decreases |types| - i
    ensures r.Success? ==> counter <= r.value.next && NoExits(r.value.facts)
  {
    if i == |types| then Success(Step(counter, []))
    else
      var t :- ProcessType(env, types[i], counter);
      var rest :- ProcessTypes(env, types, i + 1, t.next);
      Success(Step(rest.next, t.facts + rest.facts))
  }

  /** The imports from position `i` on. */
  function ProcessImports(env: Env, imports: seq<Decl>, i: nat, counter: nat): (o: Step)
    requires i <= |imports|
    decreases |imports| - i
    ensures counter + |imports| - i <= o.next
    ensures forall f | f in o.facts :: IsDeclFact(f)
  {
    if i == |imports| then Step(counter, [])
    else
      var d := ProcessDecl(env, imports[i], ImportCat, "IMPORT", counter);
      var rest := ProcessImports(env, imports, i + 1, d.next);
      Step(rest.next, d.facts + rest.facts)
  }

  /** `processCompilationUnit`: the package, the imports, then the types. */
  function ProcessCompilationUnit(env: Env, cu: CompilationUnit, counter: nat): (r: Result<Step, Crash>)
    ensures r.Success? ==> counter <= r.value.next && NoExits(r.value.facts)
  {
    var pk :=
      if cu.package.None? then Out(env.classId, counter, [])
      else ProcessDecl(env, cu.package.value, PackageCat, "PACKAGE", counter);
    var im := ProcessImports(env, cu.imports, 0, pk.next);
    var ts :- ProcessTypes(env, cu.types, 0, im.next);
    Success(Step(ts.next, pk.facts + im.facts + ts.facts))
  }
}

=== FILE: extractor_props.dfy ===
/**
 * Properties of the extractor that relate several steps, or look inside the
 * fact lists the steps return: what `processExpression` returns for each
 * kind, the `argument` numbering of an invocation, and exactly when `assign`,
 * `return` and `throw` facts appear.
 */
module ExtractorProperties {
  import opened Common
  import opened Ids
  import opened JavaAst
  import opened Facts
  import opened FactHelpers
  import opened Extractor

  // ---------------------------------------------------------------------------
  // What processExpression returns

  /** The kind dispatch returns the name id for names, the literal id for literals, and the expr id otherwise. */
  lemma KindResult(env: Env, e: Expr, exprId: Ident, parent: Ident, index: nat, counter: nat)
    requires exprId.Gen? && exprId.n < counter
    requires ProcessKind(env, e, exprId, parent, index, counter).Success?
    ensures var id := ProcessKind(env, e, exprId, parent, index, counter).value.id;
              && (e.NameExpr? ==> id.Gen? && id.cat == NameCat && id.n >= counter)
              && (e.Literal? ==> id.Gen? && id.cat == LiteralCat && id.n >= counter)
              && (!e.NameExpr? && !e.Literal? ==> id == exprId)
  {
    match e
    case Invocation(_, _, _, _, _) =>
    case NameExpr(_, _, _, _) =>
    case Literal(_, _, _, _) =>
    case Conditional(_, _, _, _) =>
    case FieldAccess(_, _, _, _) =>
    case OtherExpr(_, _) =>
  }

  /**
   * A present expression starts with its `range` fact and its `expr` fact
   * (fresh `expr_` id, kind, parent, ordinal, escaped excerpt); the id it
   * returns is the name id, the literal id or that expr id.
   */
  lemma ExprShape(env: Env, e: Expr, parent: Ident, index: nat, counter: nat)
    requires ProcessExpr(env, e, parent, index, counter).Success?
    ensures var o := ProcessExpr(env, e, parent, index, counter).value;
              && |o.facts| >= HeaderSize(e)
              && o.facts[RangeCount(e.range)]
                 == ExprFact(Gen(ExprCat, counter), ExprKind(e), parent, index, RangeIdAt(e.range, counter + 1),
                             EscapeString(CodeFromRange(env.source, e.range)))
              && (e.NameExpr? ==> o.id.Gen? && o.id.cat == NameCat)
              && (e.Literal? ==> o.id.Gen? && o.id.cat == LiteralCat)
              && (!e.NameExpr? && !e.Literal? ==> o.id == Gen(ExprCat, counter))
  {
    var ex := GenerateId(ExprCat, counter);
    var rg := RangeId(env, e.range, ex.next);
    var head := rg.facts + [ExprFact(ex.id, ExprKind(e), parent, index, rg.id, EscapeString(CodeFromRange(env.source, e.range)))];
    var sub := ProcessKind(env, e, ex.id, parent, index, rg.next);
    KindResult(env, e, ex.id, parent, index, rg.next);
    assert (head + sub.value.facts)[RangeCount(e.range)] == head[RangeCount(e.range)];
  }

  /**
   * When an expression is rejected: a name exactly when its range is
   * missing, an invocation whenever its range is missing; a literal or an
   * unhandled kind never.
   */
  lemma ExprOutcome(env: Env, e: Expr, parent: Ident, index: nat, counter: nat)
    ensures e.NameExpr? ==> (ProcessExpr(env, e, parent, index, counter).Failure? <==> e.range.None?)
    ensures e.Invocation? && e.range.None? ==> ProcessExpr(env, e, parent, index, counter).Failure?
    ensures e.Literal? || e.OtherExpr? ==> ProcessExpr(env, e, parent, index, counter).Success?
  {
    var ex := GenerateId(ExprCat, counter);
    var rg := RangeId(env, e.range, ex.next);
    match e
    case NameExpr(_, _, _, _) =>
      assert ProcessKind(env, e, ex.id, parent, index, rg.next) == ProcessName(env, e, ex.id, parent, index, rg.next);
    case Invocation(_, _, _, _, _) =>
      assert ProcessKind(env, e, ex.id, parent, index, rg.next) == ProcessInvocation(env, e, ex.id, rg.next);
    case Literal(_, _, _, _) =>
    case OtherExpr(_, _) =>
    case Conditional(_, _, _, _) =>
    case FieldAccess(_, _, _, _) =>
  }

  // ---------------------------------------------------------------------------
  // Argument numbering

  /** Facts an expression emits never carry an `argument` fact of an invocation issued before it. */
  lemma {:induction false} NoArgumentsOf(facts: seq<Fact>, lo: nat, hi: nat, call: Ident)
    requires ExprFacts(facts, lo, hi)
    requires call.Gen? && call.n < lo
    ensures CallArguments(facts, call) == []
  {
    CallArgumentsEmpty(facts, call);
  }

  /**
   * The results of processing arguments `i..` of `call` one after another:
   * argument `i + k` as child `i + k + 1` of `callId`, from the counter the
   * previous argument left (the given one for the first), up to the first
   * rejected argument.
   */
  function ArgOuts(env: Env, call: Expr, callId: Ident, i: nat, counter: nat): (outs: seq<Out>)
    requires call.Invocation? && i <= |call.arguments|
    decreases |call.arguments| - i
    ensures |outs| <= |call.arguments| - i
    ensures forall k :: 0 <= k < |outs| ==>
              ProcessExpression(env, call.arguments[i + k], callId, i + k + 1, if k == 0 then counter else outs[k - 1].next)
              == Success(outs[k])
  {
    if i == |call.arguments| then []
    else
      var a := ProcessExpression(env, call.arguments[i], callId, i + 1, counter);
      if a.Failure? then []
      else
        var rest := ArgOuts(env, call, callId, i + 1, a.value.next);
        assert forall k :: 1 <= k < |rest| + 1 ==> ([a.value] + rest)[k] == rest[k - 1];
        [a.value] + rest
  }

  /** The `(arg, index)` pairs for results `outs` numbered from `i`. */
  function Numbered(outs: seq<Out>, i: nat): seq<(Ident, nat)> {
    seq(|outs|, k requires 0 <= k < |outs| => (outs[k].id, i + k))
  }

  /**
   * Arguments `i..` of an invocation are recorded as `argument(arg, i + k, call)`
   * in order, `arg` being the id that processing argument `i + k` returned.
   */
  lemma {:induction false} ArgumentsIndexed(env: Env, call: Expr, callId: Ident, i: nat, counter: nat)
    requires call.Invocation? && i <= |call.arguments|
    requires callId.Gen? && callId.n < counter
    requires ProcessArguments(env, call, callId, i, counter).Success?
    ensures |ArgOuts(env, call, callId, i, counter)| == |call.arguments| - i
    ensures CallArguments(ProcessArguments(env, call, callId, i, counter).value.facts, callId)
            == Numbered(ArgOuts(env, call, callId, i, counter), i)
    decreases |call.arguments| - i
  {
    if i < |call.arguments| {
      var a := ProcessExpression(env, call.arguments[i], callId, i + 1, counter).value;
      var rest := ProcessArguments(env, call, callId, i + 1, a.next).value;
      ArgumentsIndexed(env, call, callId, i + 1, a.next);
      NoArgumentsOf(a.facts, counter, a.next, callId);
      CallArgumentsStep(a.facts, a.id, rest.facts, callId, i);
      NumberedCons(a, ArgOuts(env, call, callId, i + 1, a.next), i);
    }
  }

  /** An argument with no `argument` fact of the call inside it, then its own `argument` fact, then the later ones. */
  lemma CallArgumentsStep(argFacts: seq<Fact>, argId: Ident, rest: seq<Fact>, call: Ident, i: nat)
    requires CallArguments(argFacts, call) == []
    ensures CallArguments(argFacts + [ArgumentFact(argId, i, call)] + rest, call) == [(argId, i)] + CallArguments(rest, call)
  {
    CallArgumentsAppend(argFacts, [ArgumentFact(argId, i, call)], call);
    CallArgumentsAppend(argFacts + [ArgumentFact(argId, i, call)], rest, call);
    assert CallArguments([ArgumentFact(argId, i, call)], call) == [(argId, i)];
  }

  lemma NumberedCons(a: Out, outs: seq<Out>, i: nat)
    ensures Numbered([a] + outs, i) == [(a.id, i)] + Numbered(outs, i + 1)
  {
    assert forall k :: 1 <= k < |outs| + 1 ==> ([a] + outs)[k] == outs[k - 1];
  }

  /**
   * The counter after an invocation's own ids: its `name_ref` id, then, when
   * it has a name, that name's `name_` id and range id.
   */
  function InvocationHeadEnd(e: Expr, counter: nat): nat
    requires e.Invocation?
  {
    counter + 1 + (if e.name.Some? then 1 + RangeCount(e.name.value.range) else 0)
  }

  /**
   * A method invocation with `n` arguments records `argument(arg_k, k, call)`
   * for `k = 0 .. n-1` in order, `arg_k` being the id that processing argument
   * `k` as child `k + 1` of the call returned; the receiver is child 0,
   * processed from the counter the call's own ids left, and the first argument
   * starts where the receiver stopped. No other `argument` fact names the call.
   */
  lemma InvocationArgumentsIndexed(env: Env, e: Expr, exprId: Ident, counter: nat)
    requires e.Invocation? && exprId.Gen? && exprId.n < counter
    requires ProcessInvocation(env, e, exprId, counter).Success?
    ensures var recv := ProcessExpression(env, e.receiver, exprId, 0, InvocationHeadEnd(e, counter));
              && recv.Success?
              && |ArgOuts(env, e, exprId, 0, recv.value.next)| == |e.arguments|
              && CallArguments(ProcessInvocation(env, e, exprId, counter).value.facts, exprId)
                 == Numbered(ArgOuts(env, e, exprId, 0, recv.value.next), 0)
  {
    var ref := GenerateId(NameRefCat, counter);
    var decl :=
      if e.name.None? then Out(ref.id, ref.next, [])
      else DeclareName(env, ref.id, "method", e.binding, e.name.value, exprId, 0, ref.next);
    var line := StartLine(env, e.range, decl.next).value;
    var head := decl.facts + [MethodInvocFact(exprId, ref.id, LineId(env.lineMap, line))];
    var recv := ProcessExpression(env, e.receiver, exprId, 0, decl.next).value;
    var args := ProcessArguments(env, e, exprId, 0, recv.next).value;
    CallArgumentsEmpty(head, exprId);
    NoArgumentsOf(recv.facts, decl.next, recv.next, exprId);
    ArgumentsIndexed(env, e, exprId, 0, recv.next);
    CallArgumentsAppend(head, recv.facts, exprId);
    CallArgumentsAppend(head + recv.facts, args.facts, exprId);
    assert decl.next == InvocationHeadEnd(e, counter);
    assert CallArguments(ProcessInvocation(env, e, exprId, counter).value.facts, exprId)
           == Numbered(ArgOuts(env, e, exprId, 0, recv.next), 0);
  }

  /**
   * An invocation's facts open with the declaration of its method name (the
   * `name_ref` fact, the name's `range` fact if any, the `name` fact), and
   * then `method_invoc(call, ref, line)`: the call's expr id, the `name_ref`
   * id drawn first, and the line id of the call's start line.
   */
  lemma InvocationFact(env: Env, e: Expr, exprId: Ident, counter: nat)
    requires e.Invocation? && exprId.Gen? && exprId.n < counter
    requires ProcessInvocation(env, e, exprId, counter).Success?
    ensures var facts := ProcessInvocation(env, e, exprId, counter).value.facts;
            var k := if e.name.Some? then RangeCount(e.name.value.range) + 2 else 0;
              && e.range.Some? && k < |facts|
              && (forall j :: 0 <= j < k ==> IsDeclFact(facts[j]))
              && (e.name.Some? ==> facts[0].NameRefFact? && facts[0].id == Gen(NameRefCat, counter))
              && facts[k] == MethodInvocFact(exprId, Gen(NameRefCat, counter),
                                             LineId(env.lineMap, LineNumber(env.source, e.range.value.start)))
  {
    var ref := GenerateId(NameRefCat, counter);
    var decl :=
      if e.name.None? then Out(ref.id, ref.next, [])
      else DeclareName(env, ref.id, "method", e.binding, e.name.value, exprId, 0, ref.next);
    var line := StartLine(env, e.range, decl.next).value;
    var head := decl.facts + [MethodInvocFact(exprId, ref.id, LineId(env.lineMap, line))];
    var recv := ProcessExpression(env, e.receiver, exprId, 0, decl.next).value;
    var args := ProcessArguments(env, e, exprId, 0, recv.next).value;
    var facts := head + recv.facts + args.facts;
    assert |decl.facts| == if e.name.Some? then RangeCount(e.name.value.range) + 2 else 0;
    assert facts[|decl.facts|] == head[|decl.facts|];
    assert forall j :: 0 <= j < |decl.facts| ==> facts[j] == decl.facts[j];
  }

  /**
   * A conditional expression with all three parts ends with
   * `cond_expr(cond, then, else, line)`: the ids returned for the condition,
   * the then branch and the else branch, processed in that order as children
   * 0, 1, 2 of the expression, and the line id of its start line.
   */
  lemma ConditionalFact(env: Env, e: Expr, exprId: Ident, counter: nat)
    requires e.Conditional? && e.condition.Some? && e.thenExpr.Some? && e.elseExpr.Some?
    requires ProcessConditional(env, e, exprId, counter).Success?
    ensures var c := ProcessExpression(env, e.condition, exprId, 0, counter);
              && c.Success?
              && var t := ProcessExpression(env, e.thenExpr, exprId, 1, c.value.next);
                 && t.Success?
                 && var f := ProcessExpression(env, e.elseExpr, exprId, 2, t.value.next);
                    && f.Success? && e.range.Some?
                    && var facts := ProcessConditional(env, e, exprId, counter).value.facts;
                       && |facts| >= 1
                       && facts[|facts| - 1]
                          == CondExprFact(c.value.id, t.value.id, f.value.id,
                                          LineId(env.lineMap, LineNumber(env.source, e.range.value.start)))
  {
  }

  /** The statement form of `ConditionalFact`, under the statement id. */
  lemma CondStmtFact(env: Env, s: Stmt, stmtId: Ident, counter: nat)
    requires s.ConditionalStmt? && s.condition.Some? && s.thenExpr.Some? && s.elseExpr.Some?
    requires ProcessCondStmt(env, s, stmtId, counter).Success?
    ensures var c := ProcessExpression(env, s.condition, stmtId, 0, counter);
              && c.Success?
              && var t := ProcessExpression(env, s.thenExpr, stmtId, 1, c.value.next);
                 && t.Success?
                 && var f := ProcessExpression(env, s.elseExpr, stmtId, 2, t.value.next);
                    && f.Success? && s.range.Some?
                    && var facts := ProcessCondStmt(env, s, stmtId, counter).value.facts;
                       && |facts| >= 1
                       && facts[|facts| - 1]
                          == CondExprFact(c.value.id, t.value.id, f.value.id,
                                          LineId(env.lineMap, LineNumber(env.source, s.range.value.start)))
  {
  }

  // ---------------------------------------------------------------------------
  // When assign facts appear

  lemma NoAssignsIn(facts: seq<Fact>, lo: nat, hi: nat)
    requires ExprFacts(facts, lo, hi)
    ensures Assigns(facts) == []
  {
    AssignsEmpty(facts);
  }

  lemma NoAssignsInDecl(facts: seq<Fact>)
    requires forall f | f in facts :: IsDeclFact(f)
    ensures Assigns(facts) == []
  {
    AssignsEmpty(facts);
  }

  /**
   * A fragment emits an `assign` exactly when it has both a name and an
   * initializer; the assignment goes from the initializer's id to the
   * fragment's fresh `name_` id, two distinct ids, on the fragment's start
   * line. The name id is the one drawn right after the fragment's `name_ref`
   * id, and the initializer is child `i + 1` of the statement, processed from
   * the counter the name and its range left.
   */
  lemma FragmentAssigns(env: Env, fr: Fragment, stmtId: Ident, i: nat, counter: nat)
    requires ProcessFragment(env, fr, stmtId, i, counter).Success?
    ensures var a := Assigns(ProcessFragment(env, fr, stmtId, i, counter).value.facts);
              && |a| == (if fr.name.Some? && fr.initializer.Some? then 1 else 0)
              && (|a| == 1 ==> a[0].dst.Gen? && a[0].dst.cat == NameCat && a[0].dst != a[0].src)
    ensures fr.name.Some? && fr.initializer.Some? ==>
              var init := ProcessExpression(env, fr.initializer, stmtId, i + 1, counter + 2 + RangeCount(fr.name.value.range));
              && init.Success? && fr.range.Some?
              && Assigns(ProcessFragment(env, fr, stmtId, i, counter).value.facts)
                 == [AssignFact(Gen(NameCat, counter + 1), init.value.id,
                                LineId(env.lineMap, LineNumber(env.source, fr.range.value.start)))]
  {
    var ref := GenerateId(NameRefCat, counter);
    if fr.name.Some? {
      var decl := DeclareName(env, ref.id, "variable", fr.binding, fr.name.value, stmtId, i, ref.next);
      NoAssignsInDecl(decl.facts);
      if fr.initializer.Some? {
        var init := ProcessExpression(env, fr.initializer, stmtId, i + 1, decl.next).value;
        var line := StartLine(env, fr.range, init.next).value;
        var assign := AssignFact(decl.id, init.id, LineId(env.lineMap, line));
        NoAssignsIn(init.facts, decl.next, init.next);
        AssignsAppend(decl.facts, init.facts);
        AssignsAppend(decl.facts + init.facts, [assign]);
        assert decl.facts[|decl.facts| - 1].id == decl.id;
        assert decl.id == Gen(NameCat, ref.next + 1 - 1) by {
          assert decl.facts[|decl.facts| - 1].NameFact?;
        }
        assert decl.id.n < decl.next <= init.id.n;
        assert decl.next == counter + 2 + RangeCount(fr.name.value.range);
      }
    }
  }

  /** Fragments `i..` emit one `assign` per fragment with both a name and an initializer. */
  lemma {:induction false} FragmentsAssigns(env: Env, frags: seq<Fragment>, stmtId: Ident, i: nat, counter: nat)
    requires i <= |frags|
    requires ProcessFragments(env, frags, stmtId, i, counter).Success?
    ensures |Assigns(ProcessFragments(env, frags, stmtId, i, counter).value.facts)| == InitializedCount(frags[i..])
    decreases |frags| - i
  {
    if i < |frags| {
      var fr := ProcessFragment(env, frags[i], stmtId, i, counter).value;
      var rest := ProcessFragments(env, frags, stmtId, i + 1, fr.next).value;
      FragmentAssigns(env, frags[i], stmtId, i, counter);
      FragmentsAssigns(env, frags, stmtId, i + 1, fr.next);
      AssignsAppend(fr.facts, rest.facts);
      assert frags[i..][1..] == frags[i + 1..];
    }
  }

  /** A variable declaration emits one `assign` per initialized, named fragment, none for its type. */
  lemma VarDeclAssigns(env: Env, s: Stmt, stmtId: Ident, counter: nat)
    requires s.VarDeclStmt?
    requires ProcessVarDecl(env, s, stmtId, counter).Success?
    ensures |Assigns(ProcessVarDecl(env, s, stmtId, counter).value.facts)| == InitializedCount(s.fragments)
  {
    var frs := ProcessFragments(env, s.fragments, stmtId, 0, counter).value;
    FragmentsAssigns(env, s.fragments, stmtId, 0, counter);
    assert s.fragments[0..] == s.fragments;
    if s.varType.Some? {
      var ty := ProcessTypeRef(env, s.varType.value, stmtId, frs.next);
      NoAssignsInDecl(ty.facts);
      AssignsAppend(frs.facts, ty.facts);
    }
  }

  /**
   * An `ASSIGNMENT` statement emits one `assign`, from the right side's id
   * to the left side's, exactly when both sides are present: the left side
   * is child 0 of the statement, the right side child 1 from where the left
   * side left the counter, and the fact carries the statement's start line.
   */
  lemma AssignmentAssigns(env: Env, s: Stmt, stmtId: Ident, counter: nat)
    requires s.AssignmentStmt?
    requires ProcessAssignment(env, s, stmtId, counter).Success?
    ensures var a := Assigns(ProcessAssignment(env, s, stmtId, counter).value.facts);
              && |a| == (if s.lhs.Some? && s.rhs.Some? then 1 else 0)
              && (|a| == 1 ==> a[0].dst != a[0].src)
    ensures s.lhs.Some? && s.rhs.Some? ==>
              var l := ProcessExpression(env, s.lhs, stmtId, 0, counter);
              && l.Success?
              && var rh := ProcessExpression(env, s.rhs, stmtId, 1, l.value.next);
                 && rh.Success? && s.range.Some?
                 && Assigns(ProcessAssignment(env, s, stmtId, counter).value.facts)
                    == [AssignFact(l.value.id, rh.value.id, LineId(env.lineMap, LineNumber(env.source, s.range.value.start)))]
  {
    if s.lhs.Some? && s.rhs.Some? {
      var l := ProcessExpression(env, s.lhs, stmtId, 0, counter).value;
      var rh := ProcessExpression(env, s.rhs, stmtId, 1, l.next).value;
      var line := StartLine(env, s.range, rh.next).value;
      NoAssignsIn(l.facts, counter, l.next);
      NoAssignsIn(rh.facts, l.next, rh.next);
      AssignsAppend(l.facts, rh.facts);
      AssignsAppend(l.facts + rh.facts, [AssignFact(l.id, rh.id, LineId(env.lineMap, line))]);
      IssuedInDisjoint(l.id, rh.id, counter, l.next, l.next, rh.next);
    }
  }

  // ---------------------------------------------------------------------------
  // When return and throw facts appear

  lemma NoExitsIn(facts: seq<Fact>, lo: nat, hi: nat)
    requires ExprFacts(facts, lo, hi)
    ensures Exits(facts) == []
  {
    ExitsEmpty(facts);
  }

  /**
   * A `return` or `throw` statement emits one exit fact exactly when it has
   * an expression and its direct parent is a method id; the fact names that
   * method, the id returned for the expression (child 0 of the statement)
   * and the statement's start line, and its kind follows the statement's.
   */
  lemma ExitEmitted(env: Env, s: Stmt, stmtId: Ident, parent: Ident, counter: nat)
    requires s.ReturnStmt? || s.ThrowStmt?
    requires ProcessExit(env, s, stmtId, parent, counter).Success?
    ensures var x := Exits(ProcessExit(env, s, stmtId, parent, counter).value.facts);
              && |x| == (if s.expression.Some? && IsMethodId(parent) then 1 else 0)
              && (|x| == 1 ==> (x[0].ReturnFact? <==> s.ReturnStmt?))
              && (|x| == 1 && s.ReturnStmt? ==> x[0].methodId == parent)
              && (|x| == 1 && s.ThrowStmt? ==> x[0].methodId == parent)
    ensures s.expression.Some? && IsMethodId(parent) ==>
              var e := ProcessExpression(env, s.expression, stmtId, 0, counter);
              && e.Success? && s.range.Some?
              && var lineId := LineId(env.lineMap, LineNumber(env.source, s.range.value.start));
                 Exits(ProcessExit(env, s, stmtId, parent, counter).value.facts)
                 == [if s.ReturnStmt? then ReturnFact(e.value.id, parent, lineId) else ThrowFact(parent, e.value.id, lineId)]
  {
    if s.expression.Some? {
      var x := ProcessExpression(env, s.expression, stmtId, 0, counter).value;
      NoExitsIn(x.facts, counter, x.next);
      if IsMethodId(parent) {
        var line := StartLine(env, s.range, x.next).value;
        var lineId := LineId(env.lineMap, line);
        var exit := if s.ReturnStmt? then ReturnFact(x.id, parent, lineId) else ThrowFact(parent, x.id, lineId);
        ExitsAppend(x.facts, [exit]);
      }
    }
  }

  /**
   * The consequence of statements taking their block's id as parent: no
   * statement inside a block, at any depth, emits `return` or `throw`, even
   * though a `return` directly under a method id would.
   */
  lemma BlockNeverExits(env: Env, b: Block, parent: Ident, counter: nat)
    requires ProcessBlock(env, b, parent, counter).Success?
    ensures Exits(ProcessBlock(env, b, parent, counter).value.facts) == []
  {
    ExitsEmpty(ProcessBlock(env, b, parent, counter).value.facts);
  }

  /**
   * The method facts lead the header of a method: a `range` fact, the
   * `method` fact, a second `range` fact and the METHOD `code` fact (just
   * the two facts when the method has no range).
   */
  lemma MethodHeaderStart(env: Env, m: MethodDecl, parent: Ident, index: nat, counter: nat)
    ensures var h := MethodHeader(env, m, parent, index, counter).facts;
              && |h| >= 2 * RangeCount(m.range) + 2
              && h[RangeCount(m.range)] == MethodFact(Gen(MethodCat, counter), RangeIdAt(m.range, counter + 1))
              && h[2 * RangeCount(m.range) + 1]
                 == CodeFact(Gen(MethodCat, counter), "METHOD", parent, index,
                             RangeIdAt(m.range, counter + 1 + RangeCount(m.range)))
  {
    var head := MethodFacts(env, m, parent, index, counter);
    var h := MethodHeader(env, m, parent, index, counter).facts;
    assert h[..|head.facts|] == head.facts;
  }
}

=== FILE: facthelpers.dfy ===
/**
 * The side-effect-free helpers of `PrologFactsHandler` (src/ast-to-facts.ts):
 * offset-to-line conversion, line-id lookup, source excerpts, string escaping,
 * the role of a name derived from its binding, and the enclosing-method test.
 */
module FactHelpers {
  import opened Common
  import opened JsStrings
  import opened JavaAst
  import opened Ids

  /** JavaScript `substring` clamps an index into `[0, |s|]`. */
  function Clamp(p: int, len: nat): (r: nat)
    ensures r <= len
    ensures 0 <= p <= len ==> r == p
  {
    if p < 0 then 0 else if p > len then len else p
  }

  /** `getLineNumber(p)`: the number of `\n`-separated pieces of `source.substring(0, p)`. */
  function LineNumber(source: string, p: int): (n: nat)
    ensures n >= 1
    ensures n == 1 + Count(source[..Clamp(p, |source|)], '\n')
  {
    |Split(source[..Clamp(p, |source|)], '\n')|
  }

  /** Later offsets never map to earlier lines. */
  lemma LineNumberMonotone(source: string, p: int, q: int)
    requires p <= q
    ensures LineNumber(source, p) <= LineNumber(source, q)
  {
    CountPrefixMonotone(source, '\n', Clamp(p, |source|), Clamp(q, |source|));
  }

  /**
   * `getLineId(n)`: the recorded id of line `n`, or `"unknown_line"`. The
   * source's `||` would also replace an empty id, but no identifier text is
   * empty (`TextNonEmpty`).
   */
  function LineId(lineMap: map<int, Ident>, n: int): (id: Ident)
    ensures n !in lineMap ==> id == UnknownLine
    ensures n in lineMap ==> id == lineMap[n]
  {
    if n in lineMap then lineMap[n] else UnknownLine
  }

  /**
   * `getCodeFromRange(range)`: the source text the range covers. A missing
   * range, or one whose start or end is 0 (falsy), yields "". `substring`
   * clamps both bounds and swaps them when start exceeds end.
   */
  function CodeFromRange(source: string, r: Option<Range>): (code: string)
    ensures r.None? || r.value.start == 0 || r.value.end == 0 ==> code == ""
    ensures r.Some? && 0 < r.value.start <= r.value.end <= |source| ==>
              code == source[r.value.start..r.value.end]
    ensures |code| <= |source|
  {
    if r.None? || r.value.start == 0 || r.value.end == 0 then ""
    else
      var a := Clamp(r.value.start, |source|);
      var b := Clamp(r.value.end, |source|);
      if a <= b then source[a..b] else source[b..a]
  }

  // ---------------------------------------------------------------------------
  // escapeString

  /** `s.replace(/<c>/g, rep)`. */
  function ReplaceAll(s: string, c: char, rep: string): string {
    if |s| == 0 then ""
    else (if s[0] == c then rep else [s[0]]) + ReplaceAll(s[1..], c, rep)
  }

  /** `escapeString`: `"` becomes `\"`, then a newline becomes the two characters `\n`. */
  function EscapeString(s: string): string {
    if s == "" then ""
    else ReplaceAll(ReplaceAll(s, '"', "\\\""), '\n', "\\n")
  }

  /** The escape of one character, as both passes together produce it. */
  function EscapeChar(ch: char): string {
    if ch == '"' then "\\\"" else if ch == '\n' then "\\n" else [ch]
  }

  function EscapeEach(s: string): string {
    if |s| == 0 then "" else EscapeChar(s[0]) + EscapeEach(s[1..])
  }

  lemma {:induction false} ReplaceAllAppend(a: string, b: string, c: char, rep: string)
    ensures ReplaceAll(a + b, c, rep) == ReplaceAll(a, c, rep) + ReplaceAll(b, c, rep)
  {
    if |a| == 0 {
      assert a + b == b;
    } else {
      assert (a + b)[1..] == a[1..] + b;
      ReplaceAllAppend(a[1..], b, c, rep);
    }
  }

  /** The two `replace` passes of `escapeString` act character by character. */
  lemma {:induction false} EscapeStringIsPerChar(s: string)
    ensures EscapeString(s) == EscapeEach(s)
  {
    if |s| > 0 {
      EscapePassesPerChar(s);
    }
  }

  lemma {:induction false} EscapePassesPerChar(s: string)
    ensures ReplaceAll(ReplaceAll(s, '"', "\\\""), '\n', "\\n") == EscapeEach(s)
  {
    if |s| > 0 {
      var first := if s[0] == '"' then "\\\"" else [s[0]];
      assert ReplaceAll(s, '"', "\\\"") == first + ReplaceAll(s[1..], '"', "\\\"");
      ReplaceAllAppend(first, ReplaceAll(s[1..], '"', "\\\""), '\n', "\\n");
      if s[0] == '"' {
        assert ReplaceAll(first, '\n', "\\n") == "\\\"" by {
          assert first[1..][1..] == "";
        }
      } else {
        assert ReplaceAll(first, '\n', "\\n") == EscapeChar(s[0]) by {
          assert first[1..] == "";
        }
      }
      EscapePassesPerChar(s[1..]);
    }
  }

  lemma {:induction false} EscapeEachNoNewline(s: string)
    ensures '\n' !in EscapeEach(s)
    ensures |EscapeEach(s)| == |s| + Count(s, '"') + Count(s, '\n')
  {
    if |s| > 0 {
      EscapeEachNoNewline(s[1..]);
    }
  }

  /** An escaped string never spans two lines, and grows by one character per `"` and newline. */
  lemma EscapeStringShape(s: string)
    ensures '\n' !in EscapeString(s)
    ensures |EscapeString(s)| == |s| + Count(s, '"') + Count(s, '\n')
    ensures s == "" ==> EscapeString(s) == ""
  {
    EscapeStringIsPerChar(s);
    EscapeEachNoNewline(s);
  }

  /** How a reader of the fact text undoes the two escapes `\"` and `\n`. */
  function Unescape(t: string): string
    decreases |t|
  {
    if |t| == 0 then ""
    else if |t| >= 2 && t[0] == '\\' && t[1] == '"' then "\"" + Unescape(t[2..])
    else if |t| >= 2 && t[0] == '\\' && t[1] == 'n' then "\n" + Unescape(t[2..])
    else [t[0]] + Unescape(t[1..])
  }

  /** For text without backslashes, escaping is undone exactly. */
  lemma {:induction false} UnescapeEscapeString(s: string)
    requires '\\' !in s
    ensures Unescape(EscapeString(s)) == s
  {
    EscapeStringIsPerChar(s);
    UnescapeEscapeEach(s);
  }

  lemma {:induction false} UnescapeEscapeEach(s: string)
    requires '\\' !in s
    ensures Unescape(EscapeEach(s)) == s
  {
    if |s| > 0 {
      var t := EscapeEach(s);
      assert t == EscapeChar(s[0]) + EscapeEach(s[1..]);
      assert '\\' !in s[1..] by {
        forall k | 0 <= k < |s| - 1 ensures s[1..][k] != '\\' {
          assert s[1..][k] == s[k + 1];
        }
      }
      UnescapeEscapeEach(s[1..]);
      if s[0] == '"' || s[0] == '\n' {
        assert t[2..] == EscapeEach(s[1..]);
      } else {
        assert t[1..] == EscapeEach(s[1..]);
      }
      assert s == [s[0]] + s[1..];
    }
  }

  /**
   * Backslashes are not escaped, so a source excerpt holding a backslash
   * followed by `n` and one holding a newline produce the same fact text.
   */
  lemma EscapeStringCollision()
    ensures "\\n" != "\n"
    ensures EscapeString("\\n") == EscapeString("\n")
  {
    assert ReplaceAll("\\n", '"', "\\\"") == "\\n" by {
      assert ReplaceAll("\\n", '"', "\\\"") == "\\" + ReplaceAll("n", '"', "\\\"");
    }
    assert ReplaceAll("\\n", '\n', "\\n") == "\\n" by {
      assert ReplaceAll("\\n", '\n', "\\n") == "\\" + ReplaceAll("n", '\n', "\\n");
    }
    assert ReplaceAll("\n", '"', "\\\"") == "\n";
  }

  // ---------------------------------------------------------------------------
  // getNameType

  /** The binding markers `getNameType` looks for, in priority order, with the role each selects. */
  const RoleMarkers: seq<(string, string)> := [
    ("METHOD:", "method"), ("FIELD:", "field"), ("VARIABLE:", "variable"),
    ("TYPE:", "type"), ("PACKAGE:", "package")
  ]

  /** `getNameType`: the role of the first marker the binding contains, else `"unknown"`. */
  function NameType(binding: string): (role: string)
    ensures role == "unknown" <==>
              binding == "" || forall k :: 0 <= k < |RoleMarkers| ==> !Contains(binding, RoleMarkers[k].0)
    ensures role != "unknown" ==>
              exists k ::
                && 0 <= k < |RoleMarkers|
                && role == RoleMarkers[k].1
                && Contains(binding, RoleMarkers[k].0)
                && forall j :: 0 <= j < k ==> !Contains(binding, RoleMarkers[j].0)
  {
    assert RoleMarkers[0] == ("METHOD:", "method") && RoleMarkers[1] == ("FIELD:", "field");
    assert RoleMarkers[2] == ("VARIABLE:", "variable") && RoleMarkers[3] == ("TYPE:", "type");
    assert RoleMarkers[4] == ("PACKAGE:", "package");
    if binding == "" then "unknown"
    else if Contains(binding, "METHOD:") then "method"
    else if Contains(binding, "FIELD:") then "field"
    else if Contains(binding, "VARIABLE:") then "variable"
    else if Contains(binding, "TYPE:") then "type"
    else if Contains(binding, "PACKAGE:") then "package"
    else "unknown"
  }

  /** `binding || "unknown"`. */
  function OrUnknown(binding: string): string {
    if binding == "" then "unknown" else binding
  }

  /**
   * `findMethodId(parentId)`: the parent itself when it is a method id, else
   * nothing. The source tests the text for the prefix `method_`;
   * `FindMethodIdByText` shows the two tests agree.
   */
  function FindMethodId(parentId: Ident): (m: Option<Ident>)
    ensures m.Some? ==> m.value == parentId
  {
    if parentId.Gen? && parentId.cat == MethodCat then Some(parentId) else None
  }

  lemma FindMethodIdByText(parentId: Ident)
    ensures FindMethodId(parentId).Some? <==> StartsWith(Text(parentId), "method_")
  {
    StartsWithMethodPrefix(parentId);
  }
}

=== FILE: facts.dfy ===
/**
 * The fact records the extractor emits, one constructor per relation. The
 * textual form `relation(arg, ...).` is not modelled; every field holds the
 * value the extractor interpolates into it.
 */
module Facts {
  import opened Ids

  datatype Fact =
    | LineFact(owner: Ident, number: nat)
    | RangeFact(owner: Ident, start: int, length: int, startLine: nat, endLine: nat)
    | CodeFact(id: Ident, kind: string, parent: Ident, index: nat, rangeId: Ident)
    | BlockFact(id: Ident, kind: string, parent: Ident, index: nat, rangeId: Ident)
    | MethodFact(id: Ident, rangeId: Ident)
    | NameFact(id: Ident, kind: string, parent: Ident, index: nat, rangeId: Ident, text: string)
    | NameRefFact(id: Ident, role: string, text: string, binding: string)
    | StmtFact(id: Ident, kind: string, parent: Ident, index: nat, rangeId: Ident)
    | ExprFact(id: Ident, kind: string, parent: Ident, index: nat, rangeId: Ident, code: string)
    | LiteralFact(id: Ident, kind: string, parent: Ident, index: nat, rangeId: Ident, value: string)
    | ParamFact(id: Ident, index: nat, methodId: Ident)
    | ArgumentFact(id: Ident, index: nat, invocation: Ident)
    | AssignFact(dst: Ident, src: Ident, lineId: Ident)
    | ReturnFact(src: Ident, methodId: Ident, lineId: Ident)
    | ThrowFact(methodId: Ident, exprId: Ident, lineId: Ident)
    | MethodInvocFact(id: Ident, methodRef: Ident, lineId: Ident)
    | RefFact(nameId: Ident, exprId: Ident, lineId: Ident)
    | CondExprFact(condId: Ident, thenId: Ident, elseId: Ident, lineId: Ident)

  /** The `assign` facts of a fact list, in order. */
  function Assigns(facts: seq<Fact>): (r: seq<Fact>)
    ensures |r| <= |facts|
    ensures forall k :: 0 <= k < |r| ==> r[k].AssignFact? && r[k] in facts
  {
    if |facts| == 0 then []
    else (if facts[0].AssignFact? then [facts[0]] else []) + Assigns(facts[1..])
  }

  /** The `return` and `throw` facts of a fact list, in order. */
  function Exits(facts: seq<Fact>): (r: seq<Fact>)
    ensures |r| <= |facts|
    ensures forall k :: 0 <= k < |r| ==> (r[k].ReturnFact? || r[k].ThrowFact?) && r[k] in facts
  {
    if |facts| == 0 then []
    else (if facts[0].ReturnFact? || facts[0].ThrowFact? then [facts[0]] else []) + Exits(facts[1..])
  }

  /** The `argument(arg, index, call)` facts recorded for invocation `call`, as `(arg, index)` pairs in emission order. */
  function CallArguments(facts: seq<Fact>, call: Ident): seq<(Ident, nat)> {
    if |facts| == 0 then []
    else
      (if facts[0].ArgumentFact? && facts[0].invocation == call then [(facts[0].id, facts[0].index)] else [])
      + CallArguments(facts[1..], call)
  }

  /** The `param(p, index, m)` facts recorded for method `m`, as `(p, index)` pairs in emission order. */
  function MethodParams(facts: seq<Fact>, m: Ident): seq<(Ident, nat)> {
    if |facts| == 0 then []
    else
      (if facts[0].ParamFact? && facts[0].methodId == m then [(facts[0].id, facts[0].index)] else [])
      + MethodParams(facts[1..], m)
  }

  lemma {:induction false} MethodParamsAppend(a: seq<Fact>, b: seq<Fact>, m: Ident)
    ensures MethodParams(a + b, m) == MethodParams(a, m) + MethodParams(b, m)
  {
    if |a| == 0 {
      assert a + b == b;
    } else {
      assert (a + b)[1..] == a[1..] + b;
      MethodParamsAppend(a[1..], b, m);
    }
  }

  lemma {:induction false} MethodParamsEmpty(facts: seq<Fact>, m: Ident)
    requires forall f | f in facts :: !f.ParamFact?
    ensures MethodParams(facts, m) == []
  {
    if |facts| > 0 {
      MethodParamsEmpty(facts[1..], m);
    }
  }

  lemma {:induction false} AssignsAppend(a: seq<Fact>, b: seq<Fact>)
    ensures Assigns(a + b) == Assigns(a) + Assigns(b)
  {
    if |a| == 0 {
      assert a + b == b;
    } else {
      assert (a + b)[1..] == a[1..] + b;
      AssignsAppend(a[1..], b);
    }
  }

  lemma {:induction false} ExitsAppend(a: seq<Fact>, b: seq<Fact>)
    ensures Exits(a + b) == Exits(a) + Exits(b)
  {
    if |a| == 0 {
      assert a + b == b;
    } else {
      assert (a + b)[1..] == a[1..] + b;
      ExitsAppend(a[1..], b);
    }
  }

  lemma {:induction false} CallArgumentsAppend(a: seq<Fact>, b: seq<Fact>, call: Ident)
    ensures CallArguments(a + b, call) == CallArguments(a, call) + CallArguments(b, call)
  {
    if |a| == 0 {
      assert a + b == b;
    } else {
      assert (a + b)[1..] == a[1..] + b;
      CallArgumentsAppend(a[1..], b, call);
    }
  }

  /** A list with no `assign` fact has an empty `Assigns` projection. */
  lemma {:induction false} AssignsEmpty(facts: seq<Fact>)
    requires forall f | f in facts :: !f.AssignFact?
    ensures Assigns(facts) == []
  {
    if |facts| > 0 {
      AssignsEmpty(facts[1..]);
    }
  }

  lemma {:induction false} ExitsEmpty(facts: seq<Fact>)
    requires forall f | f in facts :: !f.ReturnFact? && !f.ThrowFact?
    ensures Exits(facts) == []
  {
    if |facts| > 0 {
      ExitsEmpty(facts[1..]);
    }
  }

  lemma {:induction false} CallArgumentsEmpty(facts: seq<Fact>, call: Ident)
    requires forall f | f in facts :: f.ArgumentFact? ==> f.invocation != call
    ensures CallArguments(facts, call) == []
  {
    if |facts| > 0 {
      CallArgumentsEmpty(facts[1..], call);
    }
  }
}

=== FILE: graph.dfy ===
/**
 * `buildPropagationGraph` (src/buildPropagationGraph.ts): starting from the
 * variable and line at which the null pointer surfaced, follow local
 * assignments backwards, each time to the latest assignment of the current
 * variable strictly above the current line, and return the chain of visited
 * `id@line` nodes, its edges and a summary.
 *
 * The inputs are the records the source's regular expressions extract from
 * the analysis files, in file order: the `assign` records, the code entries
 * (`name`, `expr`, `literal`, `name_ref`) and the root-cause target.
 */
module PropagationGraph {
  import opened Common
  import opened JsStrings

  datatype AssignRec = AssignRec(dst: string, src: string, line: nat)

  /** One entry of `assignsByDst`: an assignment's source and line. */
  datatype Source = Source(src: string, line: nat)

  /** A variable id at a line: the root cause, and every node of the trace. */
  datatype Target = Target(id: string, line: nat)

  // ---------------------------------------------------------------------------
  // assignsByDst

  /** The assignments into `id`, in input order. */
  function SourcesOf(assigns: seq<AssignRec>, id: string): seq<Source> {
    if |assigns| == 0 then []
    else (if assigns[0].dst == id then [Source(assigns[0].src, assigns[0].line)] else []) + SourcesOf(assigns[1..], id)
  }

  /** `assignsByDst.get(id) || []`. */
  function Lookup(groups: map<string, seq<Source>>, id: string): seq<Source> {
    if id in groups then groups[id] else []
  }

  /** The loop that fills `assignsByDst`: each record is pushed onto its destination's list. */
  function GroupByDst(assigns: seq<AssignRec>): map<string, seq<Source>>
    decreases |assigns|
  {
    if |assigns| == 0 then map[]
    else
      var groups := GroupByDst(assigns[..|assigns| - 1]);
      var a := assigns[|assigns| - 1];
      groups[a.dst := Lookup(groups, a.dst) + [Source(a.src, a.line)]]
  }

  lemma {:induction false} SourcesOfSnoc(assigns: seq<AssignRec>, a: AssignRec, id: string)
    ensures SourcesOf(assigns + [a], id)
            == SourcesOf(assigns, id) + (if a.dst == id then [Source(a.src, a.line)] else [])
  {
    var s := assigns + [a];
    var last := if a.dst == id then [Source(a.src, a.line)] else [];
    if |assigns| == 0 {
      assert s == [a] && s[1..] == [];
    } else {
      var head := if assigns[0].dst == id then [Source(assigns[0].src, assigns[0].line)] else [];
      assert s[0] == assigns[0];
      assert s[1..] == assigns[1..] + [a];
      SourcesOfSnoc(assigns[1..], a, id);
      calc {
        SourcesOf(s, id);
        head + SourcesOf(assigns[1..] + [a], id);
        head + (SourcesOf(assigns[1..], id) + last);
        (head + SourcesOf(assigns[1..], id)) + last;
        SourcesOf(assigns, id) + last;
      }
    }
  }

  /**
   * `assignsByDst` groups the records by destination and keeps their input
   * order; a destination has an entry exactly when some record assigns it.
   */
  lemma {:induction false} GroupByDstSpec(assigns: seq<AssignRec>, id: string)
    ensures Lookup(GroupByDst(assigns), id) == SourcesOf(assigns, id)
    ensures id in GroupByDst(assigns) <==> SourcesOf(assigns, id) != []
    decreases |assigns|
  {
    if |assigns| > 0 {
      var prefix := assigns[..|assigns| - 1];
      var a := assigns[|assigns| - 1];
      assert assigns == prefix + [a];
      GroupByDstSpec(prefix, id);
      SourcesOfSnoc(prefix, a, id);
    }
  }

  // ---------------------------------------------------------------------------
  // Choosing the predecessor

  /** `allAssigns.filter(as => as.line < line)`. */
  function Below(sources: seq<Source>, line: nat): (c: seq<Source>)
    ensures forall x | x in c :: x.line < line && x in sources
    ensures forall k :: 0 <= k < |sources| && sources[k].line < line ==> sources[k] in c
    ensures |c| == 0 <==> forall k :: 0 <= k < |sources| ==> sources[k].line >= line
  {
    if |sources| == 0 then []
    else
      var rest := Below(sources[1..], line);
      assert forall k :: 0 <= k < |sources| - 1 ==> sources[1..][k] == sources[k + 1];
      if sources[0].line < line then [sources[0]] + rest else rest
  }

  /**
   * `reduce((latest, current) => latest.line > current.line ? latest : current)`:
   * the running choice is replaced unless it is strictly later.
   */
  function ReduceLatest(latest: Source, rest: seq<Source>): (r: Source)
    ensures r == latest || r in rest
    decreases |rest|
  {
    if |rest| == 0 then latest
    else ReduceLatest(if latest.line > rest[0].line then latest else rest[0], rest[1..])
  }

  /** `reduce` without an initial value starts from the first element. */
  function Latest(c: seq<Source>): (r: Source)
    requires |c| > 0
    ensures r in c
  {
    ReduceLatest(c[0], c[1..])
  }

  /** Position `i` holds a maximal line, and every later position a strictly smaller one. */
  predicate IsLastMaximum(s: seq<Source>, i: int) {
    && 0 <= i < |s|
    && (forall j :: 0 <= j < |s| ==> s[j].line <= s[i].line)
    && (forall j :: i < j < |s| ==> s[j].line < s[i].line)
  }

  lemma {:induction false} ReduceLatestSpec(latest: Source, rest: seq<Source>)
    ensures exists i :: IsLastMaximum([latest] + rest, i) && ([latest] + rest)[i] == ReduceLatest(latest, rest)
    decreases |rest|
  {
    var s := [latest] + rest;
    if |rest| == 0 {
      assert IsLastMaximum(s, 0);
    } else {
      var w := if latest.line > rest[0].line then latest else rest[0];
      var s' := [w] + rest[1..];
      ReduceLatestSpec(w, rest[1..]);
      var i' :| IsLastMaximum(s', i') && s'[i'] == ReduceLatest(w, rest[1..]);
      assert forall k :: 1 <= k < |s'| ==> s'[k] == s[k + 1];
      var i := if i' > 0 then i' + 1 else if latest.line > rest[0].line then 0 else 1;
      assert s[0] == latest && s[1] == rest[0] && s'[0] == w;
      assert s[i] == s'[i'];
      forall j | 0 <= j < |s| ensures s[j].line <= s[i].line {
        if j >= 2 {
          assert s[j] == s'[j - 1];
        }
      }
      forall j | i < j < |s| ensures s[j].line < s[i].line {
        if j >= 2 {
          assert s[j] == s'[j - 1];
        }
      }
      assert IsLastMaximum(s, i);
    }
  }

  /**
   * The tie-break: the chosen assignment has the greatest line, and among
   * those with that line it is the last one in input order.
   */
  lemma {:induction false} LatestIsLastMaximum(c: seq<Source>)
    requires |c| > 0
    ensures exists i :: IsLastMaximum(c, i) && c[i] == Latest(c)
  {
    ReduceLatestSpec(c[0], c[1..]);
    assert [c[0]] + c[1..] == c;
  }

  /** The assignment the trace steps back to from `t`, if any. */
  function Predecessor(groups: map<string, seq<Source>>, t: Target): (p: Option<Source>)
    ensures p.Some? ==> p.value.line < t.line && p.value in Lookup(groups, t.id)
    ensures p.None? <==> forall k :: 0 <= k < |Lookup(groups, t.id)| ==> Lookup(groups, t.id)[k].line >= t.line
  {
    var c := Below(Lookup(groups, t.id), t.line);
    if |c| == 0 then None else Some(Latest(c))
  }

  /**
   * Position `m` of `s` holds an assignment strictly above `line` whose line
   * is the greatest among those above `line`, and every later assignment
   * above `line` has a strictly smaller one.
   */
  predicate IsLastLatestBelow(s: seq<Source>, line: nat, m: int) {
    && 0 <= m < |s|
    && s[m].line < line
    && (forall j :: 0 <= j < |s| && s[j].line < line ==> s[j].line <= s[m].line)
    && (forall j :: m < j < |s| && s[j].line < line ==> s[j].line < s[m].line)
  }

  /** `Below` of a list that starts with an assignment above the line keeps that head. */
  lemma BelowCons(s: seq<Source>, line: nat)
    requires |s| > 0
    ensures s[0].line < line ==> Below(s, line) == [s[0]] + Below(s[1..], line)
    ensures s[0].line >= line ==> Below(s, line) == Below(s[1..], line)
  {
  }

  /** When the head is kept and is the last maximum, it is the last latest-below element. */
  lemma HeadLastMaximum(s: seq<Source>, line: nat)
    requires |s| > 0 && s[0].line < line
    requires IsLastMaximum(Below(s, line), 0)
    ensures IsLastLatestBelow(s, line, 0)
  {
    var c := Below(s, line);
    var rest := Below(s[1..], line);
    BelowCons(s, line);
    forall j | 0 < j < |s| && s[j].line < line ensures s[j].line < s[0].line {
      assert s[1..][j - 1] == s[j];
      assert s[j] in rest;
      var q :| 0 <= q < |rest| && rest[q] == s[j];
      assert c[q + 1] == s[j];
    }
  }

  /** The last maximum of the filtered list is the last latest-below element of the unfiltered one. */
  lemma {:induction false} BelowLastMaximum(s: seq<Source>, line: nat, i: int) returns (m: int)
    requires IsLastMaximum(Below(s, line), i)
    ensures IsLastLatestBelow(s, line, m) && s[m] == Below(s, line)[i]
    decreases |s|
  {
    if s[0].line < line && i == 0 {
      BelowCons(s, line);
      HeadLastMaximum(s, line);
      m := 0;
    } else {
      var x := Below(s, line)[i];
      var i' := LastMaximumInTail(s, line, i);
      var m' := BelowLastMaximum(s[1..], line, i');
      TailLastLatestBelow(s, line, m', x);
      m := m' + 1;
    }
  }

  /** Past a dropped head, or past a kept head that is not the maximum, the last maximum sits in the tail's filtered list. */
  lemma LastMaximumInTail(s: seq<Source>, line: nat, i: int) returns (i': int)
    requires |s| > 0 && IsLastMaximum(Below(s, line), i)
    requires !(s[0].line < line && i == 0)
    ensures IsLastMaximum(Below(s[1..], line), i') && Below(s[1..], line)[i'] == Below(s, line)[i]
    ensures s[0].line < line ==> s[0].line <= Below(s, line)[i].line
  {
    if s[0].line < line {
      i' := KeptHeadShift(s, line, i);
    } else {
      BelowCons(s, line);
      i' := i;
    }
  }

  /** Past a kept head that is not the last maximum, the last maximum moves one position down in the tail. */
  lemma KeptHeadShift(s: seq<Source>, line: nat, i: int) returns (i': int)
    requires |s| > 0 && s[0].line < line && IsLastMaximum(Below(s, line), i) && i > 0
    ensures i' == i - 1
    ensures IsLastMaximum(Below(s[1..], line), i') && Below(s[1..], line)[i'] == Below(s, line)[i]
    ensures s[0].line <= Below(s, line)[i].line
  {
    var c := Below(s, line);
    var rest := Below(s[1..], line);
    BelowCons(s, line);
    assert c == [s[0]] + rest;
    assert c[1..] == rest;
    LastMaximumDropHead(c, i);
    i' := i - 1;
  }

  /** Dropping a head that is not the last maximum keeps the last maximum, one position earlier. */
  lemma LastMaximumDropHead(c: seq<Source>, i: int)
    requires IsLastMaximum(c, i) && i > 0
    ensures IsLastMaximum(c[1..], i - 1) && c[1..][i - 1] == c[i]
    ensures c[0].line <= c[i].line
  {
    forall j | 0 <= j < |c| - 1 ensures c[1..][j] == c[j + 1] {
    }
  }

  /** A last latest-below position of the tail lifts to the whole list when the head does not beat it. */
  lemma TailLastLatestBelow(s: seq<Source>, line: nat, m': int, x: Source)
    requires |s| > 0 && IsLastLatestBelow(s[1..], line, m') && s[1..][m'] == x
    requires s[0].line < line ==> s[0].line <= x.line
    ensures IsLastLatestBelow(s, line, m' + 1) && s[m' + 1] == x
  {
    forall j | 0 < j < |s| ensures s[j] == s[1..][j - 1] {
    }
  }

  /**
   * The predecessor is the last of the latest assignments to the id strictly
   * above the line: first as a position in the filtered list, then as a
   * position in the id's assignments themselves.
   */
  lemma {:induction false} PredecessorIsLatestBelow(groups: map<string, seq<Source>>, t: Target)
    requires Predecessor(groups, t).Some?
    ensures exists i :: IsLastMaximum(Below(Lookup(groups, t.id), t.line), i)
                        && Below(Lookup(groups, t.id), t.line)[i] == Predecessor(groups, t).value
    ensures exists m :: IsLastLatestBelow(Lookup(groups, t.id), t.line, m)
                        && Lookup(groups, t.id)[m] == Predecessor(groups, t).value
  {
    var c := Below(Lookup(groups, t.id), t.line);
    assert Predecessor(groups, t).value == Latest(c);
    LatestIsLastMaximum(c);
    var i :| IsLastMaximum(c, i) && c[i] == Latest(c);
    assert IsLastMaximum(c, i) && c[i] == Predecessor(groups, t).value;
    var m := BelowLastMaximum(Lookup(groups, t.id), t.line, i);
    assert IsLastLatestBelow(Lookup(groups, t.id), t.line, m);
  }

  // ---------------------------------------------------------------------------
  // The trace as a chain

  /** The targets the trace visits from `t`: `t`, then the trace from its predecessor. */
  function Chain(groups: map<string, seq<Source>>, t: Target): (c: seq<Target>)
    ensures |c| >= 1 && c[0] == t
    decreases t.line
  {
    match Predecessor(groups, t)
    case None => [t]
    case Some(p) => [t] + Chain(groups, Target(p.src, p.line))
  }

  /** Lines strictly decrease along a sequence of targets. */
  predicate Descending(ts: seq<Target>) {
    forall j, k :: 0 <= j < k < |ts| ==> ts[k].line < ts[j].line
  }

  /** Lines strictly decrease along the chain. */
  lemma {:induction false} ChainDecreasing(groups: map<string, seq<Source>>, t: Target)
    ensures Descending(Chain(groups, t))
    decreases t.line
  {
    var p := Predecessor(groups, t);
    if p.Some? {
      var next := Target(p.value.src, p.value.line);
      ChainDecreasing(groups, next);
      var c := Chain(groups, t);
      var rest := Chain(groups, next);
      assert c == [t] + rest;
      forall j, k | 0 <= j < k < |c| ensures c[k].line < c[j].line {
        if j == 0 {
          assert c[k] == rest[k - 1];
          assert next.line < t.line;
          if k > 1 {
            assert rest[k - 1].line < rest[0].line;
          }
        } else {
          assert c[j] == rest[j - 1] && c[k] == rest[k - 1];
        }
      }
    }
  }

  /**
   * Position `k` of a chain is followed by its predecessor, and the chain ends
   * exactly at the first target without one.
   */
  predicate StepsTo(groups: map<string, seq<Source>>, c: seq<Target>, k: int)
    requires 0 <= k < |c|
  {
    match Predecessor(groups, c[k])
    case None => k == |c| - 1
    case Some(p) => k + 1 < |c| && c[k + 1] == Target(p.src, p.line)
  }

  /** A target without predecessor is a chain of its own. */
  lemma ChainEnd(groups: map<string, seq<Source>>, t: Target)
    requires Predecessor(groups, t).None?
    ensures Chain(groups, t) == [t]
  {
  }

  /** A target with a predecessor comes right before its predecessor's chain. */
  lemma ChainCons(groups: map<string, seq<Source>>, t: Target, p: Source)
    requires Predecessor(groups, t) == Some(p)
    ensures Chain(groups, t) == [t] + Chain(groups, Target(p.src, p.line))
  {
  }

  /** Each element of the chain steps to the next one, or is the last and has no predecessor. */
  lemma {:induction false} ChainSteps(groups: map<string, seq<Source>>, t: Target, k: nat)
    requires k < |Chain(groups, t)|
    ensures StepsTo(groups, Chain(groups, t), k)
    decreases k, 1
  {
    if Predecessor(groups, t).None? {
      ChainEnd(groups, t);
    } else {
      ChainStepsBack(groups, t, Predecessor(groups, t).value, k);
    }
  }

  /** `ChainSteps` for a target with a predecessor `p`: its chain continues with that of `p`. */
  lemma {:induction false} ChainStepsBack(groups: map<string, seq<Source>>, t: Target, p: Source, k: nat)
    requires Predecessor(groups, t) == Some(p) && k < |Chain(groups, t)|
    ensures StepsTo(groups, Chain(groups, t), k)
    decreases k, 0
  {
    var next := Target(p.src, p.line);
    var rest := Chain(groups, next);
    ChainCons(groups, t, p);
    if k > 0 {
      var j: nat := k - 1;
      ChainSteps(groups, next, j);
      StepsToCons(groups, t, rest, Chain(groups, t), j, k);
    } else {
      StepsToHead(groups, t, p, rest, Chain(groups, t));
    }
  }

  /** The first step of `[t] + rest`, when `rest` starts at the predecessor of `t`. */
  lemma StepsToHead(groups: map<string, seq<Source>>, t: Target, p: Source, rest: seq<Target>, c: seq<Target>)
    requires Predecessor(groups, t) == Some(p)
    requires |rest| > 0 && rest[0] == Target(p.src, p.line) && c == [t] + rest
    ensures StepsTo(groups, c, 0)
  {
    assert c[1] == rest[0];
  }

  /** A step inside `rest` is the same step one position later in `c == [t] + rest`. */
  lemma StepsToCons(groups: map<string, seq<Source>>, t: Target, rest: seq<Target>, c: seq<Target>, j: nat, k: nat)
    requires k == j + 1 && j < |rest| && StepsTo(groups, rest, j) && c == [t] + rest
    ensures StepsTo(groups, c, k)
  {
    assert c[k] == rest[j];
    if k + 1 < |c| {
      assert c[k + 1] == rest[k];
    }
  }

  // ---------------------------------------------------------------------------
  // Nodes and edges

  /** A node's key, `${id}@${line}`. */
  function Key(t: Target): string {
    t.id + "@" + NatToString(t.line)
  }

  /** Keys are injective: the line is the digits after the last `@`, the id what precedes them. */
  lemma {:induction false} KeyInjective(a: Target, b: Target)
    requires Key(a) == Key(b)
    ensures a == b
  {
    var da := NatToString(a.line);
    var db := NatToString(b.line);
    assert '@' !in da by {
      forall k | 0 <= k < |da| ensures da[k] != '@' {
        assert IsDigit(da[k]);
      }
    }
    assert '@' !in db by {
      forall k | 0 <= k < |db| ensures db[k] != '@' {
        assert IsDigit(db[k]);
      }
    }
    assert Key(a) == a.id + ['@'] + da;
    assert Key(b) == b.id + ['@'] + db;
    LastSegmentAfterSeparator(a.id, '@', da);
    LastSegmentAfterSeparator(b.id, '@', db);
    NatToStringInjective(a.line, b.line);
    assert Key(a)[..|a.id|] == a.id;
    assert Key(b)[..|b.id|] == b.id;
  }

  /** What the source records about an id from the code facts (`codeInfoMap`). */
  datatype CodeInfo = CodeInfo(name: Option<string>, code: Option<string>, line: nat)

  /**
   * How a node is styled: the root-cause node, a node whose recorded code is
   * the text `null`, or any other node.
   */
  datatype NodeKind = StartNode | NullNode | PlainNode

  datatype GraphNode = GraphNode(key: string, kind: NodeKind)

  datatype Edge = Edge(from: string, to: string)

  /** The style `addNode` gives to target `t`: the start test comes first. */
  function KindOf(infos: map<string, CodeInfo>, start: Target, t: Target): NodeKind {
    if t == start then StartNode
    else if t.id in infos && infos[t.id].code == Some("null") then NullNode
    else PlainNode
  }

  function NodeOf(infos: map<string, CodeInfo>, start: Target, t: Target): GraphNode {
    GraphNode(Key(t), KindOf(infos, start, t))
  }

  /** The nodes of a sequence of targets, in order. */
  function NodesOf(infos: map<string, CodeInfo>, start: Target, ts: seq<Target>): (ns: seq<GraphNode>)
    ensures |ns| == |ts|
    ensures forall k :: 0 <= k < |ts| ==> ns[k] == NodeOf(infos, start, ts[k])
  {
    if |ts| == 0 then [] else NodesOf(infos, start, ts[..|ts| - 1]) + [NodeOf(infos, start, ts[|ts| - 1])]
  }

  /** The edge from each target's successor in the sequence (its predecessor in the program) to it. */
  function ChainEdges(ts: seq<Target>): (es: seq<Edge>)
    ensures |es| == if |ts| == 0 then 0 else |ts| - 1
    ensures forall k :: 0 <= k < |es| ==> es[k] == Edge(Key(ts[k + 1]), Key(ts[k]))
  {
    if |ts| <= 1 then [] else ChainEdges(ts[..|ts| - 1]) + [Edge(Key(ts[|ts| - 1]), Key(ts[|ts| - 2]))]
  }

  predicate HasKey(nodes: seq<GraphNode>, key: string) {
    exists k | 0 <= k < |nodes| :: nodes[k].key == key
  }

  /** `addNode(id, line)`: a node is added only for a key not seen before; the key is returned. */
  function AddNode(nodes: seq<GraphNode>, infos: map<string, CodeInfo>, start: Target, t: Target)
    : (r: (seq<GraphNode>, string))
    ensures r.1 == Key(t)
    ensures HasKey(nodes, Key(t)) ==> r.0 == nodes
    ensures !HasKey(nodes, Key(t)) ==> r.0 == nodes + [NodeOf(infos, start, t)]
  {
    if HasKey(nodes, Key(t)) then (nodes, Key(t)) else (nodes + [NodeOf(infos, start, t)], Key(t))
  }

  /** The keys of a sequence of targets. */
  function KeySet(ts: seq<Target>): set<string> {
    set t | t in ts :: Key(t)
  }

  /** A target on a line below every line of `ts` has a key that none of them has. */
  lemma {:induction false} FreshKey(infos: map<string, CodeInfo>, start: Target, ts: seq<Target>, t: Target)
    requires forall j :: 0 <= j < |ts| ==> t.line < ts[j].line
    ensures Key(t) !in KeySet(ts)
    ensures !HasKey(NodesOf(infos, start, ts), Key(t))
  {
    forall u | u in ts ensures Key(u) != Key(t) {
      if Key(u) == Key(t) {
        KeyInjective(u, t);
      }
    }
    var nodes := NodesOf(infos, start, ts);
    forall k | 0 <= k < |ts| ensures nodes[k].key != Key(t) {
      if nodes[k].key == Key(t) {
        KeyInjective(ts[k], t);
      }
    }
  }

  lemma {:induction false} KeyOfLast(infos: map<string, CodeInfo>, start: Target, ts: seq<Target>)
    requires |ts| > 0
    ensures HasKey(NodesOf(infos, start, ts), Key(ts[|ts| - 1]))
  {
    assert NodesOf(infos, start, ts)[|ts| - 1].key == Key(ts[|ts| - 1]);
  }

  lemma {:induction false} KeySetSnoc(ts: seq<Target>, t: Target)
    ensures KeySet(ts + [t]) == KeySet(ts) + {Key(t)}
  {
    forall k ensures k in KeySet(ts + [t]) <==> k in KeySet(ts) + {Key(t)} {
      if k in KeySet(ts + [t]) {
        var u :| u in ts + [t] && Key(u) == k;
        if u != t {
          assert u in ts;
        }
      }
      if k in KeySet(ts) {
        var u :| u in ts && Key(u) == k;
        assert u in ts + [t];
      }
      assert t in ts + [t];
    }
  }

  // ---------------------------------------------------------------------------
  // The shape of the result

  /**
   * A single chain of nodes: as many edges as nodes minus one, each from the
   * next node's key to the previous one's, keys pairwise distinct, lines
   * strictly decreasing along the targets, and only the first node styled as
   * the start.
   */
  ghost predicate IsChainGraph(ts: seq<Target>, nodes: seq<GraphNode>, edges: seq<Edge>) {
    && |nodes| == |ts| >= 1
    && |edges| == |nodes| - 1
    && (forall k :: 0 <= k < |edges| ==> edges[k] == Edge(nodes[k + 1].key, nodes[k].key))
    && (forall k :: 0 <= k < |edges| ==> ts[k + 1].line < ts[k].line)
    && (forall j, k :: 0 <= j < k < |nodes| ==> nodes[j].key != nodes[k].key)
    && nodes[0].kind == StartNode
    && (forall k :: 0 < k < |nodes| ==> nodes[k].kind != StartNode)
  }

  /** The graph of a descending sequence of targets from the start is a single chain. */
  lemma {:induction false} DescendingGraphShape(infos: map<string, CodeInfo>, start: Target, ts: seq<Target>)
    requires |ts| >= 1 && ts[0] == start && Descending(ts)
    ensures IsChainGraph(ts, NodesOf(infos, start, ts), ChainEdges(ts))
  {
    var nodes := NodesOf(infos, start, ts);
    forall j, k | 0 <= j < k < |nodes| ensures nodes[j].key != nodes[k].key {
      if nodes[j].key == nodes[k].key {
        KeyInjective(ts[j], ts[k]);
      }
    }
    forall k | 0 < k < |nodes| ensures nodes[k].kind != StartNode {
      assert ts[k].line < ts[0].line;
    }
  }

  /** The propagation graph built from the chain of the start is a single chain of nodes. */
  lemma {:induction false} ChainGraphShape(groups: map<string, seq<Source>>, infos: map<string, CodeInfo>, start: Target)
    ensures IsChainGraph(Chain(groups, start), NodesOf(infos, start, Chain(groups, start)), ChainEdges(Chain(groups, start)))
  {
    ChainDecreasing(groups, start);
    DescendingGraphShape(infos, start, Chain(groups, start));
  }

  // ---------------------------------------------------------------------------
  // Code entries, mapIdToName and codeInfoMap

  /** The code facts the source's expressions pick up, in file order. */
  datatype CodeEntry =
    | NameEntry(id: string, line: nat, text: string)
    | ExprEntry(id: string, line: nat, text: string)
    | LiteralEntry(id: string, line: nat, text: string)
    | NameRefEntry(id: string, text: string)

  datatype EntryKind = NameKind | ExprKind | LiteralKind | NameRefKind

  function KindOfEntry(e: CodeEntry): EntryKind {
    match e
    case NameEntry(_, _, _) => NameKind
    case ExprEntry(_, _, _) => ExprKind
    case LiteralEntry(_, _, _) => LiteralKind
    case NameRefEntry(_, _) => NameRefKind
  }

  /** Some entry of `kind` for `id` has a non-empty text. */
  predicate HasText(entries: seq<CodeEntry>, id: string, kind: EntryKind) {
    exists k :: 0 <= k < |entries| && KindOfEntry(entries[k]) == kind && entries[k].id == id && entries[k].text != ""
  }

  /**
   * The first non-empty text of an entry of `kind` for `id`, as
   * `facts.match(regex)` finds it (the captured group is never empty).
   */
  function FirstText(entries: seq<CodeEntry>, id: string, kind: EntryKind): (r: Option<string>)
    ensures r.Some? ==>
              exists k :: 0 <= k < |entries| && KindOfEntry(entries[k]) == kind && entries[k].id == id
                          && entries[k].text == r.value && |r.value| > 0
                          && forall j :: 0 <= j < k && KindOfEntry(entries[j]) == kind && entries[j].id == id
                                         ==> entries[j].text == ""
    ensures r.None? <==>
              forall k :: 0 <= k < |entries| && KindOfEntry(entries[k]) == kind && entries[k].id == id
                          ==> entries[k].text == ""
  {
    if |entries| == 0 then None
    else
      var e := entries[0];
      assert forall k :: 0 <= k < |entries| - 1 ==> entries[1..][k] == entries[k + 1];
      if KindOfEntry(e) == kind && e.id == id && e.text != "" then Some(e.text)
      else FirstText(entries[1..], id, kind)
  }

  /**
   * `mapIdToName(id, facts)`: `"null"` for any id containing `literal`;
   * otherwise the text of the first `name` fact of the id, else of its first
   * `expr` fact, else of its first `name_ref` fact, else nothing.
   */
  function MapIdToName(id: string, entries: seq<CodeEntry>): (r: Option<string>)
    ensures Contains(id, "literal") ==> r == Some("null")
    ensures r.Some? ==> |r.value| > 0
    ensures !Contains(id, "literal") ==>
              (r.None? <==> forall k :: 0 <= k < |entries| && entries[k].id == id && KindOfEntry(entries[k]) != LiteralKind
                                      ==> entries[k].text == "")
    ensures !Contains(id, "literal") && r.Some? ==>
              exists k :: 0 <= k < |entries| && entries[k].id == id && entries[k].text == r.value
    ensures !Contains(id, "literal") && HasText(entries, id, NameKind) ==> r == FirstText(entries, id, NameKind)
    ensures !Contains(id, "literal") && !HasText(entries, id, NameKind) && HasText(entries, id, ExprKind) ==>
              r == FirstText(entries, id, ExprKind)
    ensures !Contains(id, "literal") && !HasText(entries, id, NameKind) && !HasText(entries, id, ExprKind) ==>
              r == FirstText(entries, id, NameRefKind)
  {
    if Contains(id, "literal") then Some("null")
    else
      var n := FirstText(entries, id, NameKind);
      if n.Some? then n
      else
        var x := FirstText(entries, id, ExprKind);
        if x.Some? then x
        else FirstText(entries, id, NameRefKind)
  }

  /** The info one entry records: the name for a `name` fact, the code or value otherwise. */
  function InfoFor(e: CodeEntry): CodeInfo
    requires !e.NameRefEntry?
  {
    if e.NameEntry? then CodeInfo(Some(e.text), None, e.line) else CodeInfo(None, Some(e.text), e.line)
  }

  /** One `for (const m of codeFactsContent.matchAll(...))` pass: `codeInfoMap.set` for each entry of `kind`. */
  function InfoPass(m: map<string, CodeInfo>, entries: seq<CodeEntry>, kind: EntryKind): map<string, CodeInfo>
    requires kind != NameRefKind
    decreases |entries|
  {
    if |entries| == 0 then m
    else
      var e := entries[0];
      InfoPass(if KindOfEntry(e) == kind then m[e.id := InfoFor(e)] else m, entries[1..], kind)
  }

  /** `codeInfoMap`: the `name` pass, then the `expr` pass, then the `literal` pass. */
  function InfoMap(entries: seq<CodeEntry>): map<string, CodeInfo> {
    InfoPass(InfoPass(InfoPass(map[], entries, NameKind), entries, ExprKind), entries, LiteralKind)
  }

  /** The last entry of `kind` for `id`. */
  function LastOf(entries: seq<CodeEntry>, id: string, kind: EntryKind): (r: Option<CodeEntry>)
    ensures r.Some? ==> r.value in entries && r.value.id == id && KindOfEntry(r.value) == kind
  {
    if |entries| == 0 then None
    else
      var later := LastOf(entries[1..], id, kind);
      if later.Some? then later
      else if entries[0].id == id && KindOfEntry(entries[0]) == kind then Some(entries[0])
      else None
  }

  /** A pass leaves an id's info to the last entry of its kind for that id, if there is one. */
  lemma {:induction false} InfoPassSpec(m: map<string, CodeInfo>, entries: seq<CodeEntry>, kind: EntryKind, id: string)
    requires kind != NameRefKind
    ensures var r := InfoPass(m, entries, kind);
            var last := LastOf(entries, id, kind);
              && (id in r <==> id in m || last.Some?)
              && (last.Some? ==> r[id] == InfoFor(last.value))
              && (last.None? && id in m ==> r[id] == m[id])
    decreases |entries|
  {
    if |entries| > 0 {
      var e := entries[0];
      var m' := if KindOfEntry(e) == kind then m[e.id := InfoFor(e)] else m;
      InfoPassSpec(m', entries[1..], kind, id);
    }
  }

  /**
   * Later passes override earlier ones: an id's info comes from its last
   * `literal` entry, else its last `expr` entry, else its last `name` entry.
   */
  lemma {:induction false} InfoMapLookup(entries: seq<CodeEntry>, id: string)
    ensures var infos := InfoMap(entries);
            var lit := LastOf(entries, id, LiteralKind);
            var ex := LastOf(entries, id, ExprKind);
            var nm := LastOf(entries, id, NameKind);
              && (id in infos <==> lit.Some? || ex.Some? || nm.Some?)
              && (lit.Some? ==> infos[id] == InfoFor(lit.value))
              && (lit.None? && ex.Some? ==> infos[id] == InfoFor(ex.value))
              && (lit.None? && ex.None? && nm.Some? ==> infos[id] == InfoFor(nm.value))
  {
    var m1 := InfoPass(map[], entries, NameKind);
    var m2 := InfoPass(m1, entries, ExprKind);
    InfoPassSpec(map[], entries, NameKind, id);
    InfoPassSpec(m1, entries, ExprKind, id);
    InfoPassSpec(m2, entries, LiteralKind, id);
  }

  // ---------------------------------------------------------------------------
  // The class-name tag and the result

  /** `s.replace(/Test$/i, "")`: a trailing `test` in any ASCII letter case is removed once. */
  function StripTestSuffix(s: string): (r: string)
    ensures |s| >= 4 && ToLowerAscii(s[|s| - 4..]) == "test" ==> r + s[|s| - 4..] == s
    ensures !(|s| >= 4 && ToLowerAscii(s[|s| - 4..]) == "test") ==> r == s
  {
    if |s| >= 4 && ToLowerAscii(s[|s| - 4..]) == "test" then s[..|s| - 4] else s
  }

  /** The fully qualified class name of a test id: after the last `@`, before the first `#`. */
  function TestClassName(testId: string): string {
    FirstSegment(LastSegment(testId, '@'), '#')
  }

  /** `classNameTag`: the simple name of the test class without a trailing `Test`. */
  function ClassTag(testId: string): string {
    StripTestSuffix(LastSegment(TestClassName(testId), '.'))
  }

  /**
   * For an id of the shape `<prefix>@<package>.<Class>#<method>`, the tag is
   * the class name with its `Test` suffix dropped.
   */
  lemma {:induction false} ClassTagOfTestId(prefix: string, pkg: string, cls: string, rest: string)
    requires '@' !in pkg && '#' !in pkg && '@' !in cls && '#' !in cls && '.' !in cls && '@' !in rest
    ensures ClassTag(prefix + "@" + pkg + "." + cls + "#" + rest) == StripTestSuffix(cls)
  {
    var tail := pkg + "." + cls + "#" + rest;
    assert '@' !in tail;
    assert prefix + "@" + pkg + "." + cls + "#" + rest == prefix + ['@'] + tail;
    LastSegmentAfterSeparator(prefix, '@', tail);
    var fq := pkg + "." + cls;
    assert '#' !in fq;
    assert tail == fq + ['#'] + rest;
    FirstSegmentOfSeparated(fq, '#', rest);
    assert fq == pkg + ['.'] + cls;
    LastSegmentAfterSeparator(pkg, '.', cls);
  }

  /** The first segment of `p + [c] + d` with a separator-free `p` is `p`. */
  lemma {:induction false} FirstSegmentOfSeparated(p: string, c: char, d: string)
    requires c !in p
    ensures FirstSegment(p + [c] + d, c) == p
  {
    var s := p + [c] + d;
    if |p| == 0 {
      assert s == [c] + d;
    } else {
      assert s[1..] == p[1..] + [c] + d;
      FirstSegmentOfSeparated(p[1..], c, d);
      assert p == [p[0]] + p[1..];
    }
  }
}

=== FILE: handler.dfy ===
/**
 * The entry points of `PrologFactsHandler` (src/ast-to-facts.ts): the state
 * that outlives one call of `processAST` (the module-level id counter and the
 * handler's line map), `processSourceFile`, and `processAST` itself.
 */
module Handler {
  import opened Common
  import opened JsStrings
  import opened Ids
  import opened JavaAst
  import opened Facts
  import opened FactHelpers
  import opened Extractor

  /**
   * What survives between two `processAST` calls on one handler: the global
   * counter (starting at 1 when the module loads) and `lineMapping`, which
   * `processAST` never clears.
   */
  datatype HandlerState = HandlerState(counter: nat, lineMap: map<int, Ident>)

  const InitialState := HandlerState(1, map[])

  /** The number of `\n`-separated lines of a source text. */
  function LineCount(source: string): (n: nat)
    ensures n == 1 + Count(source, '\n')
  {
    |Split(source, '\n')|
  }

  /** Every offset lies on a line of the file. */
  lemma LineNumberWithinFile(source: string, p: int)
    ensures 1 <= LineNumber(source, p) <= LineCount(source)
  {
    CountPrefixMonotone(source, '\n', Clamp(p, |source|), |source|);
    assert source[..|source|] == source;
  }

  /** Line numbers `1..n` mapped to the line ids drawn from `first` on. */
  function NumberedLines(first: nat, n: nat): map<int, Ident> {
    if n == 0 then map[] else NumberedLines(first, n - 1)[n := Gen(LineCat, first + n - 1)]
  }

  /** Exactly the numbers `1..n` are numbered, each with the id drawn for it. */
  lemma {:induction false} NumberedLinesSpec(first: nat, n: nat)
    ensures forall k: int :: k in NumberedLines(first, n) <==> 1 <= k <= n
    ensures forall k: int :: 1 <= k <= n ==> NumberedLines(first, n)[k] == Gen(LineCat, first + k - 1)
  {
    if n > 0 {
      NumberedLinesSpec(first, n - 1);
    }
  }

  /** The line map after numbering `n` lines from `first` on: the new entries override older ones. */
  function LineTable(lineMap: map<int, Ident>, first: nat, n: nat): map<int, Ident> {
    lineMap + NumberedLines(first, n)
  }

  /**
   * What the numbered table holds: lines `1..n` map to the ids drawn from
   * `first` on, in order; every other entry of the old map is kept; nothing
   * else is added.
   */
  lemma LineTableEntries(lineMap: map<int, Ident>, first: nat, n: nat)
    ensures forall k: int :: 1 <= k <= n ==> k in LineTable(lineMap, first, n) && LineTable(lineMap, first, n)[k] == Gen(LineCat, first + k - 1)
    ensures forall k | k in lineMap && !(1 <= k <= n) :: k in LineTable(lineMap, first, n) && LineTable(lineMap, first, n)[k] == lineMap[k]
    ensures forall k | k in LineTable(lineMap, first, n) :: k in lineMap || 1 <= k <= n
  {
    NumberedLinesSpec(first, n);
  }

  /** Numbering one more line adds exactly the entry for it. */
  lemma LineTableStep(lineMap: map<int, Ident>, first: nat, n: nat)
    ensures LineTable(lineMap, first, n)[n + 1 := Gen(LineCat, first + n)] == LineTable(lineMap, first, n + 1)
  {
    var before := LineTable(lineMap, first, n)[n + 1 := Gen(LineCat, first + n)];
    var after := LineTable(lineMap, first, n + 1);
    NumberedLinesSpec(first, n);
    NumberedLinesSpec(first, n + 1);
    forall k: int ensures k in before <==> k in after {
    }
    forall k | k in before ensures before[k] == after[k] {
      if 1 <= k <= n + 1 {
        assert k in NumberedLines(first, n + 1);
      } else {
        assert k !in NumberedLines(first, n);
      }
    }
  }

  /**
   * Once a file's lines are numbered, `getLineId` finds the id of every
   * offset's line: `"unknown_line"` never appears for a position of the file.
   */
  lemma LineIdAfterNumbering(lineMap: map<int, Ident>, first: nat, source: string, p: int)
    ensures LineId(LineTable(lineMap, first, LineCount(source)), LineNumber(source, p))
            == Gen(LineCat, first + LineNumber(source, p) - 1)
  {
    LineNumberWithinFile(source, p);
    LineTableEntries(lineMap, first, LineCount(source));
  }

  /**
   * `processSourceFile`: one `line(class, k)` fact and one fresh `line_` id
   * recorded for `k` for each line, numbered from 1; then `createRange` draws a
   * range id and pushes a `range` fact spanning the file, and the method
   * pushes the same `range` fact a second time. Entries of the line map for
   * other numbers are kept.
   */
  method ProcessSourceFile(source: string, classId: Ident, counter: nat, lineMap: map<int, Ident>)
    returns (next: nat, lines: map<int, Ident>, facts: seq<Fact>)
    ensures next == counter + LineCount(source) + 1
    ensures |facts| == LineCount(source) + 2
    ensures forall k :: 0 <= k < LineCount(source) ==> facts[k] == LineFact(classId, k + 1)
    ensures facts[LineCount(source)] == RangeFact(classId, 0, |source|, 1, LineCount(source))
    ensures facts[LineCount(source) + 1] == facts[LineCount(source)]
    ensures lines == LineTable(lineMap, counter, LineCount(source))
    ensures forall f | f in facts :: f.LineFact? || f.RangeFact?
  {
    var n := LineCount(source);
    next := counter;
    lines := lineMap;
    facts := [];
    var i := 0;
    while i < n
      invariant 0 <= i <= n
      invariant next == counter + i
      invariant |facts| == i
      invariant forall k :: 0 <= k < i ==> facts[k] == LineFact(classId, k + 1)
      invariant lines == LineTable(lineMap, counter, i)
    {
      var a := GenerateId(LineCat, next);
      LineTableStep(lineMap, counter, i);
      lines := lines[i + 1 := a.id];
      facts := facts + [LineFact(classId, i + 1)];
      next := a.next;
      i := i + 1;
    }
    var rg := GenerateId(RangeCat, next);
    next := rg.next;
    var fileRange := RangeFact(classId, 0, |source|, 1, n);
    facts := facts + [fileRange, fileRange];
  }

  /** The walk of the compilation unit that follows the source-file facts of `processAST`. */
  function Walk(st: HandlerState, cu: CompilationUnit, source: string): (r: Result<Step, Crash>)
    ensures r.Success? ==> r.value.next >= st.counter + LineCount(source) + 2 && NoExits(r.value.facts)
  {
    ProcessCompilationUnit(
      Env(source, Gen(ClassCat, st.counter), LineTable(st.lineMap, st.counter + 1, LineCount(source))),
      cu, st.counter + LineCount(source) + 2)
  }

  /** The line and range facts of a file carry no exit fact, so neither does the whole output. */
  lemma NoExitsAfterSourceFacts(sourceFacts: seq<Fact>, walked: seq<Fact>)
    requires forall f | f in sourceFacts :: f.LineFact? || f.RangeFact?
    requires NoExits(walked)
    ensures Exits(sourceFacts + walked) == []
  {
    ExitsAppend(sourceFacts, walked);
    ExitsEmpty(sourceFacts);
    ExitsEmpty(walked);
  }

  /**
   * The facts `processAST` emits around the walk's facts: one `line` fact per
   * line of the file, numbered from 1, then the two file-range facts, then
   * the walk's facts; no exit fact among them.
   */
  ghost predicate AstFacts(st: HandlerState, source: string, walkedFacts: seq<Fact>, facts: seq<Fact>) {
    && |facts| == LineCount(source) + 2 + |walkedFacts|
    && (forall k :: 0 <= k < LineCount(source) ==> facts[k] == LineFact(Gen(ClassCat, st.counter), k + 1))
    && facts[LineCount(source) + 2..] == walkedFacts
    && Exits(facts) == []
  }

  /** The counter after the walk, whether it finished or stopped at a TypeError. */
  function WalkCounter(walked: Result<Step, Crash>): nat {
    if walked.Success? then walked.value.next else walked.error.next
  }

  /**
   * What `processAST` leaves behind given the walk of the compilation unit:
   * the handler's counter where the walk stopped and the renumbered line map,
   * in either case, since both are updated in place before any TypeError;
   * and either the walk's TypeError or the facts of `AstFacts`.
   */
  ghost predicate AstOutcome(st: HandlerState, source: string, walked: Result<Step, Crash>,
                             st': HandlerState, r: Result<seq<Fact>, Crash>)
  {
    && st' == HandlerState(WalkCounter(walked), LineTable(st.lineMap, st.counter + 1, LineCount(source)))
    && (r.Failure? <==> walked.Failure?)
    && (r.Failure? ==> r.error == walked.error)
    && (r.Success? ==> AstFacts(st, source, walked.value.facts, r.value))
  }

  /** The output of `processAST` assembled from the source-file facts and the walk. */
  lemma AssembleOutput(st: HandlerState, source: string, sourceFacts: seq<Fact>, lines: map<int, Ident>,
                       walked: Result<Step, Crash>, st': HandlerState, r: Result<seq<Fact>, Crash>)
    requires |sourceFacts| == LineCount(source) + 2
    requires forall k :: 0 <= k < LineCount(source) ==> sourceFacts[k] == LineFact(Gen(ClassCat, st.counter), k + 1)
    requires forall f | f in sourceFacts :: f.LineFact? || f.RangeFact?
    requires lines == LineTable(st.lineMap, st.counter + 1, LineCount(source))
    requires st' == HandlerState(WalkCounter(walked), lines)
    requires walked.Failure? ==> r == Failure(walked.error)
    requires walked.Success? ==>
               && NoExits(walked.value.facts)
               && r == Success(sourceFacts + walked.value.facts)
    ensures AstOutcome(st, source, walked, st', r)
  {
    if walked.Success? {
      NoExitsAfterSourceFacts(sourceFacts, walked.value.facts);
      assert r.value[LineCount(source) + 2..] == walked.value.facts;
    }
  }

  /**
   * The body of `processAST` around the walk: a fresh class id, the
   * source-file facts, then the walk's facts, or the walk's TypeError.
   */
  method Assemble(st: HandlerState, source: string, walked: Result<Step, Crash>)
    returns (st': HandlerState, r: Result<seq<Fact>, Crash>)
    requires walked.Success? ==> NoExits(walked.value.facts)
    ensures AstOutcome(st, source, walked, st', r)
  {
    var cls := GenerateId(ClassCat, st.counter);
    var next, lines, sourceFacts := ProcessSourceFile(source, cls.id, cls.next, st.lineMap);
    st' := HandlerState(WalkCounter(walked), lines);
    if walked.Failure? {
      r := Failure(walked.error);
    } else {
      r := Success(sourceFacts + walked.value.facts);
    }
    AssembleOutput(st, source, sourceFacts, lines, walked, st', r);
  }

  /**
   * `processAST(ast, sourceCode)`: a fresh class id, the source-file facts,
   * then the compilation unit. The fact list starts empty on every call, but
   * the counter carries on and the line map keeps entries from earlier files.
   * A TypeError inside the walk rejects the call; the handler it leaves
   * behind still holds the advanced counter and the new line map.
   */
  method ProcessAST(st: HandlerState, cu: CompilationUnit, source: string)
    returns (st': HandlerState, r: Result<seq<Fact>, Crash>)
    ensures AstOutcome(st, source, Walk(st, cu, source), st', r)
  {
    st', r := Assemble(st, source, Walk(st, cu, source));
  }
}

=== FILE: ids.dfy ===
/**
 * The extractor's identifiers (`generateId` in src/ast-to-facts.ts): a single
 * counter, global to the process, rendered behind a category prefix as
 * `${prefix}_${counter}`. The model keeps an identifier as its category and
 * counter value (`Gen`), plus the three fixed texts the extractor writes in
 * place of an id; `Text` renders each as the source prints it, and is proved
 * injective, so comparing identifiers is the same as comparing their texts.
 */
module Ids {
  import opened Common
  import opened JsStrings

  /** The text `${prefix}_${n}`. */
  function MakeId(prefix: string, n: nat): string {
    prefix + "_" + NatToString(n)
  }

  /** Reads back the counter value an identifier was made from: the digits after its last `_`. */
  function IdCounter(id: string): Option<nat> {
    var d := LastSegment(id, '_');
    if |d| > 0 && AllDigits(d) then Some(ParseNat(d)) else None
  }

  /** Decoding recovers the counter: `IdCounter` is a left inverse of `MakeId` in its number. */
  lemma IdCounterOfMakeId(prefix: string, n: nat)
    ensures IdCounter(MakeId(prefix, n)) == Some(n)
  {
    var d := NatToString(n);
    assert '_' !in d by {
      forall k | 0 <= k < |d| ensures d[k] != '_' {
        assert IsDigit(d[k]);
      }
    }
    assert MakeId(prefix, n) == prefix + ['_'] + d;
    LastSegmentAfterSeparator(prefix, '_', d);
    ParseNatToString(n);
  }

  /** Two rendered identifiers coincide only when both the counter and the prefix do. */
  lemma MakeIdInjective(p1: string, n1: nat, p2: string, n2: nat)
    requires MakeId(p1, n1) == MakeId(p2, n2)
    ensures n1 == n2 && p1 == p2
  {
    IdCounterOfMakeId(p1, n1);
    IdCounterOfMakeId(p2, n2);
    assert MakeId(p1, n1)[..|p1|] == p1;
    assert MakeId(p2, n2)[..|p2|] == p2;
  }

  /** The prefixes the extractor passes to `generateId`. */
  datatype Category =
    | ClassCat | LineCat | RangeCat | PackageCat | ImportCat | TypeCat | NameRefCat | NameCat
    | FieldCat | MethodCat | ParamCat | BlockCat | StmtCat | ExprCat | LiteralCat

  function Prefix(c: Category): string {
    match c
    case ClassCat => "class"
    case LineCat => "line"
    case RangeCat => "range"
    case PackageCat => "package"
    case ImportCat => "import"
    case TypeCat => "type"
    case NameRefCat => "name_ref"
    case NameCat => "name"
    case FieldCat => "field"
    case MethodCat => "method"
    case ParamCat => "param"
    case BlockCat => "block"
    case StmtCat => "stmt"
    case ExprCat => "expr"
    case LiteralCat => "literal"
  }

  /** Reads a prefix back. */
  function CategoryOf(p: string): (c: Option<Category>)
    ensures c.Some? ==> Prefix(c.value) == p
  {
    if p == "class" then Some(ClassCat)
    else if p == "line" then Some(LineCat)
    else if p == "range" then Some(RangeCat)
    else if p == "package" then Some(PackageCat)
    else if p == "import" then Some(ImportCat)
    else if p == "type" then Some(TypeCat)
    else if p == "name_ref" then Some(NameRefCat)
    else if p == "name" then Some(NameCat)
    else if p == "field" then Some(FieldCat)
    else if p == "method" then Some(MethodCat)
    else if p == "param" then Some(ParamCat)
    else if p == "block" then Some(BlockCat)
    else if p == "stmt" then Some(StmtCat)
    else if p == "expr" then Some(ExprCat)
    else if p == "literal" then Some(LiteralCat)
    else None
  }

  /** Distinct categories have distinct prefixes. */
  lemma PrefixInjective(a: Category, b: Category)
    requires Prefix(a) == Prefix(b)
    ensures a == b
  {
    assert CategoryOf(Prefix(a)) == Some(a) by {
      match a
      case ClassCat =>
      case LineCat =>
      case RangeCat =>
      case PackageCat =>
      case ImportCat =>
      case TypeCat =>
      case NameRefCat =>
      case NameCat =>
      case FieldCat =>
      case MethodCat =>
      case ParamCat =>
      case BlockCat =>
      case StmtCat =>
      case ExprCat =>
      case LiteralCat =>
    }
  }

  /**
   * An identifier as the extractor writes it into a fact: a generated one,
   * or one of the fixed texts `"ExprNone"` (absent expression),
   * `"unknown_range"` (absent range) and `"unknown_line"` (unmapped line).
   */
  datatype Ident = Gen(cat: Category, n: nat) | ExprNone | UnknownRange | UnknownLine

  function Text(id: Ident): string {
    match id
    case Gen(c, n) => MakeId(Prefix(c), n)
    case ExprNone => "ExprNone"
    case UnknownRange => "unknown_range"
    case UnknownLine => "unknown_line"
  }

  /** No fixed text reads back as a counter value, while every generated one does. */
  lemma IdCounterOfText(id: Ident)
    ensures id.Gen? ==> IdCounter(Text(id)) == Some(id.n)
    ensures !id.Gen? ==> IdCounter(Text(id)) == None
  {
    match id
    case Gen(c, n) => IdCounterOfMakeId(Prefix(c), n);
    case ExprNone =>
      assert !IsDigit("ExprNone"[0]);
      SplitFree("ExprNone", '_');
    case UnknownRange =>
      assert "unknown_range" == "unknown" + ['_'] + "range";
      LastSegmentAfterSeparator("unknown", '_', "range");
      assert !IsDigit("range"[0]);
    case UnknownLine =>
      assert "unknown_line" == "unknown" + ['_'] + "line";
      LastSegmentAfterSeparator("unknown", '_', "line");
      assert !IsDigit("line"[0]);
  }

  /** Rendering is injective: equal texts mean equal identifiers. */
  lemma TextInjective(a: Ident, b: Ident)
    requires Text(a) == Text(b)
    ensures a == b
  {
    IdCounterOfText(a);
    IdCounterOfText(b);
    if a.Gen? && b.Gen? {
      MakeIdInjective(Prefix(a.cat), a.n, Prefix(b.cat), b.n);
      PrefixInjective(a.cat, b.cat);
    }
  }

  /** Every identifier text is non-empty, hence truthy where the source tests it with `||`. */
  lemma TextNonEmpty(id: Ident)
    ensures |Text(id)| > 0
  {
  }

  /** `startsWith("method_")` holds exactly for the identifiers of methods. */
  lemma StartsWithMethodPrefix(id: Ident)
    ensures StartsWith(Text(id), "method_") <==> id.Gen? && id.cat == MethodCat
  {
    if id.Gen? {
      var t := Text(id);
      assert t == Prefix(id.cat) + "_" + NatToString(id.n);
      assert t[0] == Prefix(id.cat)[0];
      if id.cat == MethodCat {
        assert t[..7] == "method_";
      } else {
        assert Prefix(id.cat)[0] != 'm' by {
          match id.cat
          case ClassCat =>
          case LineCat =>
          case RangeCat =>
          case PackageCat =>
          case ImportCat =>
          case TypeCat =>
          case NameRefCat =>
          case NameCat =>
          case FieldCat =>
          case MethodCat =>
          case ParamCat =>
          case BlockCat =>
          case StmtCat =>
          case ExprCat =>
          case LiteralCat =>
        }
      }
    } else {
      assert Text(id)[0] != 'm';
    }
  }

  /** An identifier whose counter value lies in `[lo, hi)`. */
  predicate IssuedIn(id: Ident, lo: nat, hi: nat) {
    id.Gen? && lo <= id.n < hi
  }

  /** Identifiers issued from disjoint counter intervals are distinct. */
  lemma IssuedInDisjoint(a: Ident, b: Ident, lo1: nat, hi1: nat, lo2: nat, hi2: nat)
    requires IssuedIn(a, lo1, hi1) && IssuedIn(b, lo2, hi2)
    requires hi1 <= lo2
    ensures a != b
  {
  }

  /** The result of one `generateId(prefix)` call and the counter after it. */
  datatype Allocation = Allocation(id: Ident, next: nat)

  /** `generateId`: the current counter behind the prefix; the counter moves on by exactly one. */
  function GenerateId(c: Category, counter: nat): (a: Allocation)
    ensures a.next == counter + 1
    ensures IssuedIn(a.id, counter, a.next)
  {
    Allocation(Gen(c, counter), counter + 1)
  }

  /** The text of a generated identifier is `${prefix}_${counter}` with the counter it was drawn at. */
  lemma GenerateIdText(c: Category, counter: nat)
    ensures Text(GenerateId(c, counter).id) == Prefix(c) + "_" + NatToString(counter)
    ensures IdCounter(Text(GenerateId(c, counter).id)) == Some(counter)
  {
    IdCounterOfMakeId(Prefix(c), counter);
  }

  /** Successive allocations (any prefixes) never return the same identifier text. */
  lemma SuccessiveIdsDistinct(c1: Category, c2: Category, counter: nat)
    ensures Text(GenerateId(c1, counter).id) != Text(GenerateId(c2, counter + 1).id)
  {
    var a := GenerateId(c1, counter);
    var b := GenerateId(c2, counter + 1);
    if Text(a.id) == Text(b.id) {
      TextInjective(a.id, b.id);
    }
  }
}

=== FILE: javaast.dfy ===
/**
 * The Java syntax tree as the extractor receives it from the external parser
 * (src/ast-to-facts.ts reads it as loosely typed objects). Every field the
 * extractor tests with `if (x)` is an `Option`; an empty string stands for an
 * absent or empty (hence falsy) string field such as `binding` or `token`.
 */
module JavaAst {
  import opened Common

  /** A `[start, end)` character-offset pair. */
  datatype Range = Range(start: int, end: int)

  /** An identifier occurrence: its text and its own (optional) range. */
  datatype Name = Name(identifier: string, range: Option<Range>)

  /** A type reference (field type, return type, parameter type, declared variable type). */
  datatype TypeRef = TypeRef(range: Option<Range>, name: Option<Name>)

  /** A package or import declaration. */
  datatype Decl = Decl(range: Option<Range>, name: Option<Name>)

  datatype CompilationUnit = CompilationUnit(
    package: Option<Decl>,
    imports: seq<Decl>,
    types: seq<TypeDecl>)

  datatype TypeDecl = TypeDecl(
    range: Option<Range>,
    name: Option<Name>,
    binding: string,
    fields: seq<FieldDecl>,
    methods: seq<MethodDecl>,
    nested: seq<TypeDecl>)

  datatype FieldDecl = FieldDecl(
    range: Option<Range>,
    name: Option<Name>,
    binding: string,
    fieldType: Option<TypeRef>,
    initializer: Option<Expr>)

  datatype MethodDecl = MethodDecl(
    range: Option<Range>,
    name: Option<Name>,
    binding: string,
    returnType: Option<TypeRef>,
    parameters: seq<Param>,
    body: Option<Block>)

  datatype Param = Param(
    range: Option<Range>,
    name: Option<Name>,
    binding: string,
    paramType: Option<TypeRef>)

  datatype Block = Block(range: Option<Range>, statements: seq<Stmt>)

  /** One declarator of a variable declaration statement: `name = initializer`. */
  datatype Fragment = Fragment(
    range: Option<Range>,
    name: Option<Name>,
    binding: string,
    initializer: Option<Expr>)

  /** The statement tags the extractor's `switch` handles. */
  const HandledStmtTags: set<string> := {
    "RETURN_STATEMENT", "THROW_STATEMENT", "EXPRESSION_STATEMENT",
    "VARIABLE_DECLARATION_STATEMENT", "IF_STATEMENT", "CONDITIONAL_EXPRESSION",
    "ASSIGNMENT"
  }

  /** Any other statement tag; the empty string stands for a missing tag. */
  type OtherStmtTag = s: string | s !in HandledStmtTags witness ""

  datatype Stmt =
    | ReturnStmt(range: Option<Range>, expression: Option<Expr>)
    | ThrowStmt(range: Option<Range>, expression: Option<Expr>)
    | ExpressionStmt(range: Option<Range>, expression: Option<Expr>)
    | VarDeclStmt(range: Option<Range>, fragments: seq<Fragment>, varType: Option<TypeRef>)
    | IfStmt(range: Option<Range>, condition: Option<Expr>, thenStmt: Option<Stmt>, elseStmt: Option<Stmt>)
    | ConditionalStmt(range: Option<Range>, condition: Option<Expr>, thenExpr: Option<Expr>, elseExpr: Option<Expr>)
    | AssignmentStmt(range: Option<Range>, lhs: Option<Expr>, rhs: Option<Expr>)
    | OtherStmt(tag: OtherStmtTag, range: Option<Range>, body: Option<Block>)

  /** The `nodeType` text the extractor records for a statement (`"STATEMENT"` when missing). */
  function StmtKind(s: Stmt): string {
    match s
    case ReturnStmt(_, _) => "RETURN_STATEMENT"
    case ThrowStmt(_, _) => "THROW_STATEMENT"
    case ExpressionStmt(_, _) => "EXPRESSION_STATEMENT"
    case VarDeclStmt(_, _, _) => "VARIABLE_DECLARATION_STATEMENT"
    case IfStmt(_, _, _, _) => "IF_STATEMENT"
    case ConditionalStmt(_, _, _, _) => "CONDITIONAL_EXPRESSION"
    case AssignmentStmt(_, _, _) => "ASSIGNMENT"
    case OtherStmt(tag, _, _) => if tag == "" then "STATEMENT" else tag
  }

  datatype LiteralKind = StringLit | NumberLit | BooleanLit | NullLit | CharacterLit

  function LiteralTag(k: LiteralKind): string {
    match k
    case StringLit => "STRING_LITERAL"
    case NumberLit => "NUMBER_LITERAL"
    case BooleanLit => "BOOLEAN_LITERAL"
    case NullLit => "NULL_LITERAL"
    case CharacterLit => "CHARACTER_LITERAL"
  }

  /** The expression tags the extractor's `switch` handles. */
  const HandledExprTags: set<string> := {
    "METHOD_INVOCATION", "SIMPLE_NAME", "QUALIFIED_NAME", "STRING_LITERAL",
    "NUMBER_LITERAL", "BOOLEAN_LITERAL", "NULL_LITERAL", "CHARACTER_LITERAL",
    "CONDITIONAL_EXPRESSION", "FIELD_ACCESS"
  }

  /** Any other expression tag; the empty string stands for a missing tag. */
  type OtherExprTag = s: string | s !in HandledExprTags witness ""

  datatype Expr =
    | Invocation(range: Option<Range>, name: Option<Name>, binding: string,
                 receiver: Option<Expr>, arguments: seq<Option<Expr>>)
    | NameExpr(qualified: bool, range: Option<Range>, identifier: string, binding: string)
    | Literal(kind: LiteralKind, range: Option<Range>, token: string, literalValue: string)
    | Conditional(range: Option<Range>, condition: Option<Expr>, thenExpr: Option<Expr>, elseExpr: Option<Expr>)
    | FieldAccess(range: Option<Range>, receiver: Option<Expr>, name: Option<Name>, binding: string)
    | OtherExpr(tag: OtherExprTag, range: Option<Range>)

  /** The `nodeType` text the extractor records for an expression (`"EXPRESSION"` when missing). */
  function ExprKind(e: Expr): string {
    match e
    case Invocation(_, _, _, _, _) => "METHOD_INVOCATION"
    case NameExpr(q, _, _, _) => if q then "QUALIFIED_NAME" else "SIMPLE_NAME"
    case Literal(k, _, _, _) => LiteralTag(k)
    case Conditional(_, _, _, _) => "CONDITIONAL_EXPRESSION"
    case FieldAccess(_, _, _, _) => "FIELD_ACCESS"
    case OtherExpr(tag, _) => if tag == "" then "EXPRESSION" else tag
  }
}

=== FILE: jsstrings.dfy ===
/**
 * The handful of JavaScript string operations the extension relies on, with
 * their ECMAScript meaning written out: `split` on a one-character separator,
 * `includes`, `startsWith`, `trim`, ASCII case folding, one anchored
 * `replace`, and the decimal rendering of a non-negative integer in a
 * template literal.
 */
module JsStrings {

  /** Number of occurrences of `c` in `s`. */
  function Count(s: string, c: char): (n: nat)
    ensures n <= |s|
    ensures n == 0 <==> c !in s
  {
    if |s| == 0 then 0
    else (if s[0] == c then 1 else 0) + Count(s[1..], c)
  }

  lemma {:induction false} CountAppend(a: string, b: string, c: char)
    ensures Count(a + b, c) == Count(a, c) + Count(b, c)
  {
    if |a| == 0 {
      assert a + b == b;
    } else {
      assert (a + b)[1..] == a[1..] + b;
      CountAppend(a[1..], b, c);
    }
  }

  /** Counting over a longer prefix never finds fewer occurrences. */
  lemma CountPrefixMonotone(s: string, c: char, i: nat, j: nat)
    requires i <= j <= |s|
    ensures Count(s[..i], c) <= Count(s[..j], c)
  {
    assert s[..j] == s[..i] + s[i..j];
    CountAppend(s[..i], s[i..j], c);
  }

  // ---------------------------------------------------------------------------
  // String.prototype.split with a one-character separator

  /** `s.split(c)`: the maximal `c`-free pieces between separators, in order. */
  function Split(s: string, c: char): (parts: seq<string>)
    ensures |parts| == 1 + Count(s, c)
    ensures forall k :: 0 <= k < |parts| ==> c !in parts[k]
  {
    if |s| == 0 then [""]
    else if s[0] == c then [""] + Split(s[1..], c)
    else
      var rest := Split(s[1..], c);
      [[s[0]] + rest[0]] + rest[1..]
  }

  /** Joining with the separator undoes `Split`. */
  function Join(parts: seq<string>, c: char): string
    requires |parts| >= 1
  {
    if |parts| == 1 then parts[0] else parts[0] + [c] + Join(parts[1..], c)
  }

  lemma {:induction false} JoinSplit(s: string, c: char)
    ensures Join(Split(s, c), c) == s
  {
    if |s| == 0 {
    } else if s[0] == c {
      var rest := Split(s[1..], c);
      JoinSplit(s[1..], c);
      assert Split(s, c) == [""] + rest;
      JoinEmptyHead(rest, c);
      assert s == [c] + s[1..];
    } else {
      var rest := Split(s[1..], c);
      JoinSplit(s[1..], c);
      assert Split(s, c) == [[s[0]] + rest[0]] + rest[1..];
      JoinConsHead(s[0], rest, c);
      assert s == [s[0]] + s[1..];
    }
  }

  /** An empty first piece contributes only its separator. */
  lemma JoinEmptyHead(parts: seq<string>, c: char)
    requires |parts| >= 1
    ensures Join([""] + parts, c) == [c] + Join(parts, c)
  {
    assert ([""] + parts)[1..] == parts;
  }

  /** A character put in front of the first piece comes first in the joined text. */
  lemma JoinConsHead(x: char, parts: seq<string>, c: char)
    requires |parts| >= 1
    ensures Join([[x] + parts[0]] + parts[1..], c) == [x] + Join(parts, c)
  {
    var q := [[x] + parts[0]] + parts[1..];
    if |parts| > 1 {
      assert q[1..] == parts[1..];
    }
  }

  /** `s.split(c)[0]`. */
  function FirstSegment(s: string, c: char): string {
    Split(s, c)[0]
  }

  /** `s.split(c).pop()`: never undefined, since `split` yields at least one piece. */
  function LastSegment(s: string, c: char): string {
    var parts := Split(s, c);
    parts[|parts| - 1]
  }

  /** The first segment is the prefix of `s` that ends just before the first `c`. */
  lemma {:induction false} FirstSegmentIsPrefix(s: string, c: char)
    ensures var f := FirstSegment(s, c);
      && c !in f
      && f <= s
      && (f == s || s[|f|] == c)
  {
    if |s| != 0 && s[0] != c {
      FirstSegmentIsPrefix(s[1..], c);
    }
  }

  /** After the first separator, the remaining pieces are the split of the rest. */
  lemma {:induction false} SplitAfterFirst(s: string, c: char)
    requires c in s
    ensures |FirstSegment(s, c)| < |s|
    ensures Split(s, c) == [FirstSegment(s, c)] + Split(s[|FirstSegment(s, c)| + 1..], c)
  {
    if s[0] == c {
      assert Split(s, c) == [""] + Split(s[1..], c);
    } else {
      InRest(s, c);
      SplitAfterFirst(s[1..], c);
      var f := FirstSegment(s[1..], c);
      SplitAfterFirstCons(s, c, f);
    }
  }

  /** The inductive step of `SplitAfterFirst`, for a first character other than the separator. */
  lemma SplitAfterFirstCons(s: string, c: char, f: string)
    requires 0 < |s| && s[0] != c && |f| + 1 < |s|
    requires Split(s[1..], c) == [f] + Split(s[1..][|f| + 1..], c)
    ensures FirstSegment(s, c) == [s[0]] + f
    ensures Split(s, c) == [[s[0]] + f] + Split(s[|f| + 2..], c)
  {
    var tail := Split(s[1..][|f| + 1..], c);
    var rest := Split(s[1..], c);
    assert Split(s, c) == [[s[0]] + rest[0]] + rest[1..];
    PrependToFirst(s[0], f, tail, rest);
    SuffixOfSuffix(s, |f|);
  }

  lemma InRest(s: string, c: char)
    requires c in s && s[0] != c
    ensures c in s[1..]
  {
    var k :| 0 <= k < |s| && s[k] == c;
    assert s[1..][k - 1] == c;
  }

  /** Putting a character in front of the first of `[f] + tail`. */
  lemma PrependToFirst(x: char, f: string, tail: seq<string>, parts: seq<string>)
    requires parts == [f] + tail
    ensures [[x] + parts[0]] + parts[1..] == [[x] + f] + tail
  {
    assert parts[1..] == tail;
  }

  lemma SuffixOfSuffix(s: string, n: nat)
    requires n + 2 <= |s|
    ensures s[1..][n + 1..] == s[n + 2..]
  {
  }

  /** The last segment is the suffix of `s` that starts just after the last `c`. */
  lemma {:induction false} LastSegmentIsSuffix(s: string, c: char)
    ensures var l := LastSegment(s, c);
      && c !in l
      && |l| <= |s|
      && s[|s| - |l|..] == l
      && (l == s || s[|s| - |l| - 1] == c)
  {
    if |s| == 0 {
    } else if s[0] == c {
      LastSegmentIsSuffix(s[1..], c);
      assert LastSegment(s, c) == LastSegment(s[1..], c);
    } else {
      LastSegmentIsSuffix(s[1..], c);
      var rest := Split(s[1..], c);
      if |rest| == 1 {
        assert LastSegment(s, c) == [s[0]] + rest[0];
        assert rest[0] == s[1..];
      } else {
        assert LastSegment(s, c) == LastSegment(s[1..], c);
      }
    }
  }

  /** Splitting `p + [c] + d` with a separator-free `d` leaves `d` as the last piece. */
  lemma {:induction false} LastSegmentAfterSeparator(p: string, c: char, d: string)
    requires c !in d
    ensures LastSegment(p + [c] + d, c) == d
  {
    if |p| == 0 {
      assert p + [c] + d == [c] + d;
      assert ([c] + d)[1..] == d;
      SplitFree(d, c);
    } else {
      assert (p + [c] + d)[1..] == p[1..] + [c] + d;
      LastSegmentAfterSeparator(p[1..], c, d);
      var rest := Split(p[1..] + [c] + d, c);
      assert |rest| >= 2 by {
        CountAppend(p[1..] + [c], d, c);
        CountAppend(p[1..], [c], c);
      }
    }
  }

  /** A separator-free string splits into itself. */
  lemma {:induction false} SplitFree(s: string, c: char)
    requires c !in s
    ensures Split(s, c) == [s]
  {
    if |s| != 0 {
      assert s[0] != c;
      assert c !in s[1..] by {
        forall k | 0 <= k < |s| - 1 ensures s[1..][k] != c {
          assert s[1..][k] == s[k + 1];
        }
      }
      SplitFree(s[1..], c);
      assert [s[0]] + s[1..] == s;
    }
  }

  // ---------------------------------------------------------------------------
  // includes / startsWith / endsWith

  /** `sub` occurs in `s` starting at index `i`. */
  predicate OccursAt(s: string, sub: string, i: int) {
    0 <= i <= |s| - |sub| && s[i..i + |sub|] == sub
  }

  /** `s.includes(sub)`. */
  predicate Contains(s: string, sub: string) {
    exists i | 0 <= i <= |s| - |sub| :: OccursAt(s, sub, i)
  }

  /** `s.startsWith(p)`. */
  predicate StartsWith(s: string, p: string) {
    |p| <= |s| && s[..|p|] == p
  }

  /** `s.endsWith(x)`. */
  predicate EndsWith(s: string, x: string) {
    |x| <= |s| && s[|s| - |x|..] == x
  }

  /** `s.replace(/<x>$/, "")` for a literal `x`: one trailing copy is removed. */
  function StripSuffix(s: string, x: string): (r: string)
    ensures EndsWith(s, x) ==> r + x == s
    ensures !EndsWith(s, x) ==> r == s
  {
    if EndsWith(s, x) then s[..|s| - |x|] else s
  }

  // ---------------------------------------------------------------------------
  // Case folding and trimming

  /** `toLowerCase` restricted to the ASCII letters; every other character is kept. */
  function LowerChar(ch: char): char {
    if 'A' <= ch <= 'Z' then (ch as int + 32) as char else ch
  }

  function ToLowerAscii(s: string): (r: string)
    ensures |r| == |s|
    ensures forall k :: 0 <= k < |s| ==> r[k] == LowerChar(s[k])
  {
    seq(|s|, k requires 0 <= k < |s| => LowerChar(s[k]))
  }

  /** `s.toLowerCase().includes(w)` for an all-lower-case ASCII word `w`. */
  predicate ContainsIgnoringCase(s: string, w: string) {
    Contains(ToLowerAscii(s), w)
  }

  /** The ECMAScript WhiteSpace and LineTerminator code points that `trim` removes. */
  predicate IsJsWhitespace(ch: char) {
    || '\U{9}' <= ch <= '\U{D}'
    || ch == ' ' || ch == '\U{A0}' || ch == '\U{1680}'
    || '\U{2000}' <= ch <= '\U{200A}'
    || ch == '\U{2028}' || ch == '\U{2029}' || ch == '\U{202F}' || ch == '\U{205F}'
    || ch == '\U{3000}' || ch == '\U{FEFF}'
  }

  function TrimStart(s: string): (r: string)
    ensures |r| <= |s| && r == s[|s| - |r|..]
    ensures |r| > 0 ==> !IsJsWhitespace(r[0])
    ensures forall k :: 0 <= k < |s| - |r| ==> IsJsWhitespace(s[k])
  {
    if |s| > 0 && IsJsWhitespace(s[0]) then TrimStart(s[1..]) else s
  }

  function TrimEnd(s: string): (r: string)
    ensures |r| <= |s| && r == s[..|r|]
    ensures |r| > 0 ==> !IsJsWhitespace(r[|r| - 1])
    ensures forall k :: |r| <= k < |s| ==> IsJsWhitespace(s[k])
  {
    if |s| > 0 && IsJsWhitespace(s[|s| - 1]) then TrimEnd(s[..|s| - 1]) else s
  }

  /** `r` occurs in `s` at `i` with only white space before and after it. */
  predicate TrimmedAt(s: string, r: string, i: int) {
    && OccursAt(s, r, i)
    && (forall k :: 0 <= k < i ==> IsJsWhitespace(s[k]))
    && (forall k :: i + |r| <= k < |s| ==> IsJsWhitespace(s[k]))
  }

  /** `s.trim()`: the longest infix of `s` that neither starts nor ends with white space. */
  function Trim(s: string): (r: string)
    ensures |r| > 0 ==> !IsJsWhitespace(r[0]) && !IsJsWhitespace(r[|r| - 1])
    ensures exists i :: TrimmedAt(s, r, i)
  {
    var t := TrimStart(s);
    var r := TrimEnd(t);
    TrimInfix(s, t, r);
    r
  }

  /** Trimming both ends leaves the infix that starts where the leading white space ends. */
  lemma TrimInfix(s: string, t: string, r: string)
    requires |t| <= |s| && t == s[|s| - |t|..]
    requires forall k :: 0 <= k < |s| - |t| ==> IsJsWhitespace(s[k])
    requires |r| <= |t| && r == t[..|r|]
    requires forall k :: |r| <= k < |t| ==> IsJsWhitespace(t[k])
    ensures TrimmedAt(s, r, |s| - |t|)
  {
    var i := |s| - |t|;
    SliceOfSlice(s, i, |r|);
    forall k | i + |r| <= k < |s| ensures IsJsWhitespace(s[k]) {
      assert s[k] == t[k - i];
    }
  }

  lemma SliceOfSlice(s: string, i: nat, n: nat)
    requires i + n <= |s|
    ensures s[i..][..n] == s[i..i + n]
  {
  }

  // ---------------------------------------------------------------------------
  // Decimal rendering of naturals, as `${n}` prints them

  predicate IsDigit(ch: char) {
    '0' <= ch <= '9'
  }

  function DigitChar(d: nat): (ch: char)
    requires d < 10
    ensures IsDigit(ch)
  {
    (48 + d) as char
  }

  function DigitValue(ch: char): (d: nat)
    requires IsDigit(ch)
    ensures d < 10
  {
    ch as int - 48
  }

  /** `${n}` for a non-negative integer: its decimal digits, no leading zero. */
  function NatToString(n: nat): (s: string)
    ensures |s| >= 1
    ensures forall k :: 0 <= k < |s| ==> IsDigit(s[k])
  {
    if n < 10 then [DigitChar(n)] else NatToString(n / 10) + [DigitChar(n % 10)]
  }

  predicate AllDigits(s: string) {
    forall k :: 0 <= k < |s| ==> IsDigit(s[k])
  }

  /** `parseInt(s, 10)` on a non-empty digit string. */
  function ParseNat(s: string): nat
    requires AllDigits(s)
  {
    if |s| == 0 then 0 else 10 * ParseNat(s[..|s| - 1]) + DigitValue(s[|s| - 1])
  }

  /** Parsing undoes rendering, so distinct naturals render differently. */
  lemma {:induction false} ParseNatToString(n: nat)
    ensures ParseNat(NatToString(n)) == n
  {
    if n >= 10 {
      var s := NatToString(n);
      assert s[..|s| - 1] == NatToString(n / 10);
      ParseNatToString(n / 10);
    }
  }

  lemma NatToStringInjective(m: nat, n: nat)
    requires NatToString(m) == NatToString(n)
    ensures m == n
  {
    ParseNatToString(m);
    ParseNatToString(n);
  }
}

=== FILE: test_analyzer.dfy ===
/**
 * The test side of the extension (src/logicflTestAnalyzer.ts): the Gradle
 * `--tests` filter derived from a VS Code test id, the classification of the
 * JUnit XML test cases into passed and failed classes, the name of the JSON
 * file the classification is written to, and the final answer "were there
 * failures" that `analyzeTestInfoFromTestItem` reads back from that file.
 */
module TestAnalyzer {
  import opened Common
  import opened JsStrings
  import opened PropagationGraph

  // ---------------------------------------------------------------------------
  // The Gradle test filter

  /** A test id with a `#` splits into at least two pieces. */
  lemma SecondPiece(testId: string)
    requires '#' in testId
    ensures |Split(testId, '#')| >= 2
  {
    SplitAfterFirst(testId, '#');
  }

  /** `testItem.id.split("#")[1]` with one trailing `()` removed. */
  function MethodPart(testId: string): string
    requires '#' in testId
  {
    SecondPiece(testId);
    StripSuffix(Split(testId, '#')[1], "()")
  }

  /**
   * `extractGradleTestTarget`: the class part of the id (after the last `@`,
   * before the first `#`), followed by `.` and the method part when the id
   * holds a `#` and the method part is not empty; otherwise the class part.
   */
  function GradleTestTarget(testId: string): (target: string)
    ensures StartsWith(target, TestClassName(testId))
    ensures target == TestClassName(testId) <==> '#' !in testId || MethodPart(testId) == ""
    ensures target != TestClassName(testId) ==> target[|TestClassName(testId)|..] == "." + MethodPart(testId)
  {
    var cls := TestClassName(testId);
    if '#' in testId && MethodPart(testId) != "" then
      assert (cls + "." + MethodPart(testId))[..|cls|] == cls;
      cls + "." + MethodPart(testId)
    else cls
  }

  /** A string without `c` is its own first segment. */
  lemma FirstSegmentFree(s: string, c: char)
    requires c !in s
    ensures FirstSegment(s, c) == s
  {
    SplitFree(s, c);
  }

  /** A character of the last segment is a character of the whole string. */
  lemma {:induction false} LastSegmentChars(s: string, c: char, x: char)
    requires x !in s
    ensures x !in LastSegment(s, c)
  {
    LastSegmentIsSuffix(s, c);
    var l := LastSegment(s, c);
    forall k | 0 <= k < |l| ensures l[k] != x {
      assert l[k] == s[|s| - |l| + k];
    }
  }

  /** The second piece of `p + [c] + d`, for a separator-free `p`, is the first segment of `d`. */
  lemma SplitSecondOfSeparated(p: string, c: char, d: string)
    requires c !in p
    ensures |Split(p + [c] + d, c)| >= 2
    ensures Split(p + [c] + d, c)[1] == FirstSegment(d, c)
  {
    var s := p + [c] + d;
    assert c in s by {
      assert s[|p|] == c;
    }
    FirstSegmentOfSeparated(p, c, d);
    SplitAfterFirst(s, c);
    assert s[|p| + 1..] == d;
  }

  /**
   * The id of a single test method, `<prefix>@<Class>#<method>()`, selects
   * `<Class>.<method>`.
   */
  lemma TargetOfMethodId(prefix: string, cls: string, m: string)
    requires '#' !in prefix && '#' !in cls && '#' !in m
    requires '@' !in cls && '@' !in m
    requires m != ""
    ensures GradleTestTarget(prefix + "@" + cls + "#" + m + "()") == cls + "." + m
  {
    var id := prefix + "@" + cls + "#" + m + "()";
    TestClassOfId(prefix, cls, m + "()");
    var head := prefix + "@" + cls;
    assert '#' !in head;
    assert id == head + ['#'] + (m + "()");
    SplitSecondOfSeparated(head, '#', m + "()");
    assert '#' !in m + "()";
    FirstSegmentFree(m + "()", '#');
    assert (m + "()")[..|m|] == m;
    assert id[|head|] == '#';
  }

  /** The id of a whole test class, `<prefix>@<Class>` without any `#`, selects `<Class>`. */
  lemma TargetOfClassId(prefix: string, cls: string)
    requires '#' !in prefix && '#' !in cls && '@' !in cls
    ensures GradleTestTarget(prefix + "@" + cls) == cls
  {
    var id := prefix + "@" + cls;
    assert id == prefix + ['@'] + cls;
    LastSegmentAfterSeparator(prefix, '@', cls);
    FirstSegmentFree(cls, '#');
    assert '#' !in id by {
      assert id == prefix + ['@'] + cls;
    }
  }

  /** An empty method part, as in `<prefix>@<Class>#()`, selects the class alone. */
  lemma TargetOfEmptyMethod(prefix: string, cls: string)
    requires '#' !in prefix && '#' !in cls && '@' !in cls
    ensures GradleTestTarget(prefix + "@" + cls + "#()") == cls
  {
    var id := prefix + "@" + cls + "#()";
    TestClassOfId(prefix, cls, "()");
    var head := prefix + "@" + cls;
    assert '#' !in head;
    assert id == head + ['#'] + "()";
    SplitSecondOfSeparated(head, '#', "()");
    FirstSegmentFree("()", '#');
    assert id[|head|] == '#';
  }

  /** The class part of `<prefix>@<Class>#<rest>`. */
  lemma TestClassOfId(prefix: string, cls: string, rest: string)
    requires '#' !in cls && '@' !in cls && '@' !in rest
    ensures TestClassName(prefix + "@" + cls + "#" + rest) == cls
  {
    var tail := cls + "#" + rest;
    assert '@' !in tail;
    assert prefix + "@" + cls + "#" + rest == prefix + ['@'] + tail;
    LastSegmentAfterSeparator(prefix, '@', tail);
    assert tail == cls + ['#'] + rest;
    FirstSegmentOfSeparated(cls, '#', rest);
  }

  // ---------------------------------------------------------------------------
  // JUnit test cases, as the XML parser hands them over

  /**
   * One `<testcase>` element. `name` and `classname` are its attributes
   * (`None` when missing). `failure` and `error` are `Some(m)` when the child
   * element is present and truthy, with `m` its `message` attribute (`""`
   * when it has none).
   */
  datatype TestCase = TestCase(name: Option<string>, classname: Option<string>,
                               failure: Option<string>, error: Option<string>)

  /** `testsuite.testcase`: one object for a single case, an array for several. */
  datatype TestCases = Single(only: TestCase) | Several(cases: seq<TestCase>) {
    /** `Array.isArray(testCases) ? testCases : [testCases]`. */
    function AsList(): seq<TestCase> {
      if Single? then [only] else cases
    }
  }

  /** The `<testsuite>` root: its test cases, if any, and its `system-out` when that is a string. */
  datatype Suite = Suite(testcases: Option<TestCases>, systemOut: Option<string>)

  /** One entry of the result directory: its file name and the parsed `testsuite`, if any. */
  datatype ResultFile = ResultFile(name: string, suite: Option<Suite>)

  /** A test case together with the `system-out` of the suite it belongs to. */
  datatype RunCase = RunCase(tc: TestCase, systemOut: Option<string>)

  /**
   * The test cases of one file: none unless it is an `.xml` file with a suite
   * holding test cases; a lone test case counts as a list of one, several
   * keep their order, and every case sees the suite's `system-out`.
   */
  function FileCases(f: ResultFile): (cs: seq<RunCase>)
    ensures !EndsWith(f.name, ".xml") ==> cs == []
    ensures f.suite.None? || f.suite.value.testcases.None? ==> cs == []
    ensures EndsWith(f.name, ".xml") && f.suite.Some? && f.suite.value.testcases.Some? ==>
              f.suite.value.testcases.value.Single? ==>
                cs == [RunCase(f.suite.value.testcases.value.only, f.suite.value.systemOut)]
    ensures EndsWith(f.name, ".xml") && f.suite.Some? && f.suite.value.testcases.Some? ==>
              f.suite.value.testcases.value.Several? ==>
                && |cs| == |f.suite.value.testcases.value.cases|
                && forall k :: 0 <= k < |cs| ==>
                     cs[k].tc == f.suite.value.testcases.value.cases[k] && cs[k].systemOut == f.suite.value.systemOut
  {
    if EndsWith(f.name, ".xml") && f.suite.Some? && f.suite.value.testcases.Some? then
      var l := f.suite.value.testcases.value.AsList();
      seq(|l|, k requires 0 <= k < |l| => RunCase(l[k], f.suite.value.systemOut))
    else []
  }

  /** The test cases of the whole directory, file by file, each file's cases in order. */
  function AllCases(files: seq<ResultFile>): seq<RunCase> {
    if |files| == 0 then [] else AllCases(files[..|files| - 1]) + FileCases(files[|files| - 1])
  }

  /** `testCase["@_name"].replace` and `className.split` need both attributes. */
  predicate WellFormed(c: RunCase) {
    c.tc.name.Some? && c.tc.classname.Some?
  }

  predicate AllWellFormed(cs: seq<RunCase>) {
    forall k :: 0 <= k < |cs| ==> WellFormed(cs[k])
  }

  // ---------------------------------------------------------------------------
  // Classification of one test case

  /** What becomes of a test case: ignored (empty name or class), passed, or failed with a message. */
  datatype Verdict = Skipped | Passed | Failed(message: string)

  /** `(failure && failure["@_message"]) || (error && error["@_message"]) || "Unknown Failure/Error"`. */
  function FailureMessage(failure: Option<string>, error: Option<string>): (m: string)
    ensures m != ""
    ensures failure.Some? && failure.value != "" ==> m == failure.value
    ensures (failure.None? || failure.value == "") && error.Some? && error.value != "" ==> m == error.value
    ensures (failure.None? || failure.value == "") && (error.None? || error.value == "") ==> m == "Unknown Failure/Error"
  {
    if failure.Some? && failure.value != "" then failure.value
    else if error.Some? && error.value != "" then error.value
    else "Unknown Failure/Error"
  }

  /** The test name with one trailing `()` removed. */
  function TestName(c: RunCase): string
    requires WellFormed(c)
  {
    StripSuffix(c.tc.name.value, "()")
  }

  /**
   * The decision of `parseJUnitResultsAndWriteTestInfo` for one test case: a
   * failure or error tag fails it with the tag's message; otherwise a
   * `system-out` that mentions `error` in any letter case fails it with the
   * trimmed output; otherwise it passes. Cases with an empty name or class
   * are not recorded at all.
   */
  function Classify(c: RunCase): (v: Verdict)
    requires WellFormed(c)
    ensures v.Skipped? <==> TestName(c) == "" || c.tc.classname.value == ""
    ensures !v.Skipped? && (c.tc.failure.Some? || c.tc.error.Some?) ==>
              v == Failed(FailureMessage(c.tc.failure, c.tc.error))
    ensures !v.Skipped? && c.tc.failure.None? && c.tc.error.None? ==>
              (v.Failed? <==> c.systemOut.Some? && ContainsIgnoringCase(c.systemOut.value, "error"))
    ensures v.Failed? && c.tc.failure.None? && c.tc.error.None? ==> v.message == Trim(c.systemOut.value)
  {
    if TestName(c) == "" || c.tc.classname.value == "" then Skipped
    else if c.tc.failure.Some? || c.tc.error.Some? then Failed(FailureMessage(c.tc.failure, c.tc.error))
    else if c.systemOut.Some? && ContainsIgnoringCase(c.systemOut.value, "error") then Failed(Trim(c.systemOut.value))
    else Passed
  }

  /**
   * The message of a failed case is never empty: the failure message, else
   * the error message, else the fixed fallback when a tag is present, or a
   * trimmed `system-out` that still holds `error` when none is.
   */
  lemma FailedMessageNonEmpty(c: RunCase)
    requires WellFormed(c) && Classify(c).Failed?
    ensures Classify(c).message != ""
    ensures c.tc.failure.Some? && c.tc.failure.value != "" ==> Classify(c).message == c.tc.failure.value
    ensures (c.tc.failure.None? || c.tc.failure.value == "") && c.tc.error.Some? && c.tc.error.value != "" ==>
              Classify(c).message == c.tc.error.value
    ensures (c.tc.failure.Some? || c.tc.error.Some?) ==>
              (c.tc.failure.None? || c.tc.failure.value == "") && (c.tc.error.None? || c.tc.error.value == "") ==>
              Classify(c).message == "Unknown Failure/Error"
    ensures c.tc.failure.None? && c.tc.error.None? ==> Classify(c).message == Trim(c.systemOut.value)
  {
    if c.tc.failure.None? && c.tc.error.None? {
      TrimKeepsWord(c.systemOut.value, "error");
    }
  }

  /** A text that mentions `error` in any letter case keeps a character after trimming. */
  lemma TrimKeepsWord(s: string, w: string)
    requires w == "error" && ContainsIgnoringCase(s, w)
    ensures Trim(s) != ""
  {
    var i :| 0 <= i <= |s| - |w| && OccursAt(ToLowerAscii(s), w, i);
    assert ToLowerAscii(s)[i] == 'e';
    assert !IsJsWhitespace(s[i]);
    var j :| TrimmedAt(s, Trim(s), j);
  }

  // ---------------------------------------------------------------------------
  // The classification of the whole directory

  /** One entry of `failed.tests` (the JSON key of `className` is `class`). */
  datatype FailedTest = FailedTest(className: string, name: string, message: string)

  /** The object written as JSON: `passed.classes`, `failed.classes`, `failed.tests`. */
  datatype TestResults = TestResults(passedClasses: seq<string>, failedClasses: seq<string>, failedTests: seq<FailedTest>)

  /** What one case adds to `passed.classes`: its class when it passed. */
  function PassedEntry(c: RunCase): seq<string>
    requires WellFormed(c)
  {
    if Classify(c) == Passed then [c.tc.classname.value] else []
  }

  /** What one case adds to `failed.tests`: its class, name and message when it failed. */
  function FailedEntry(c: RunCase): seq<FailedTest>
    requires WellFormed(c)
  {
    var v := Classify(c);
    if v.Failed? then [FailedTest(c.tc.classname.value, TestName(c), v.message)] else []
  }

  /** What one case adds to `failed.classes`: its class when it failed. */
  function FailedClassEntry(c: RunCase): seq<string>
    requires WellFormed(c)
  {
    if Classify(c).Failed? then [c.tc.classname.value] else []
  }

  /** The class of every passed case, in order. */
  function PassedClasses(cs: seq<RunCase>): seq<string>
    requires AllWellFormed(cs)
  {
    if |cs| == 0 then [] else PassedEntry(cs[0]) + PassedClasses(cs[1..])
  }

  /** The record of every failed case, in order. */
  function FailedTests(cs: seq<RunCase>): seq<FailedTest>
    requires AllWellFormed(cs)
  {
    if |cs| == 0 then [] else FailedEntry(cs[0]) + FailedTests(cs[1..])
  }

  /** The class of every failed case, in order. */
  function FailedClasses(cs: seq<RunCase>): seq<string>
    requires AllWellFormed(cs)
  {
    if |cs| == 0 then [] else FailedClassEntry(cs[0]) + FailedClasses(cs[1..])
  }

  /** `classNameTag`: the simple class name of the last test case seen, recorded or not. */
  function Tag(cs: seq<RunCase>): Option<string>
    requires AllWellFormed(cs)
  {
    if |cs| == 0 then None else Some(LastSegment(cs[|cs| - 1].tc.classname.value, '.'))
  }

  /**
   * The tag is absent only when no test case was seen; otherwise it is the
   * part of the last case's class name after its last `.`, the whole name
   * when it has none.
   */
  lemma TagIsSimpleClassName(cs: seq<RunCase>)
    requires AllWellFormed(cs)
    ensures Tag(cs).None? <==> |cs| == 0
    ensures Tag(cs).Some? ==>
              var cls := cs[|cs| - 1].tc.classname.value;
              var t := Tag(cs).value;
              && '.' !in t
              && |t| <= |cls|
              && cls[|cls| - |t|..] == t
              && (t == cls || cls[|cls| - |t| - 1] == '.')
  {
    if |cs| > 0 {
      LastSegmentIsSuffix(cs[|cs| - 1].tc.classname.value, '.');
    }
  }

  /** The TypeError raised by reading an attribute of `undefined`. */
  datatype JUnitError = MissingAttribute

  /** The lists written for the test cases `cs`. */
  function ResultsOf(cs: seq<RunCase>): TestResults
    requires AllWellFormed(cs)
  {
    TestResults(PassedClasses(cs), FailedClasses(cs), FailedTests(cs))
  }

  /**
   * The outcome of `parseJUnitResultsAndWriteTestInfo`: the TypeError when any
   * test case lacks its name or class; otherwise the passed classes, the
   * failed tests with their classes in step, and the class tag of the file name.
   */
  function JUnitResults(files: seq<ResultFile>): Result<(TestResults, Option<string>), JUnitError> {
    var cs := AllCases(files);
    if !AllWellFormed(cs) then Failure(MissingAttribute) else Success((ResultsOf(cs), Tag(cs)))
  }

  lemma {:induction false} PassedClassesSnoc(cs: seq<RunCase>, c: RunCase)
    requires AllWellFormed(cs) && WellFormed(c)
    ensures AllWellFormed(cs + [c])
    ensures PassedClasses(cs + [c]) == PassedClasses(cs) + PassedEntry(c)
  {
    if |cs| > 0 {
      assert (cs + [c])[1..] == cs[1..] + [c];
      PassedClassesSnoc(cs[1..], c);
    }
  }

  lemma {:induction false} FailedClassesSnoc(cs: seq<RunCase>, c: RunCase)
    requires AllWellFormed(cs) && WellFormed(c)
    ensures AllWellFormed(cs + [c])
    ensures FailedClasses(cs + [c]) == FailedClasses(cs) + FailedClassEntry(c)
  {
    if |cs| > 0 {
      assert (cs + [c])[1..] == cs[1..] + [c];
      FailedClassesSnoc(cs[1..], c);
    }
  }

  lemma {:induction false} FailedTestsSnoc(cs: seq<RunCase>, c: RunCase)
    requires AllWellFormed(cs) && WellFormed(c)
    ensures AllWellFormed(cs + [c])
    ensures FailedTests(cs + [c]) == FailedTests(cs) + FailedEntry(c)
  {
    if |cs| > 0 {
      assert (cs + [c])[1..] == cs[1..] + [c];
      FailedTestsSnoc(cs[1..], c);
    }
  }

  /** The lists and the tag written so far are those of the cases `cs`. */
  ghost predicate Tallied(cs: seq<RunCase>, res: TestResults, tag: Option<string>) {
    && AllWellFormed(cs)
    && res == ResultsOf(cs)
    && tag == Tag(cs)
  }

  /** Recording one more case, as the loop body does, keeps the lists those of the cases seen. */
  lemma TallyStep(cs: seq<RunCase>, k: nat, res: TestResults, tag: Option<string>, res': TestResults)
    requires k < |cs| && Tallied(cs[..k], res, tag) && WellFormed(cs[k])
    requires res'.failedClasses == res.failedClasses + FailedClassEntry(cs[k])
    requires res'.failedTests == res.failedTests + FailedEntry(cs[k])
    requires res'.passedClasses == res.passedClasses + PassedEntry(cs[k])
    ensures Tallied(cs[..k + 1], res', Some(LastSegment(cs[k].tc.classname.value, '.')))
  {
    var c := cs[k];
    assert cs[..k + 1] == cs[..k] + [c];
    PassedClassesSnoc(cs[..k], c);
    FailedTestsSnoc(cs[..k], c);
    FailedClassesSnoc(cs[..k], c);
  }

  /**
   * `parseJUnitResultsAndWriteTestInfo` over the test cases of the result
   * directory: each case's class name updates the tag, then the case is
   * recorded as failed (class and test entry together), as passed, or not at
   * all. A case without a name or class aborts the whole parse.
   */
  method ParseJUnitResults(files: seq<ResultFile>) returns (r: Result<(TestResults, Option<string>), JUnitError>)
    ensures r.Failure? <==> exists k :: 0 <= k < |AllCases(files)| && !WellFormed(AllCases(files)[k])
    ensures r.Success? ==> r == JUnitResults(files)
    ensures r.Success? ==> |r.value.0.failedClasses| == |r.value.0.failedTests|
  {
    var cs := AllCases(files);
    var res := TestResults([], [], []);
    var tag: Option<string> := None;
    var k := 0;
    while k < |cs|
      invariant 0 <= k <= |cs|
      invariant Tallied(cs[..k], res, tag)
    {
      var c := cs[k];
      if !WellFormed(c) {
        assert !WellFormed(AllCases(files)[k]);
        return Failure(MissingAttribute);
      }
      var cls := c.tc.classname.value;
      var v := Classify(c);
      var next := res;
      if v.Failed? {
        next := TestResults(res.passedClasses, res.failedClasses + [cls],
                            res.failedTests + [FailedTest(cls, TestName(c), v.message)]);
      } else if v == Passed {
        next := res.(passedClasses := res.passedClasses + [cls]);
      }
      TallyStep(cs, k, res, tag, next);
      res := next;
      tag := Some(LastSegment(cls, '.'));
      k := k + 1;
    }
    assert cs[..k] == cs;
    FailedListsInStep(cs);
    r := Success((res, tag));
  }

  // ---------------------------------------------------------------------------
  // Properties of the classification

  /** What one case adds to the recorded classes: its class unless it was skipped. */
  function RecordedEntry(c: RunCase): seq<string>
    requires WellFormed(c)
  {
    if Classify(c) != Skipped then [c.tc.classname.value] else []
  }

  /** The classes of the recorded (not skipped) cases, in order. */
  function RecordedClasses(cs: seq<RunCase>): seq<string>
    requires AllWellFormed(cs)
  {
    if |cs| == 0 then [] else RecordedEntry(cs[0]) + RecordedClasses(cs[1..])
  }

  /** A recorded case contributes its class to exactly one of the two class lists. */
  lemma EntryPartition(c: RunCase)
    requires WellFormed(c)
    ensures multiset(PassedEntry(c)) + multiset(FailedClassEntry(c)) == multiset(RecordedEntry(c))
  {
  }

  /**
   * Every recorded case lands in exactly one of `passed.classes` and
   * `failed.classes`: together they are the recorded classes, counted with
   * multiplicity.
   */
  lemma {:induction false} ClassesPartition(cs: seq<RunCase>)
    requires AllWellFormed(cs)
    ensures multiset(PassedClasses(cs)) + multiset(FailedClasses(cs)) == multiset(RecordedClasses(cs))
  {
    if |cs| > 0 {
      ClassesPartition(cs[1..]);
      EntryPartition(cs[0]);
    }
  }

  /** A case contributes to `failed.classes` exactly what it contributes to `failed.tests`, its class. */
  lemma EntryInStep(c: RunCase)
    requires WellFormed(c)
    ensures |FailedClassEntry(c)| == |FailedEntry(c)|
    ensures forall k :: 0 <= k < |FailedEntry(c)| ==> FailedClassEntry(c)[k] == FailedEntry(c)[k].className
  {
  }

  /** `failed.classes` and `failed.tests` grow together: the k-th class is the class of the k-th failed test. */
  lemma {:induction false} FailedListsInStep(cs: seq<RunCase>)
    requires AllWellFormed(cs)
    ensures |FailedClasses(cs)| == |FailedTests(cs)|
    ensures forall k :: 0 <= k < |FailedTests(cs)| ==> FailedClasses(cs)[k] == FailedTests(cs)[k].className
  {
    if |cs| > 0 {
      FailedListsInStep(cs[1..]);
      EntryInStep(cs[0]);
      var e := FailedEntry(cs[0]);
      forall k | 0 <= k < |FailedTests(cs)| ensures FailedClasses(cs)[k] == FailedTests(cs)[k].className {
        if k >= |e| {
          assert FailedClasses(cs)[k] == FailedClasses(cs[1..])[k - |e|];
          assert FailedTests(cs)[k] == FailedTests(cs[1..])[k - |e|];
        }
      }
    }
  }

  /** `failed.tests` is empty exactly when no test case is classified as failed. */
  lemma {:induction false} NoFailedTestsIff(cs: seq<RunCase>)
    requires AllWellFormed(cs)
    ensures FailedTests(cs) == [] <==> forall k :: 0 <= k < |cs| ==> !Classify(cs[k]).Failed?
  {
    if |cs| > 0 {
      NoFailedTestsIff(cs[1..]);
      assert FailedEntry(cs[0]) == [] <==> !Classify(cs[0]).Failed?;
      if FailedTests(cs) == [] {
        forall k | 0 < k < |cs| ensures !Classify(cs[k]).Failed? {
          assert cs[k] == cs[1..][k - 1];
        }
      } else if !Classify(cs[0]).Failed? {
        var k :| 0 <= k < |cs| - 1 && Classify(cs[1..][k]).Failed?;
        assert cs[k + 1] == cs[1..][k];
      }
    }
  }

  // ---------------------------------------------------------------------------
  // analyzeTestInfoFromTestItem

  /** `tests.${classNameTag}.json`; an undefined tag prints as `undefined`. */
  function ResultFileName(tag: Option<string>): string {
    "tests." + (if tag.Some? then tag.value else "undefined") + ".json"
  }

  /** The simple class name of a test id, which names the file read back. */
  function TestSimpleName(testId: string): string {
    LastSegment(TestClassName(testId), '.')
  }

  /**
   * `analyzeTestInfoFromTestItem`: false when Gradle exits with a non-zero
   * code, when the parse raises, or when `tests.<simple class name>.json` is
   * absent from the output directory after the results were written there;
   * otherwise whether either failed list in that file is non-empty.
   * `outputDir` is the directory's contents before the call.
   */
  function AnalyzeTestItem(testId: string, gradleSucceeded: bool, files: seq<ResultFile>,
                           outputDir: map<string, TestResults>): (found: bool)
    ensures found ==> gradleSucceeded && JUnitResults(files).Success?
  {
    if !gradleSucceeded then false
    else
      var parsed := JUnitResults(files);
      if parsed.Failure? then false
      else
        var dir := outputDir[ResultFileName(parsed.value.1) := parsed.value.0];
        var readBack := ResultFileName(Some(TestSimpleName(testId)));
        if readBack !in dir then false
        else !(|dir[readBack].failedClasses| == 0 && |dir[readBack].failedTests| == 0)
  }

  /**
   * When the last test case comes from the class the test id names, the
   * analysis reports failures exactly when some test case of the directory
   * failed.
   */
  lemma AnalyzeReportsFailures(testId: string, files: seq<ResultFile>, outputDir: map<string, TestResults>)
    requires AllWellFormed(AllCases(files))
    requires Tag(AllCases(files)) == Some(TestSimpleName(testId))
    ensures AnalyzeTestItem(testId, true, files, outputDir) <==>
              exists k :: 0 <= k < |AllCases(files)| && Classify(AllCases(files)[k]).Failed?
  {
    var cs := AllCases(files);
    NoFailedTestsIff(cs);
    FailedListsInStep(cs);
    var name := ResultFileName(Tag(cs));
    var dir := outputDir[name := ResultsOf(cs)];
    assert JUnitResults(files) == Success((ResultsOf(cs), Tag(cs)));
    assert name == ResultFileName(Some(TestSimpleName(testId)));
    assert AnalyzeTestItem(testId, true, files, outputDir) == (FailedTests(cs) != []);
  }

  /**
   * A tag other than the test id's class name writes the results under
   * another name, so without an older file of the expected name the analysis
   * reports no failures whatever the test cases say.
   */
  lemma AnalyzeMissesOtherTag(testId: string, files: seq<ResultFile>, outputDir: map<string, TestResults>)
    requires AllWellFormed(AllCases(files))
    requires Tag(AllCases(files)) != Some(TestSimpleName(testId))
    requires ResultFileName(Some(TestSimpleName(testId))) !in outputDir
    ensures !AnalyzeTestItem(testId, true, files, outputDir)
  {
    var t := Tag(AllCases(files));
    var expected := TestSimpleName(testId);
    if ResultFileName(t) == ResultFileName(Some(expected)) {
      if t.None? {
        assert AllCases(files) == [];
      } else {
        ResultFileNameInjective(t, Some(expected));
      }
    }
  }

  /** Distinct defined tags give distinct file names. */
  lemma ResultFileNameInjective(a: Option<string>, b: Option<string>)
    requires a.Some? && b.Some? && ResultFileName(a) == ResultFileName(b)
    ensures a == b
  {
    assert a.value == ResultFileName(a)[6..|ResultFileName(a)| - 5];
    assert b.value == ResultFileName(b)[6..|ResultFileName(b)| - 5];
  }
}

=== FILE: trace.dfy ===
/**
 * The trace loop of `buildPropagationGraph` (src/buildPropagationGraph.ts)
 * and the function itself: the loop runs over the queue and the visited set
 * and produces exactly the nodes and edges of the chain from the root cause.
 */
module GraphBuilder {
  import opened Common
  import opened JsStrings
  import opened PropagationGraph

  /** The variables of the trace loop: the queue, the visited keys, the nodes and the edges so far. */
  datatype TraceState = TraceState(queue: seq<Target>, visited: set<string>, nodes: seq<GraphNode>, edges: seq<Edge>)

  /**
   * What the trace loop keeps between iterations, once the first `n` targets
   * of the chain `c` from the start are expanded: the queue holds the next
   * target of the chain, or nothing once the chain is exhausted; the visited
   * keys are those of the expanded targets; the nodes are those of the
   * expanded and queued targets (none before the first iteration); the edges
   * join consecutive targets among them.
   */
  ghost predicate Reached(c: seq<Target>, infos: map<string, CodeInfo>, start: Target, s: TraceState, n: nat) {
    && n <= |c|
    && s.queue == (if n < |c| then [c[n]] else [])
    && s.visited == KeySet(c[..n])
    && s.nodes == (if n == 0 then [] else NodesOf(infos, start, c[..n + |s.queue|]))
    && s.edges == ChainEdges(c[..n + |s.queue|])
  }

  /**
   * One iteration of the trace loop: dequeue a target and add its node; unless
   * its key was visited, mark it, and if it has a predecessor add that node
   * and the edge from it, and queue it unless its key was visited.
   */
  function TraceStep(groups: map<string, seq<Source>>, infos: map<string, CodeInfo>, start: Target, s: TraceState)
    : TraceState
    requires |s.queue| > 0
  {
    var cur := s.queue[0];
    var added := AddNode(s.nodes, infos, start, cur);
    var curKey := added.1;
    if curKey in s.visited then TraceState(s.queue[1..], s.visited, added.0, s.edges)
    else
      var visited := s.visited + {curKey};
      match Predecessor(groups, cur)
      case None => TraceState(s.queue[1..], visited, added.0, s.edges)
      case Some(p) =>
        var pred := Target(p.src, p.line);
        var addedPred := AddNode(added.0, infos, start, pred);
        var predKey := addedPred.1;
        TraceState(s.queue[1..] + (if predKey in visited then [] else [pred]), visited, addedPred.0,
                   s.edges + [Edge(predKey, curKey)])
  }

  /** How far the trace can still go: the line of the queued target. */
  function Remaining(s: TraceState): nat {
    if |s.queue| == 0 then 0 else s.queue[0].line + 1
  }

  /** The `m`-th target of a descending chain is new to its prefix, and joins the prefix's keys. */
  lemma {:induction false} KeysExtend(c: seq<Target>, m: nat)
    requires Descending(c) && m < |c|
    ensures Key(c[m]) !in KeySet(c[..m])
    ensures KeySet(c[..m]) + {Key(c[m])} == KeySet(c[..m + 1])
  {
    assert c[..m + 1] == c[..m] + [c[m]];
    forall u | u in c[..m] ensures Key(u) != Key(c[m]) {
      if Key(u) == Key(c[m]) {
        KeyInjective(u, c[m]);
      }
    }
    KeySetSnoc(c[..m], c[m]);
  }

  /** Adding the `m`-th target of a descending chain to the nodes of its prefix appends its node. */
  lemma {:induction false} NodesExtend(infos: map<string, CodeInfo>, start: Target, c: seq<Target>, m: nat)
    requires Descending(c) && m < |c|
    ensures AddNode(NodesOf(infos, start, c[..m]), infos, start, c[m]).0 == NodesOf(infos, start, c[..m + 1])
  {
    var ts := c[..m + 1];
    assert ts[..m] == c[..m];
    assert forall j :: 0 <= j < |c[..m]| ==> c[m].line < c[..m][j].line;
    FreshKey(infos, start, c[..m], c[m]);
  }

  /** Adding an already added target leaves the nodes alone. */
  lemma {:induction false} NodesRevisit(infos: map<string, CodeInfo>, start: Target, c: seq<Target>, m: nat)
    requires m < |c|
    ensures AddNode(NodesOf(infos, start, c[..m + 1]), infos, start, c[m]).0 == NodesOf(infos, start, c[..m + 1])
  {
    KeyOfLast(infos, start, c[..m + 1]);
  }

  /** The edge into the `m`-th target extends the edges of its prefix. */
  lemma {:induction false} EdgesExtend(c: seq<Target>, m: nat)
    requires 1 <= m < |c|
    ensures ChainEdges(c[..m]) + [Edge(Key(c[m]), Key(c[m - 1]))] == ChainEdges(c[..m + 1])
  {
    var ts := c[..m + 1];
    assert ts[..m] == c[..m];
  }

  /**
   * What expanding the `m`-th target of the chain relies on: its key is new
   * to the prefix before it, and adding it extends that prefix's keys and
   * nodes by exactly its own.
   */
  ghost predicate Extends(infos: map<string, CodeInfo>, start: Target, c: seq<Target>, m: nat)
    requires m < |c|
  {
    && Key(c[m]) !in KeySet(c[..m])
    && KeySet(c[..m]) + {Key(c[m])} == KeySet(c[..m + 1])
    && AddNode(NodesOf(infos, start, c[..m]), infos, start, c[m]).0 == NodesOf(infos, start, c[..m + 1])
  }

  /** Every position of the chain extends its prefix, since the chain descends. */
  lemma {:induction false} ChainExtends(groups: map<string, seq<Source>>, infos: map<string, CodeInfo>, start: Target,
                                        m: nat)
    requires m < |Chain(groups, start)|
    ensures Extends(infos, start, Chain(groups, start), m)
  {
    var c := Chain(groups, start);
    ChainDecreasing(groups, start);
    KeysExtend(c, m);
    NodesExtend(infos, start, c, m);
  }

  /** The nodes after the dequeued target is added: those of the prefix through it. */
  lemma {:induction false} VisitCurrent(c: seq<Target>, infos: map<string, CodeInfo>, start: Target, s: TraceState, n: nat)
    requires Reached(c, infos, start, s, n) && n < |c|
    requires Extends(infos, start, c, n)
    ensures AddNode(s.nodes, infos, start, c[n]).0 == NodesOf(infos, start, c[..n + 1])
  {
    if n == 0 {
      assert c[..0] == [];
    } else {
      NodesRevisit(infos, start, c, n);
    }
  }

  /** An iteration on a fresh target without predecessor: it is marked visited and the queue empties. */
  lemma {:induction false} StepAtEndState(groups: map<string, seq<Source>>, infos: map<string, CodeInfo>, start: Target,
                                          s: TraceState, cur: Target, nodes1: seq<GraphNode>)
    requires s.queue == [cur] && Key(cur) !in s.visited
    requires Predecessor(groups, cur).None?
    requires AddNode(s.nodes, infos, start, cur).0 == nodes1
    ensures TraceStep(groups, infos, start, s) == TraceState([], s.visited + {Key(cur)}, nodes1, s.edges)
  {
  }

  /** An iteration on a fresh target whose predecessor is fresh too: both are added, and the predecessor queued. */
  lemma {:induction false} StepBackState(groups: map<string, seq<Source>>, infos: map<string, CodeInfo>, start: Target,
                                         s: TraceState, cur: Target, pred: Target, nodes1: seq<GraphNode>,
                                         nodes2: seq<GraphNode>)
    requires s.queue == [cur] && Key(cur) !in s.visited
    requires Predecessor(groups, cur) == Some(Source(pred.id, pred.line))
    requires Key(pred) !in s.visited + {Key(cur)}
    requires AddNode(s.nodes, infos, start, cur).0 == nodes1
    requires AddNode(nodes1, infos, start, pred).0 == nodes2
    ensures TraceStep(groups, infos, start, s)
            == TraceState([pred], s.visited + {Key(cur)}, nodes2, s.edges + [Edge(Key(pred), Key(cur))])
  {
    assert s.queue[1..] == [];
  }

  /** An iteration on the last target of the chain ends the trace. */
  lemma {:induction false} TraceStepAtEnd(groups: map<string, seq<Source>>, c: seq<Target>, infos: map<string, CodeInfo>,
                                          start: Target, s: TraceState, n: nat, s': TraceState)
    requires Reached(c, infos, start, s, n) && n + 1 == |c|
    requires Extends(infos, start, c, n)
    requires Predecessor(groups, c[n]).None?
    requires s' == TraceStep(groups, infos, start, s)
    ensures Reached(c, infos, start, s', n + 1)
  {
    VisitCurrent(c, infos, start, s, n);
    StepAtEndState(groups, infos, start, s, c[n], NodesOf(infos, start, c[..n + 1]));
    ReachedEnd(c, infos, start, s', n + 1);
  }

  /** The state after the last target: nothing queued, the whole chain visited and added. */
  lemma ReachedEnd(c: seq<Target>, infos: map<string, CodeInfo>, start: Target, s: TraceState, m: nat)
    requires 0 < m == |c|
    requires s == TraceState([], KeySet(c[..m]), NodesOf(infos, start, c[..m]), ChainEdges(c[..m]))
    ensures Reached(c, infos, start, s, m)
  {
  }

  /** An iteration on a target with a predecessor queues the predecessor, which is the chain's next target. */
  lemma {:induction false} TraceStepBack(groups: map<string, seq<Source>>, c: seq<Target>, infos: map<string, CodeInfo>,
                                         start: Target, s: TraceState, n: nat, s': TraceState)
    requires Reached(c, infos, start, s, n) && n + 1 < |c|
    requires Extends(infos, start, c, n) && Extends(infos, start, c, n + 1)
    requires StepsTo(groups, c, n)
    requires Predecessor(groups, c[n]).Some?
    requires s' == TraceStep(groups, infos, start, s)
    ensures Reached(c, infos, start, s', n + 1)
  {
    VisitCurrent(c, infos, start, s, n);
    EdgesExtend(c, n + 1);
    StepBackState(groups, infos, start, s, c[n], c[n + 1], NodesOf(infos, start, c[..n + 1]),
                  NodesOf(infos, start, c[..n + 2]));
  }

  /** Every iteration expands the next target of the chain from the start. */
  lemma {:induction false} TraceStepKeeps(groups: map<string, seq<Source>>, infos: map<string, CodeInfo>, start: Target,
                                          s: TraceState, n: nat)
    requires Reached(Chain(groups, start), infos, start, s, n) && |s.queue| > 0
    ensures n < |Chain(groups, start)|
    ensures Reached(Chain(groups, start), infos, start, TraceStep(groups, infos, start, s), n + 1)
  {
    var c := Chain(groups, start);
    assert n < |c|;
    ChainStepFacts(groups, infos, start, n);
    TraceStepOn(groups, c, infos, start, s, n);
  }

  /** What `TraceStepOn` needs of the chain at position `n`. */
  lemma {:induction false} ChainStepFacts(groups: map<string, seq<Source>>, infos: map<string, CodeInfo>, start: Target,
                                          n: nat)
    requires n < |Chain(groups, start)|
    ensures StepsTo(groups, Chain(groups, start), n) && Extends(infos, start, Chain(groups, start), n)
    ensures n + 1 < |Chain(groups, start)| ==> Extends(infos, start, Chain(groups, start), n + 1)
  {
    ChainSteps(groups, start, n);
    ChainExtends(groups, infos, start, n);
    if n + 1 < |Chain(groups, start)| {
      ChainExtends(groups, infos, start, n + 1);
    }
  }

  /** `TraceStepKeeps` for any sequence `c` that steps like the chain at `n` and extends its prefixes there. */
  lemma {:induction false} TraceStepOn(groups: map<string, seq<Source>>, c: seq<Target>, infos: map<string, CodeInfo>,
                                       start: Target, s: TraceState, n: nat)
    requires Reached(c, infos, start, s, n) && n < |c|
    requires StepsTo(groups, c, n) && Extends(infos, start, c, n)
    requires n + 1 < |c| ==> Extends(infos, start, c, n + 1)
    ensures Reached(c, infos, start, TraceStep(groups, infos, start, s), n + 1)
  {
    if Predecessor(groups, c[n]).Some? {
      TraceStepBack(groups, c, infos, start, s, n, TraceStep(groups, infos, start, s));
    } else {
      TraceStepAtEnd(groups, c, infos, start, s, n, TraceStep(groups, infos, start, s));
    }
  }

  /** Before the first iteration only the start is queued, and nothing is visited or added. */
  lemma {:induction false} TraceStart(groups: map<string, seq<Source>>, infos: map<string, CodeInfo>, start: Target)
    ensures Reached(Chain(groups, start), infos, start, TraceState([start], {}, [], []), 0)
  {
    var c := Chain(groups, start);
    assert c[..0] == [] && c[..1] == [start];
  }

  /** Once the queue is empty the whole chain has been added. */
  lemma {:induction false} TraceDone(groups: map<string, seq<Source>>, infos: map<string, CodeInfo>, start: Target,
                                     s: TraceState, n: nat)
    requires Reached(Chain(groups, start), infos, start, s, n) && |s.queue| == 0
    ensures s.nodes == NodesOf(infos, start, Chain(groups, start))
    ensures s.edges == ChainEdges(Chain(groups, start))
  {
    var c := Chain(groups, start);
    assert c[..n] == c;
  }

  /**
   * The `while (traceQueue.length > 0)` loop with its visited set: it
   * expands exactly the chain from the start, adds each chain target as a
   * node once, in order, and one edge per expanded target that has a
   * predecessor. The queue never holds more than one target.
   */
  method TraceBack(groups: map<string, seq<Source>>, infos: map<string, CodeInfo>, start: Target)
    returns (nodes: seq<GraphNode>, edges: seq<Edge>)
    ensures nodes == NodesOf(infos, start, Chain(groups, start))
    ensures edges == ChainEdges(Chain(groups, start))
  {
    var s := TraceState([start], {}, [], []);
    ghost var n: nat := 0;
    TraceStart(groups, infos, start);
    while |s.queue| > 0
      invariant Reached(Chain(groups, start), infos, start, s, n)
      decreases |Chain(groups, start)| - n
    {
      TraceStepKeeps(groups, infos, start, s, n);
      s := TraceStep(groups, infos, start, s);
      n := n + 1;
    }
    TraceDone(groups, infos, start, s, n);
    nodes := s.nodes;
    edges := s.edges;
  }

  // ---------------------------------------------------------------------------
  // The result

  datatype Summary = Summary(fileName: string, npeLine: nat, npeVariable: string)

  datatype Graph = Graph(nodes: seq<GraphNode>, edges: seq<Edge>, summary: Summary)

  /** What the builder returns when it cannot start: no nodes, no edges, `("N/A", 0, "N/A")`. */
  const EmptyGraph := Graph([], [], Summary("N/A", 0, "N/A"))

  /** `readFileSync` of a missing `root_cause.txt`: the source does not check it exists. */
  datatype GraphError = RootCauseUnreadable

  /**
   * The analysis results for one test class. A missing `logic-fl.pl` or
   * `code.facts.pl` is `None`; `rootCause` is `None` when `root_cause.txt`
   * is missing and `Some(None)` when it holds no NPE line.
   */
  datatype AnalysisFiles = AnalysisFiles(
    assigns: Option<seq<AssignRec>>,
    code: Option<seq<CodeEntry>>,
    rootCause: Option<Option<Target>>)

  /**
   * `mapIdToName(npeVarId, codeFactsContent) || npeVarId`: `null` for a
   * literal, the raw id when no entry of the id has text, and otherwise the
   * first non-empty `name` text of the id, else its first `expr` text, else
   * its first `name_ref` text.
   */
  function NpeVariable(id: string, entries: seq<CodeEntry>): (v: string)
    ensures Contains(id, "literal") ==> v == "null"
    ensures !Contains(id, "literal") ==>
              (forall k :: 0 <= k < |entries| && entries[k].id == id ==> entries[k].text == "") ==> v == id
    ensures !Contains(id, "literal") && v != id ==>
              v != "" && exists k :: 0 <= k < |entries| && entries[k].id == id && entries[k].text == v
    ensures !Contains(id, "literal") && HasText(entries, id, NameKind) ==>
              v == FirstText(entries, id, NameKind).value
    ensures !Contains(id, "literal") && !HasText(entries, id, NameKind) && HasText(entries, id, ExprKind) ==>
              v == FirstText(entries, id, ExprKind).value
    ensures !Contains(id, "literal") && !HasText(entries, id, NameKind) && !HasText(entries, id, ExprKind) ==>
              HasText(entries, id, NameRefKind) ==> v == FirstText(entries, id, NameRefKind).value
  {
    var m := MapIdToName(id, entries);
    if m.Some? then m.value else id
  }

  /**
   * `buildPropagationGraph`: the empty result when a result file is missing
   * or the root cause names no NPE line; a crash when `root_cause.txt` is
   * missing; otherwise the chain traced back from the root cause, summarised
   * by the class tag, the NPE line and the variable's name.
   */
  method BuildPropagationGraph(testId: string, files: AnalysisFiles) returns (r: Result<Graph, GraphError>)
    ensures files.assigns.None? || files.code.None? ==> r == Success(EmptyGraph)
    ensures files.assigns.Some? && files.code.Some? && files.rootCause.None? ==> r.Failure?
    ensures files.assigns.Some? && files.code.Some? && files.rootCause == Some(None) ==> r == Success(EmptyGraph)
    ensures files.assigns.Some? && files.code.Some? && files.rootCause.Some? && files.rootCause.value.Some? ==>
              var start := files.rootCause.value.value;
              var c := Chain(GroupByDst(files.assigns.value), start);
              && r.Success?
              && r.value.nodes == NodesOf(InfoMap(files.code.value), start, c)
              && r.value.edges == ChainEdges(c)
              && r.value.summary == Summary(ClassTag(testId) + ".java", start.line, NpeVariable(start.id, files.code.value))
  {
    var tag := ClassTag(testId);
    if files.assigns.None? || files.code.None? {
      return Success(EmptyGraph);
    }
    var groups := GroupByDst(files.assigns.value);
    var infos := InfoMap(files.code.value);
    if files.rootCause.None? {
      return Failure(RootCauseUnreadable);
    }
    if files.rootCause.value.None? {
      return Success(EmptyGraph);
    }
    var start := files.rootCause.value.value;
    var nodes, edges := TraceBack(groups, infos, start);
    var summary := Summary(tag + ".java", start.line, NpeVariable(start.id, files.code.value));
    r := Success(Graph(nodes, edges, summary));
  }
}
